=== FILE: README.md ===
# VizLinc database layer, modelled in Dafny

VizLinc keeps named-entity mentions extracted from a document collection. It
stores documents, the entities found in them (dates, locations, organizations
and persons) and each mention's position. This project models the part of its
database layer that the visualisation queries at run time:

- **The in-memory store** (`VizLincRDBMem`). It holds:
  - the id indexes of documents and entities;
  - the three document-entity association maps;
  - the per-document lists of mention locations.

  Its queries are:
  - the set-algebra queries ("documents holding all of these entities",
    "entities in any of these documents");
  - the mention and document counts;
  - the windowed co-occurrence queries ("entities mentioned within `distance`
    of these entities", by mention index or by text offset).
- **The records the store is built from:**
  - `Entity`, as a sum type with a `create` factory;
  - `EntitySet`, with its per-kind bucketing;
  - `Document`, whose text is fetched lazily;
  - `MentionLocation`, whose mention type is stored as a short code in a
    shared code table;
  - `InternedStringTable`.
- **The mention state machine of `XMLEntityParser`.** It is driven by an
  abstract sequence of start, characters and end events.
- **The pure parts of the two database front ends** (`VizLincDB`, `VizLincRDB`):
  - choosing an implementation from tags in the database path;
  - the new-or-existing directory check;
  - the `makeList`, `makeSet` and `count` helpers;
  - turning the relational count rows into maps.

Each file holds one module:

| file | module | models |
|---|---|---|
| `wrappers.dfy` | `Wrappers`, `Exceptions` | `Option`, `Result`, and the Java exceptions the code raises |
| `java_ints.dfy` | `JavaInts` | 32-bit and 16-bit wrap-around and `String.hashCode` |
| `int_sets.dfy` | `IntSets` | least and greatest elements of finite integer sets |
| `entity.dfy` | `Entities` | `Entity` and its four subclasses |
| `entity_set.dfy` | `EntitySets` | `EntitySet` |
| `document.dfy` | `Documents` | `Document` |
| `interned_strings.dfy` | `InternedStrings` | `InternedStringTable` |
| `mention_location.dfy` | `MentionLocations` | `MentionLocation` and its type-code table |
| `mem_store.dfy` | `MemStore` | the document and entity indexes and their lookups |
| `associations.dfy` | `Associations` | the three document-entity maps |
| `association_queries.dfy` | `AssociationQueries` | the set and count queries over those maps |
| `mention_index.dfy` | `MentionIndex` | the document-to-mention-locations index and its two lookups |
| `interval_set.dfy` | `IntervalSets` | Guava's `TreeRangeSet<Integer>`, as coalesced closed intervals |
| `proximity.dfy` | `Proximity` | the windowed co-occurrence queries |
| `xml_entity_parser.dfy` | `XmlEntityParsing` | `getXMLMentions` and `XMLMention` |
| `database_paths.dfy` | `DatabasePaths` | path tags and the directory check shared by both front ends |
| `graph_db.dfy` | `GraphDatabase` | `VizLincDB` |
| `relational_db.dfy` | `RelationalDatabase` | `VizLincRDB` |
| `association_cases.dfy`, `proximity_cases.dfy`, `xml_parser_cases.dfy` | `AssociationCases`, `ProximityCases`, `XmlEntityParserCases` | the test fixtures, stated as lemmas about the model |

**How Java constructs are represented:**
- A Java `null` result is `None`.
- A thrown exception is a `Failure` carrying the exception.
- A `HashMap` or `HashSet` whose iteration order the caller cannot see is a
  Dafny `map` or `set`.
- Mutable state is a value threaded through the operations:
  - `MentionLocation`'s static type-code table;
  - the interning table;
  - a document's text slot.

**Where the specification and the code disagree, the model follows the code.**
For `getDocumentIdsWithAllOfTheseEntityIds`, the specification says an empty
entity list selects every document. The code collects candidate documents from
the listed entities' document sets, so an empty list yields no documents.
`AssociationQueries.DocumentIdsWithAllOfTheseEntityIds` states the code's
behaviour.

## Model

All source paths are under `src/main/java/edu/mit/ll/vizlincdb/` or `src/test/java/edu/mit/ll/vizlincdb/`.

| member | source | states |
|---|---|---|
| Entities.Create | src/main/java/edu/mit/ll/vizlincdb/entity/Entity.java:29-41 | `create` succeeds exactly for the four type strings DATE, LOCATION, ORGANIZATION, PERSON and raises IllegalArgumentException("bad entity type: ...") otherwise; the created entity's `getType()` is the requested type string and its five fields are the arguments |
| Entities.CreateFromOwnType | src/main/java/edu/mit/ll/vizlincdb/entity/LocationEntity.java:29-37 | `create` inverts `getType`: re-creating any entity from its own type string and fields gives back that entity |
| Entities.EqualsIsStructural | src/main/java/edu/mit/ll/vizlincdb/entity/Entity.java:62-88 | Java `equals` (same class, then the five fields) holds exactly when the two entities are the same value, so equal fields in two different subclasses compare unequal |
| Entities.EqualEntitiesHashAlike | src/main/java/edu/mit/ll/vizlincdb/entity/Entity.java:51-60 | equal entities have equal `hashCode` values (the 32-bit hash over the five fields) |
| Entities.SetNumMentions | src/main/java/edu/mit/ll/vizlincdb/entity/Entity.java:130-133 | the mention count becomes the argument; subclass, text, document count, creator and id are unchanged |
| Entities.SetNumDocuments | src/main/java/edu/mit/ll/vizlincdb/entity/Entity.java:135-138 | the document count becomes the argument; subclass, text, mention count, creator and id are unchanged |
| Entities.ListOfEntityIds | src/main/java/edu/mit/ll/vizlincdb/entity/Entity.java:43-49 | one id per entity, position by position, so length and order are kept |
| EntitySets.Add | src/main/java/edu/mit/ll/vizlincdb/entity/EntitySet.java:60-72 | the entity is appended to the list of its own kind, the other three lists are unchanged, the size grows by one, and each list still holds only its own kind |
| EntitySets.BucketOfFlatten | src/main/java/edu/mit/ll/vizlincdb/entity/EntitySet.java:98-105 | for a valid set, the entities of each kind in `getEntities()` are exactly that kind's list, in order |
| EntitySets.AddMultiset | src/main/java/edu/mit/ll/vizlincdb/entity/EntitySet.java:60-76 | `add` grows `getEntities()` by exactly the added entity |
| EntitySets.GetEntityIds | src/main/java/edu/mit/ll/vizlincdb/entity/EntitySet.java:111-113 | the i-th id is the id of the i-th entity of `getEntities()` |
| EntitySets.FromList | src/main/java/edu/mit/ll/vizlincdb/entity/EntitySet.java:49-54 | the intended list constructor: each kind's list is exactly the entities of that kind from the input, in input order, and the size is the input's length |
| EntitySets.BucketingPermutes | src/main/java/edu/mit/ll/vizlincdb/entity/EntitySet.java:49-54 | bucketing a list and flattening it with `getEntities()` permutes the list, so no entity is lost or duplicated |
| EntitySets.BucketFlattenRoundTrip | src/main/java/edu/mit/ll/vizlincdb/entity/EntitySet.java:98-105 | building a set from `getEntities()` of a valid set gives the same set back |
| EntitySets.UpdateMentionCounts | src/main/java/edu/mit/ll/vizlincdb/entity/EntitySet.java:115-130 | in each of the four lists, each entity's mention count becomes the map's value for its id; the entity's position and its other fields stay the same |
| EntitySets.UpdateDocumentCounts | src/main/java/edu/mit/ll/vizlincdb/entity/EntitySet.java:132-148 | in each of the four lists, each entity's document count becomes the map's value for its id; the entity's position and its other fields stay the same |
| EntitySets.FromListAsWrittenAlwaysFails | src/main/java/edu/mit/ll/vizlincdb/entity/EntitySet.java:49-54 | the constructor as written throws NullPointerException on every non-empty list and leaves null lists on the empty one |
| Documents.NewDocument | src/main/java/edu/mit/ll/vizlincdb/document/Document.java:33-39 | a new document stores its name, path and id, and its text slot and Lucene id start null |
| Documents.GetText | src/main/java/edu/mit/ll/vizlincdb/document/Document.java:62-74 | a cached text is returned and nothing changes; otherwise the database's answer is stored in the slot and returned; nothing besides the slot changes |
| Documents.GetTextIsStableOnceFetched | src/main/java/edu/mit/ll/vizlincdb/document/Document.java:62-67 | once a call has returned a non-null text, a later call returns the same text and changes nothing, whatever the database would now answer |
| Documents.NullTextIsFetchedAgain | src/main/java/edu/mit/ll/vizlincdb/document/Document.java:62-67 | a null answer leaves the slot empty, so the next call returns the database's new answer |
| Documents.EqualsIgnoresTextAndLuceneId | src/main/java/edu/mit/ll/vizlincdb/document/Document.java:95-114 | `equals` holds exactly when the documents agree on name, path and id |
| Documents.EqualDocumentsHashAlike | src/main/java/edu/mit/ll/vizlincdb/document/Document.java:86-93 | equal documents have equal `hashCode` values |
| Documents.GetTextKeepsIdentity | src/main/java/edu/mit/ll/vizlincdb/document/Document.java:62-114 | filling the text slot changes neither what the document equals nor its hash |
| Documents.ListOfDocumentIds | src/main/java/edu/mit/ll/vizlincdb/document/Document.java:22-28 | one id per document, position by position |
| InternedStrings.Get | src/main/java/edu/mit/ll/vizlincdb/util/InternedStringTable.java:13-22 | null gives null and leaves the table alone; otherwise the string is in the table afterwards and the call returns its entry; a string already present leaves the table unchanged; the table only grows, by at most that string; on a table where every key maps to itself, that invariant is kept and the result equals the argument |
| InternedStrings.SecondGetSameRepresentative | src/main/java/edu/mit/ll/vizlincdb/util/InternedStringTable.java:17-21 | asking again for a string already asked for returns the same representative and leaves the table as the first call left it |
| MentionLocations.ShortCodeForType | src/main/java/edu/mit/ll/vizlincdb/entity/MentionLocation.java:142-153 | a code mapped to the type when the table has one (the least such code), and -1 exactly when no code is mapped to it |
| MentionLocations.NextShort | src/main/java/edu/mit/ll/vizlincdb/entity/MentionLocation.java:169-180 | the new code is a Java short; while the table has room it is non-negative, above every code in the table, and either 0 or one above an existing code |
| MentionLocations.NewMentionLocation | src/main/java/edu/mit/ll/vizlincdb/entity/MentionLocation.java:27-61 | the five position fields are stored, with a null entity stored as -1 and a negative text start kept; the location's code maps to its type in the resulting table; a type already present reuses its code and leaves the table unchanged; a type not yet present gets the next short code (the largest code plus one, or 0 for an empty table) and only that entry is added; while there is room, the table only grows and stays free of duplicate types |
| MentionLocations.GetMentionType | src/main/java/edu/mit/ll/vizlincdb/entity/MentionLocation.java:127-140 | the table's entry for the location's code, and null exactly when the code has no entry |
| MentionLocations.NewLocationReportsItsType | src/main/java/edu/mit/ll/vizlincdb/entity/MentionLocation.java:49-60 | a freshly built location reports the type it was built with |
| MentionLocations.EarlierLocationsKeepTheirType | src/main/java/edu/mit/ll/vizlincdb/entity/MentionLocation.java:55-60 | building a new location never changes the type an earlier location reports |
| MentionLocations.SameTypeSameCode | src/main/java/edu/mit/ll/vizlincdb/entity/MentionLocation.java:49-54 | two locations built with the same type get the same code, and the second build leaves the table unchanged |
| MentionLocations.FirstCodesAreZeroAndOne | src/main/java/edu/mit/ll/vizlincdb/entity/MentionLocation.java:169-180 | from an empty table the first type gets code 0 and a second, different type gets code 1 |
| MentionLocations.EqualsIgnoresTypeCode | src/main/java/edu/mit/ll/vizlincdb/entity/MentionLocation.java:80-104 | `equals` holds exactly when the locations agree on all fields except the type code |
| MentionLocations.EqualLocationsHashAlike | src/main/java/edu/mit/ll/vizlincdb/entity/MentionLocation.java:69-77 | equal locations have equal `hashCode` values |
| MentionLocations.FromRows | src/main/java/edu/mit/ll/vizlincdb/relational/VizLincRDB.java:349-357 | one location per row of any number of rows, in row order, each carrying its row's document, entity, index and offsets |
| MentionLocations.LoadedTableStaysValid | src/main/java/edu/mit/ll/vizlincdb/relational/VizLincRDB.java:349-357 | while the table has room for one new code per mention type it lacks, loading the rows keeps a valid table valid, keeps every entry it started with, gives every row's type a code, and allocates codes only below the first free code plus the number of new types |
| MentionLocations.NewTypesBoundedByTypes | src/main/java/edu/mit/ll/vizlincdb/entity/MentionLocation.java:49-60 | a code is allocated per new mention type, not per row: rows drawn from a set of types bring at most that many new types, whatever their number |
| MentionLocations.LoadedLocationsReportTheirTypes | src/main/java/edu/mit/ll/vizlincdb/relational/VizLincRDB.java:349-357 | under the same room condition, every loaded location reports its row's type against the table left after the last row |
| MentionLocations.LoadedLocationReportsItsType | src/main/java/edu/mit/ll/vizlincdb/relational/VizLincRDB.java:349-357 | under the same room condition, the location built from any one row reports that row's type after all later rows are loaded |
| MentionIndex.InDocument | src/main/java/edu/mit/ll/vizlincdb/relational/VizLincRDBMem.java:172-174 | a document's group holds exactly the input locations with that document id |
| MentionIndex.InDocumentAppend | src/main/java/edu/mit/ll/vizlincdb/relational/VizLincRDBMem.java:172-174 | grouping keeps input order: the group of a concatenation is the concatenation of the groups |
| MentionIndex.CountPerDocument | src/main/java/edu/mit/ll/vizlincdb/relational/VizLincRDBMem.java:156-163 | the first pass counts locations for exactly the documents that have one, and each count is the size of that document's group |
| MentionIndex.AppendPass | src/main/java/edu/mit/ll/vizlincdb/relational/VizLincRDBMem.java:172-174 | starting from empty lists for every listed document, appending each location to its document's list leaves each list equal to that document's group, in input order |
| MentionIndex.GroupByDocument | src/main/java/edu/mit/ll/vizlincdb/relational/VizLincRDBMem.java:156-175 | the rebuilt index has a list for exactly the documents with a location; each list holds that document's locations in input order; every location is in its document's list |
| MentionIndex.FetchMentionLocations | src/main/java/edu/mit/ll/vizlincdb/relational/VizLincRDBMem.java:140-183 | when both snapshot parts are present they are adopted as they are; otherwise the table is the one loading the rows leaves, each document with a row has as its list exactly the locations built from its rows, in row order, and the location of row i sits in its document's list and reports row i's mention type |
| MentionIndex.MentionLocationsForDocument | src/main/java/edu/mit/ll/vizlincdb/relational/VizLincRDBMem.java:850-858 | the document's list, or an empty list for a document without one |
| MentionIndex.MentionLocationsForEntitiesInDocument | src/main/java/edu/mit/ll/vizlincdb/relational/VizLincRDBMem.java:860-882 | the document's locations whose entity is listed, each as often as in the document's list and none other, and a NullPointerException exactly when the document has no list |
| MentionIndex.FilterOfGroup | src/main/java/edu/mit/ll/vizlincdb/relational/VizLincRDBMem.java:860-882 | filtering a document's group by entity gives the same list as grouping the entity-filtered locations |
| MentionIndex.WithEntities | src/main/java/edu/mit/ll/vizlincdb/relational/VizLincRDBMem.java:873-880 | the filter keeps a location exactly when its entity is listed, with the multiplicity it has in the input |
| MentionIndex.WithEntitiesAppend | src/main/java/edu/mit/ll/vizlincdb/relational/VizLincRDBMem.java:873-880 | the filter keeps input order: the filter of a concatenation is the concatenation of the filters |
| MemStore.DocumentIndex | src/main/java/edu/mit/ll/vizlincdb/relational/VizLincRDBMem.java:87-105 | the index has a key for exactly the ids of the documents, and each key maps to a document of the list with that id |
| MemStore.EntityIndex | src/main/java/edu/mit/ll/vizlincdb/relational/VizLincRDBMem.java:107-138 | the index has a key for exactly the ids of `getEntities()`, and each key maps to an entity of the set with that id |
| MemStore.UniqueDocumentIsFound | src/main/java/edu/mit/ll/vizlincdb/relational/VizLincRDBMem.java:100-103 | a document whose id no other document shares is what the index returns for that id |
| MemStore.LaterDocumentWins | src/main/java/edu/mit/ll/vizlincdb/relational/VizLincRDBMem.java:100-103 | of two documents with the same id, the index keeps the later one |
| MemStore.GetWithId | src/main/java/edu/mit/ll/vizlincdb/relational/VizLincRDBMem.java:362-364 | the indexed value, and null exactly for an unknown id; `getEntityWithId` (lines 386-388) is the same lookup on the entity index |
| MemStore.GetDocumentsWithIds | src/main/java/edu/mit/ll/vizlincdb/relational/VizLincRDBMem.java:372-378 | one answer per requested id, in request order, null exactly for an unknown id |
| MemStore.GetEntitiesWithIds | src/main/java/edu/mit/ll/vizlincdb/relational/VizLincRDBMem.java:406-412 | an unknown id makes `add` reject the null it adds; otherwise each kind's list holds the requested entities of that kind in request order, and the size is the number of ids |
| MemStore.EntitiesWithIdsArePermuted | src/main/java/edu/mit/ll/vizlincdb/relational/VizLincRDBMem.java:406-412 | for known ids, the returned set holds exactly the requested entities, each as often as requested |
| Associations.AddRow | src/main/java/edu/mit/ll/vizlincdb/relational/VizLincRDBMem.java:223-249 | one row adds its document-entity pair to all three maps and replaces only that pair's count; it keeps the maps consistent |
| Associations.LastCount | src/main/java/edu/mit/ll/vizlincdb/relational/VizLincRDBMem.java:247 | a pair has a count exactly when some row holds the pair |
| Associations.LastCountIsLastRow | src/main/java/edu/mit/ll/vizlincdb/relational/VizLincRDBMem.java:247 | a pair's count is the count of its last row |
| Associations.Build | src/main/java/edu/mit/ll/vizlincdb/relational/VizLincRDBMem.java:220-249 | a document lists an entity exactly when some row pairs them; the three maps describe the same pairs and have no empty entries; each pair's count is its last row's |
| Associations.LaterRowWins | src/main/java/edu/mit/ll/vizlincdb/relational/VizLincRDBMem.java:247 | a second row for the same pair replaces the first row's count |
| AssociationQueries.DocumentIdsWithAllOfTheseEntityIds | src/main/java/edu/mit/ll/vizlincdb/relational/VizLincRDBMem.java:504-521 | a NullPointerException exactly when some listed entity has no document set; otherwise a document is returned exactly when the list is non-empty and the document holds every listed entity |
| AssociationQueries.EntityIdsInAnyOfTheseDocumentIds | src/main/java/edu/mit/ll/vizlincdb/relational/VizLincRDBMem.java:552-564 | an entity is returned exactly when some listed document holds it; unknown documents add nothing |
| AssociationQueries.AllOfTheseAreInAny | src/main/java/edu/mit/ll/vizlincdb/relational/VizLincRDBMem.java:504-564 | when the first query succeeds, the two set queries agree: every listed entity of a document the first query returns is among that document's entities in the second |
| AssociationQueries.MentionCountsForEntitiesInDocuments | src/main/java/edu/mit/ll/vizlincdb/relational/VizLincRDBMem.java:575-594 | a NullPointerException exactly when some requested entity has no count map; otherwise a key for exactly the requested entities, each value the entity's mention total over the requested documents |
| AssociationQueries.NoOverlapMentionTotalIsZero | src/main/java/edu/mit/ll/vizlincdb/relational/VizLincRDBMem.java:575-594 | an entity none of whose documents is requested has mention total 0 |
| AssociationQueries.DocumentCountsForEntitiesInDocuments | src/main/java/edu/mit/ll/vizlincdb/relational/VizLincRDBMem.java:605-622 | a NullPointerException exactly when some requested entity has no document set; otherwise a key for exactly the requested entities, each value the number of the entity's documents that were requested |
| AssociationQueries.MentionTotalAtLeastDocumentTotal | src/main/java/edu/mit/ll/vizlincdb/relational/VizLincRDBMem.java:575-622 | when every stored count is at least one, an entity's mention total over some documents is at least its document count over them |
| AssociationCases.BuildFixture | src/test/java/edu/mit/ll/vizlincdb/relational/VizLincRDBMemTest.java:297-311 | the test's rows build maps in which entities 3 to 7 are keys, documents 1 and 2 hold the listed entities, and Bob's count in document 1 is 2 |
| AssociationCases.AllOfTheseEntities | src/test/java/edu/mit/ll/vizlincdb/relational/VizLincRDBMemTest.java:479-484 | only document 1 has Alice, Bob and Lexington; both documents have Alice and Bob |
| AssociationCases.MentionTotalsInDocument1 | src/test/java/edu/mit/ll/vizlincdb/relational/VizLincRDBMemTest.java:526-534 | in document 1, Bob has 2 mentions, Lexington 1 and Lincoln Lab 0 |
| AssociationCases.UnknownEntityThrows | src/main/java/edu/mit/ll/vizlincdb/relational/VizLincRDBMem.java:507-509 | asking for Alice and an id no fixture row names throws NullPointerException |
| AssociationCases.DocumentTotalsInBothDocuments | src/test/java/edu/mit/ll/vizlincdb/relational/VizLincRDBMemTest.java:540-549 | over both documents, Bob appears in 2, Lexington in 1 and Lincoln Lab in 1 |
| IntervalSets.Insert | src/main/java/edu/mit/ll/vizlincdb/relational/VizLincRDBMem.java:706 | adding a closed range covers exactly the old points plus the range's, and the intervals stay sorted, disjoint and non-adjacent |
| IntervalSets.Contains | src/main/java/edu/mit/ll/vizlincdb/relational/VizLincRDBMem.java:726 | the binary-search lookup answers true exactly when some interval covers the point |
| IntervalSets.MergeTouchingWindows | src/main/java/edu/mit/ll/vizlincdb/relational/VizLincRDBMem.java:706 | the overlapping windows [9, 11] and [11, 13] coalesce into [9, 13], which covers 13 but not 14 |
| Proximity.Windows | src/main/java/edu/mit/ll/vizlincdb/relational/VizLincRDBMem.java:693-710 | when the windows can be built (a non-negative distance, or no query-entity mention), the document's range set is valid, and a point is in it exactly when it lies within the distance of some query-entity mention |
| Proximity.DocumentFailure | src/main/java/edu/mit/ll/vizlincdb/relational/VizLincRDBMem.java:694-707 | a document fails the range-building pass exactly when it has no location list (NullPointerException) or its windows cannot be built (IllegalArgumentException from `Range.closed`) |
| Proximity.BuildFailure | src/main/java/edu/mit/ll/vizlincdb/relational/VizLincRDBMem.java:693-710 | the pass throws nothing exactly when every requested document's windows are built; otherwise it throws the exception of the first failing document in request order |
| Proximity.NegativeDistanceCountsNothing | src/main/java/edu/mit/ll/vizlincdb/relational/VizLincRDBMem.java:706 | with a negative distance no window covers any point, so no mention in a document is counted |
| Proximity.NegativeDistanceTotalsZero | src/main/java/edu/mit/ll/vizlincdb/relational/VizLincRDBMem.java:677-750 | with a negative distance that throws nothing, every entity's total is zero, so the count query's answer is empty |
| Proximity.CountNearPositive | src/main/java/edu/mit/ll/vizlincdb/relational/VizLincRDBMem.java:715-734 | an entity's count in a document is positive exactly when one of its mentions lies in a window |
| Proximity.CountNearInDocument | src/main/java/edu/mit/ll/vizlincdb/relational/VizLincRDBMem.java:715-734 | the per-document counts have a key for exactly the wanted entities with a mention in a window, and each value is the number of such mentions |
| Proximity.DocumentsBoundedByMentions | src/main/java/edu/mit/ll/vizlincdb/relational/VizLincRDBMem.java:736-747 | an entity's document count never exceeds its mention count, and is positive exactly when the mention count is |
| Proximity.EntitiesMentionedNearEntities | src/main/java/edu/mit/ll/vizlincdb/relational/VizLincRDBMem.java:677-750 | the exception `BuildFailure` names exactly when the range-building pass fails; otherwise an entity appears exactly when it is wanted and has a qualifying mention; its counts are the total of qualifying mentions over the requested documents and the number of those documents holding one; 1 <= documentCount <= mentionCount |
| Proximity.EntitiesMentionedNearEntitiesByIndex | src/main/java/edu/mit/ll/vizlincdb/relational/VizLincRDBMem.java:649-651 | the same query and the same exceptions, with mention indexes as positions |
| Proximity.EntitiesMentionedNearEntitiesByTextOffset | src/main/java/edu/mit/ll/vizlincdb/relational/VizLincRDBMem.java:669-671 | the same query and the same exceptions, with mention start offsets as positions |
| Proximity.HasMentionNear | src/main/java/edu/mit/ll/vizlincdb/relational/VizLincRDBMem.java:826-844 | the scan, which stops at the first match, finds a match exactly when some mention of the wanted entity lies in a window |
| Proximity.DocumentsForEntitiesMentionedNearEntity | src/main/java/edu/mit/ll/vizlincdb/relational/VizLincRDBMem.java:790-848 | the exception `BuildFailure` names exactly when the range-building pass fails; otherwise a document is returned exactly when it was requested and some mention of the wanted entity in it lies in a window |
| Proximity.DocumentsForEntitiesMentionedNearEntityByIndex | src/main/java/edu/mit/ll/vizlincdb/relational/VizLincRDBMem.java:766-768 | the same query and the same exceptions, with mention indexes as positions |
| Proximity.DocumentsForEntitiesMentionedNearEntityByTextOffset | src/main/java/edu/mit/ll/vizlincdb/relational/VizLincRDBMem.java:782-784 | the same query and the same exceptions, with mention start offsets as positions |
| Proximity.DocumentQueryMatchesCounts | src/main/java/edu/mit/ll/vizlincdb/relational/VizLincRDBMem.java:677-848 | for any list of distinct indexed documents, the document query returns exactly those whose near count for the entity is positive, and the count query's document count for the entity is the size of that answer |
| ProximityCases.AliceWithinOneIndex | src/test/java/edu/mit/ll/vizlincdb/relational/VizLincRDBMemTest.java:604-612 | Alice within one index in document 1: Bob counts (1, 1), Lexington not at all |
| ProximityCases.BobWithinTwoIndexes | src/test/java/edu/mit/ll/vizlincdb/relational/VizLincRDBMemTest.java:614-623 | Bob within two indexes in document 1: Alice (1, 1) and Lexington (1, 1) |
| ProximityCases.AliceWithinFiveIndexes | src/test/java/edu/mit/ll/vizlincdb/relational/VizLincRDBMemTest.java:625-635 | Alice within five indexes in document 1: Alice's own mention counts (1), Bob 2, Lexington 1 |
| ProximityCases.AliceWithinFiveIndexesInBothDocuments | src/test/java/edu/mit/ll/vizlincdb/relational/VizLincRDBMemTest.java:637-647 | the same query over both documents: Alice (2, 2), Bob (3, 2), Lexington (1, 1) |
| ProximityCases.AliceWithinTenCharacters | src/test/java/edu/mit/ll/vizlincdb/relational/VizLincRDBMemTest.java:657-665 | Alice within ten characters in document 1: only the first Bob mention counts (1, 1) |
| ProximityCases.LexingtonNearBobOnlyInDocument1 | src/test/java/edu/mit/ll/vizlincdb/relational/VizLincRDBMemTest.java:720-738 | Lexington within one index: Bob is near it in document 1, not in document 2, and Alice is never near it |
| XmlEntityParsing.AddCharacters | src/main/java/edu/mit/ll/vizlincdb/xml/XMLEntityParser.java:108-125 | a chunk is appended to an open mention's text and moves its end offset; a mention with no start yet takes the chunk's start offset and the current token counter |
| XmlEntityParsing.OnStart | src/main/java/edu/mit/ll/vizlincdb/xml/XMLEntityParser.java:88-106 | TEXT resets the token counter; a tag of the set pushes a new mention with the next index, empty text, no offsets, and the number of open mentions as depth; other tags change nothing but the open elements |
| XmlEntityParsing.OnCharacters | src/main/java/edu/mit/ll/vizlincdb/xml/XMLEntityParser.java:108-127 | every open mention takes in the chunk, and the token counter advances by the chunk's token count |
| XmlEntityParsing.OnEnd | src/main/java/edu/mit/ll/vizlincdb/xml/XMLEntityParser.java:129-134 | an end tag that does not close the innermost open element is a parse error; a tag of the set moves the most recently opened mention to the output; other tags leave the mentions alone |
| XmlEntityParsing.CountsWords | src/main/java/edu/mit/ll/vizlincdb/xml/XMLEntityParser.java:126 | a chunk of words separated by single spaces counts one token per word |
| XmlEntityParsing.BlankChunkCountsOne | src/main/java/edu/mit/ll/vizlincdb/xml/XMLEntityParser.java:126 | a chunk of whitespace only, or an empty chunk, still counts one token |
| XmlEntityParsing.RunKeepsInv | src/main/java/edu/mit/ll/vizlincdb/xml/XMLEntityParser.java:80-134 | after any run without an exception, the last index handed out is one less than the number of mention-opening start tags seen; without TEXT in the tag set, each open mention sits at its stack depth and every index handed out belongs to a mention |
| XmlEntityParsing.PlaceByIndex | src/main/java/edu/mit/ll/vizlincdb/xml/XMLEntityParser.java:142-147 | the reorder fails exactly when some index is outside the array; otherwise slot i is filled exactly when some mention has index i, and then holds one of those mentions |
| XmlEntityParsing.GetXMLMentionsFillsEverySlot | src/main/java/edu/mit/ll/vizlincdb/xml/XMLEntityParser.java:60-154 | a successful parse has one slot per mention-opening start tag, and slot i holds the mention with index i |
| XmlEntityParserCases.NestedMentions | src/test/java/edu/mit/ll/vizlincdb/xml/XMLEntityParserTest.java:87-95 | for nested entities, the outer mention collects the inner one's text, the inner one sits one level deeper, and the outer one comes first although it closes last |
| XmlEntityParserCases.NestedUnitTest | src/test/java/edu/mit/ll/vizlincdb/xml/XMLEntityParserTest.java:87-95 | the nested test's expected result: ENA "def ghi jkl" at token offset 1 and depth 0, then ENB "ghi" at token offset 2 and depth 1 |
| XmlEntityParserCases.MismatchedEndTag | src/test/java/edu/mit/ll/vizlincdb/xml/XMLEntityParserTest.java:101-116 | an end tag that does not close the open entity element is a parse error (this also covers the missing end tag, where the footer's TEXT end tag arrives first) |
| XmlEntityParserCases.MissingEndTag | src/main/java/edu/mit/ll/vizlincdb/xml/XMLEntityParser.java:149-152 | an entity element still open when the events run out is a parse error |
| DatabasePaths.ContainsInfixOccurs | src/main/java/edu/mit/ll/vizlincdb/graph/VizLincDB.java:50-57 | the left-to-right scan for a substring finds it exactly when it occurs at some position |
| DatabasePaths.FirstTagged | src/main/java/edu/mit/ll/vizlincdb/graph/VizLincDB.java:50-59 | the answer is the first implementation, in declaration order, one of whose tags the path carries, and none exactly when no implementation's tag is carried |
| DatabasePaths.CheckDatabaseDirectory | src/main/java/edu/mit/ll/vizlincdb/graph/VizLincDB.java:122-132 | the check passes exactly when a new database meets a missing or empty directory, or an existing one meets a non-empty directory; otherwise it raises the matching IllegalArgumentException; the relational constructor (relational/VizLincRDB.java:121-131) applies the same rule |
| GraphDatabase.ImplementationForPath | src/main/java/edu/mit/ll/vizlincdb/graph/VizLincDB.java:30-59 | TinkerGraph exactly when the path carries the tg or tinker tag; Neo4j (the default) otherwise |
| GraphDatabase.Neo4jPath | src/main/java/edu/mit/ll/vizlincdb/graph/VizLincDB.java:45-55 | a path ending with .neo4j opens Neo4j |
| GraphDatabase.TinkerPath | src/main/java/edu/mit/ll/vizlincdb/graph/VizLincDB.java:31-59 | a path ending with .tinker opens TinkerGraph |
| GraphDatabase.TinkerGraphBeforeNeo4j | src/main/java/edu/mit/ll/vizlincdb/graph/VizLincDB.java:51-58 | a path carrying both a TinkerGraph tag and the Neo4j tag opens TinkerGraph |
| GraphDatabase.MakeList | src/main/java/edu/mit/ll/vizlincdb/graph/VizLincDB.java:802-808 | every item of the iteration, in order |
| GraphDatabase.MakeSet | src/main/java/edu/mit/ll/vizlincdb/graph/VizLincDB.java:787-793 | exactly the items of the iteration |
| GraphDatabase.Count | src/main/java/edu/mit/ll/vizlincdb/graph/VizLincDB.java:845-853 | the number of items as a Java int, so it equals the length up to 2^31 - 1 and wraps beyond |
| RelationalDatabase.ImplementationForPath | src/main/java/edu/mit/ll/vizlincdb/relational/VizLincRDB.java:34-60 | the tag scan finds an implementation exactly when the path carries the h2 tag, but H2 is chosen either way |
| RelationalDatabase.LastRowCount | src/main/java/edu/mit/ll/vizlincdb/relational/VizLincRDB.java:640-645 | an entity has a row count exactly when some row names it, and the count is that of the last row naming it, the one whose put survives |
| RelationalDatabase.MentionCountsFromRows | src/main/java/edu/mit/ll/vizlincdb/relational/VizLincRDB.java:631-654 | a key for exactly the requested entities and the entities in the rows; an entity in the rows gets its row count, any other gets 0 |
| RelationalDatabase.DocumentCountsFromRows | src/main/java/edu/mit/ll/vizlincdb/relational/VizLincRDB.java:662-679 | a key for exactly the entities in the rows, each with the count of the last row naming it, the one whose put survives |
| RelationalDatabase.UnmentionedEntityOnlyInMentionCounts | src/main/java/edu/mit/ll/vizlincdb/relational/VizLincRDB.java:631-679 | a requested entity that no row names gets 0 in the mention counts and is missing from the document counts |
| JavaInts.Utf16Units | src/main/java/edu/mit/ll/vizlincdb/entity/Entity.java:53 | a character below U+10000 is one code unit, itself; any other is a high and a low surrogate that decode back to it |
| JavaInts.HashFromAppend | src/main/java/edu/mit/ll/vizlincdb/entity/Entity.java:53 | folding `31 * h + unit` over a concatenation continues from the fold of the first part |
| JavaInts.StringHashSnoc | src/main/java/edu/mit/ll/vizlincdb/document/Document.java:89-90 | `String.hashCode` of a string with one more character continues from the shorter string's hash over the new character's UTF-16 code units |
| JavaInts.HashFromShort | src/main/java/edu/mit/ll/vizlincdb/entity/Entity.java:53 | folding one code unit is the step `31 * h + unit`, folding two is two such steps, in `int` arithmetic |
| JavaInts.Wrap32 | src/main/java/edu/mit/ll/vizlincdb/graph/VizLincDB.java:845-853 | the Java int equal to the argument modulo 2^32; an argument in int range is returned unchanged |

## Left out

- **Snapshot files.** Kryo and Java-serialization files (`fetchKryo`, `saveKryo`, `fetchSerialized`, `saveSerialized`) are file I/O. A snapshot part is an `Option` that is present or absent. Saving snapshots is not modelled.
- **Association-map snapshots.** The snapshot of the three association maps is not modelled; `Associations.Build` is the rebuild from rows only.
- **SQL.** Query execution in `VizLincRDB` is external. The rows a query returns are an input sequence: the mention rows, the document-entity rows and the count rows.
- **Graph engine.** The Gremlin/Blueprints graph queries of `VizLincDB`, `fetchGeoPoints`, `getTopGeoPointsForLocationEntityIds` and the geo classes are not modelled. They depend on the graph engine's property API and on floating point.
- **Calls the in-memory store delegates to the relational one.** This covers `getDocumentText`, `getDistinctMentionTexts...` and `getMentionWithId`: they are SQL.
- **Lucene, CSV ingestion, timers and benchmarks** are not modelled.
- **`makeSetOfIds` and `makeListOfIds`** are not modelled. They read an id property through the graph engine's element API.
- **The XML reader.** Woodstox's character offsets are inputs of the characters events. Its well-formedness checks are reduced to end tags matching the innermost open element. Its `XMLStreamException` is translated to a `Parse` failure directly.
- **setTypeCodeTable and getTypeCodeTable** are the explicit table argument and result of `MentionLocations.NewMentionLocation` and `MentionIndex.FetchMentionLocations`. Adopting a snapshot's table replaces it whole.
- **Iteration order.** `HashMap` and `HashSet` iteration order, and so the order of lists the Java builds from hash sets, is not modelled. Those results are sets or maps.
- **Duplicate docIds.** A docId repeated in a query's docId collection is visited twice, as in the Java. Its counts are added twice, and `Proximity.TotalMentions` and `Proximity.DocumentsWithMentions` count with repetition.
- **Proximity.EntitiesMentionedNearEntities**: `pos - distance` and `pos + distance` are unbounded integers. Java's 32-bit wrap-around for positions within `distance` of the int range is not modelled.
- **Proximity.EntitiesMentionedNearEntities**: mention totals are also unbounded, with no 32-bit wrap-around.
- **AssociationQueries.MentionCountsForEntitiesInDocuments**: sums are unbounded integers. The Java `Integer` additions would wrap past 2^31 - 1.
- **MentionLocations.ShortCodeForType**: returns the least matching code rather than the first one in `HashMap` order. The two agree on every table the constructor builds, where a type has at most one code.
- **MentionLocations.LoadedTableStaysValid**: stated only while the starting table has room below the largest short for one new code per mention type it lacks; a load may have any number of rows. The wrap of `findNextShort` past 32767 is stated by `MentionLocations.NextShort` but not followed through a load.
- **MentionLocations.LoadedLocationsReportTheirTypes**: stated under the same room condition, one new code per new mention type, for any number of rows.
- **MentionIndex.FetchMentionLocations**: the rebuild path requires the same room condition, one new code per mention type the table lacks, and accepts any number of rows.
- **MentionLocations.NewMentionLocation**: the table-growth and validity guarantees are stated only while the table has room below the largest short.
- **AssociationQueries.DocumentIdsWithAllOfTheseEntityIds**: requires the maps to be consistent, which `Associations.Build` guarantees for every map the store builds.
- **Proximity.DocumentFailure**: the `IllegalArgumentException` message is "Invalid range" without the two bounds Guava appends to it.
- **InternedStrings.Get**: the identity of the returned object is value equality here. "The same representative" is stated as "the table's entry".
- **The four-list `EntitySet` constructor** is the datatype's own constructor. Like the Java, it does not check that each list holds only its own kind; `EntitySets.Valid` states that property.
- **Plain accessors** are the datatype fields or the store's inputs: `getDocuments`, `getEntities`, `getPersonEntities` and its siblings, and `getDateEntities` and the other list getters.
- **Object sharing** is not modelled. The Java store's indexes and the lists and `EntitySet`s it returns share the same mutable `Entity` and `Document` objects, so `updateMentionCounts`, `setNum*` and the `getText` cache are seen through every reference. Here each update returns a new value, because entities and documents are immutable datatypes.
- **Null type and text strings** are not modelled: a mention type and a document text are plain strings. A null mention type would make a later `getShortCodeForType` call `equals` on null.
- **The Mention record** is not part of this model. `EntityCounts` and `XMLMention` appear only as datatypes.

## Findings

| source | as written | input that shows it | evidently intended | confidence | as-written member | corrected member |
|---|---|---|---|---|---|---|
| src/main/java/edu/mit/ll/vizlincdb/entity/EntitySet.java:49-54 | the `EntitySet(List<Entity>)` constructor calls `super()`, the `Object` constructor, instead of `this()`, so the four lists stay null and the first `add` throws `NullPointerException` | any non-empty list, e.g. one date entity | start from four empty lists and add each entity to the list of its kind | high; not executed | EntitySets.FromListAsWrittenAlwaysFails | EntitySets.FromList |

=== FILE: association_cases.dfy ===
/**
 * The association fixtures of the in-memory store's test suite
 * (`relational/VizLincRDBMemTest.java`): the `document_entity` rows it
 * inserts and the answers its set and count tests expect.
 *
 * Ids follow the fixture's order of creation: documents 1 and 2, then
 * Alice 3, Bob 4, Lexington 5, Lincoln Lab 6 and the date 2012 as 7.
 */
module AssociationCases {
  import opened Wrappers
  import opened Exceptions
  import opened Associations
  import opened AssociationQueries
  import IntSets

  /** Document 1 mentions Alice once, Bob twice and Lexington once; document 2 mentions Alice, Bob, 2012 and Lincoln Lab once each. */
  function Rows(): seq<AssociationRow> {
    [ AssociationRow(1, 3, 1), AssociationRow(1, 4, 2), AssociationRow(1, 5, 1),
      AssociationRow(2, 3, 1), AssociationRow(2, 4, 1), AssociationRow(2, 7, 1), AssociationRow(2, 6, 1) ]
  }

  /** The pairs the rows hold, one by one. */
  lemma Pairs()
    ensures forall d, e :: HasPair(Rows(), d, e) <==>
      (d == 1 && e in {3, 4, 5}) || (d == 2 && e in {3, 4, 6, 7})
  {
    var rows := Rows();
    forall d, e ensures HasPair(rows, d, e) <==> (d == 1 && e in {3, 4, 5}) || (d == 2 && e in {3, 4, 6, 7}) {
      if d == 1 && e == 3 { assert rows[0].documentId == d && rows[0].entityId == e; }
      if d == 1 && e == 4 { assert rows[1].documentId == d && rows[1].entityId == e; }
      if d == 1 && e == 5 { assert rows[2].documentId == d && rows[2].entityId == e; }
      if d == 2 && e == 3 { assert rows[3].documentId == d && rows[3].entityId == e; }
      if d == 2 && e == 4 { assert rows[4].documentId == d && rows[4].entityId == e; }
      if d == 2 && e == 7 { assert rows[5].documentId == d && rows[5].entityId == e; }
      if d == 2 && e == 6 { assert rows[6].documentId == d && rows[6].entityId == e; }
    }
  }

  /** What the tests rely on about the maps built from the fixture rows. */
  ghost predicate FixtureMaps(a: Associations) {
    && Consistent(a)
    && (forall e :: 3 <= e <= 7 ==> e in a.entityToDocuments && e in a.entityToDocumentToCount)
    && (forall d, e :: DocumentHasEntity(a, d, e) <==> (d == 1 && e in {3, 4, 5}) || (d == 2 && e in {3, 4, 6, 7}))
    && EntityHasCount(a, 4, 1) && a.entityToDocumentToCount[4][1] == 2
    && EntityHasCount(a, 5, 1) && a.entityToDocumentToCount[5][1] == 1
  }

  /** The fixture rows build maps with those facts; Bob's count in document 1 is the row's 2. */
  lemma {:induction false} BuildFixture(rows: seq<AssociationRow>)
    requires rows == Rows()
    ensures FixtureMaps(Build(rows))
  {
    var a := Build(rows);
    Pairs();
    FixtureKeys(rows);
    FixtureLastCounts(rows);
    assert DocumentHasEntity(a, 1, 4) && DocumentHasEntity(a, 1, 5);
    assert EntityHasCount(a, 4, 1) && EntityHasCount(a, 5, 1);
  }

  /** Each of the entities 3 to 7 appears in some row, so both entity maps have it as a key. */
  lemma {:induction false} FixtureKeys(rows: seq<AssociationRow>)
    requires rows == Rows()
    ensures forall e :: 3 <= e <= 7 ==> e in Build(rows).entityToDocuments && e in Build(rows).entityToDocumentToCount
  {
    var a := Build(rows);
    Pairs();
    forall e | 3 <= e <= 7 ensures e in a.entityToDocuments && e in a.entityToDocumentToCount {
      var d := if e in {3, 4, 5} then 1 else 2;
      assert HasPair(rows, d, e);
      assert EntityHasDocument(a, e, d);
    }
  }

  /** Bob's and Lexington's last rows in document 1 are the second and third, with 2 and 1 mentions. */
  lemma FixtureLastCounts(rows: seq<AssociationRow>)
    requires rows == Rows()
    ensures LastCount(rows, 1, 4) == Some(2) && LastCount(rows, 1, 5) == Some(1)
  {
    LastCountIsLastRow(rows, 1, 1, 4);
    LastCountIsLastRow(rows, 2, 1, 5);
  }

  /** Only document 1 has Alice, Bob and Lexington; both documents have Alice and Bob. */
  lemma AllOfTheseEntities(a: Associations)
    requires FixtureMaps(a)
    ensures DocumentIdsWithAllOfTheseEntityIds(a, [3, 4, 5]) == Success({1})
    ensures DocumentIdsWithAllOfTheseEntityIds(a, [3, 4]) == Success({1, 2})
  {
    assert forall i :: 0 <= i < |[3, 4, 5]| ==> [3, 4, 5][i] in a.entityToDocuments;
    assert forall i :: 0 <= i < |[3, 4]| ==> [3, 4][i] in a.entityToDocuments;
    var r1 := DocumentIdsWithAllOfTheseEntityIds(a, [3, 4, 5]).value;
    forall d ensures d in r1 <==> d == 1 {
      assert 5 in [3, 4, 5];
      if d == 1 {
        assert forall e :: e in [3, 4, 5] ==> DocumentHasEntity(a, d, e);
      }
    }
    assert r1 == {1};
    var r2 := DocumentIdsWithAllOfTheseEntityIds(a, [3, 4]).value;
    forall d ensures d in r2 <==> d == 1 || d == 2 {
      assert 3 in [3, 4];
      if d == 1 || d == 2 {
        assert forall e :: e in [3, 4] ==> DocumentHasEntity(a, d, e);
      }
    }
    assert r2 == {1, 2};
  }

  /** Mention totals in document 1: Bob 2, Lexington 1, Lincoln Lab 0. */
  lemma MentionTotalsInDocument1(a: Associations)
    requires FixtureMaps(a)
    ensures MentionTotal(a, 4, {1}) == 2
    ensures MentionTotal(a, 5, {1}) == 1
    ensures MentionTotal(a, 6, {1}) == 0
  {
    assert !EntityHasCount(a, 6, 1) by {
      assert !DocumentHasEntity(a, 1, 6);
    }
    assert a.entityToDocumentToCount[4].Keys * {1} == {1};
    assert a.entityToDocumentToCount[5].Keys * {1} == {1};
    assert a.entityToDocumentToCount[6].Keys * {1} == {};
  }

  /** Document totals over both documents: Bob 2, Lexington 1, Lincoln Lab 1. */
  lemma DocumentTotalsInBothDocuments(a: Associations)
    requires FixtureMaps(a)
    ensures DocumentTotal(a, 4, {1, 2}) == 2
    ensures DocumentTotal(a, 5, {1, 2}) == 1
    ensures DocumentTotal(a, 6, {1, 2}) == 1
  {
    assert a.entityToDocuments[4] * {1, 2} == {1, 2} by {
      assert DocumentHasEntity(a, 1, 4) && DocumentHasEntity(a, 2, 4);
    }
    assert a.entityToDocuments[5] * {1, 2} == {1} by {
      assert DocumentHasEntity(a, 1, 5) && !DocumentHasEntity(a, 2, 5);
    }
    assert a.entityToDocuments[6] * {1, 2} == {2} by {
      assert !DocumentHasEntity(a, 1, 6) && DocumentHasEntity(a, 2, 6);
    }
  }

  /** An id no fixture row names (8) has no document set, so asking for it alongside Alice throws. */
  lemma UnknownEntityThrows(a: Associations)
    requires FixtureMaps(a)
    ensures DocumentIdsWithAllOfTheseEntityIds(a, [3, 8]) == Failure(NullPointer)
  {
    assert 8 !in a.entityToDocuments by {
      if 8 in a.entityToDocuments {
        IntSets.EmptyOrMember(a.entityToDocuments[8]);
        var d :| d in a.entityToDocuments[8];
        assert EntityHasDocument(a, 8, d);
      }
    }
    assert [3, 8][1] == 8;
  }
}

=== FILE: association_queries.dfy ===
/**
 * The set-algebra and count queries of the in-memory store over its three
 * document-entity maps (`relational/VizLincRDBMem.java`,
 * `getDocumentIdsWithAllOfTheseEntityIds`, `getEntityIdsInAnyofTheseDocumentIds`,
 * `getMentionCountsForEntitiesInDocuments`,
 * `getDocumentCountsForEntitiesInDocuments`).
 *
 * The Java returns lists built from hash sets, so their order is the hash
 * order; here those results are sets. A requested entity that is not a key
 * of the map a query reads makes the Java dereference null: that query
 * fails with `NullPointer`.
 */
module AssociationQueries {
  import opened Wrappers
  import opened Exceptions
  import opened Associations
  import IntSets

  /** The union of `m[k]` over the listed keys, skipping keys `m` lacks. */
  function UnionOver(m: map<int, set<int>>, keys: seq<int>): (r: set<int>)
    ensures forall x :: x in r <==> exists k :: k in keys && k in m && x in m[k]
    decreases |keys|
  {
    if |keys| == 0 then {}
    else
      var init := keys[..|keys| - 1];
      var last := keys[|keys| - 1];
      var u := UnionOver(m, init);
      var r := if last in m then u + m[last] else u;
      assert keys == init + [last];
      r
  }

  /**
   * `getDocumentIdsWithAllOfTheseEntityIds`: the documents of any listed
   * entity whose entity set contains every listed entity. An empty list has
   * no candidate documents, so its answer is empty. Adding the document set
   * of an entity the map lacks adds null, which throws.
   */
  function DocumentIdsWithAllOfTheseEntityIds(a: Associations, entityIds: seq<int>): (r: Result<set<int>, Exception>)
    requires Consistent(a)
    ensures r.Failure? <==> exists i :: 0 <= i < |entityIds| && entityIds[i] !in a.entityToDocuments
    ensures r.Failure? ==> r.error == NullPointer
    ensures r.Success? ==> forall d :: d in r.value <==> |entityIds| > 0 && forall e :: e in entityIds ==> DocumentHasEntity(a, d, e)
  {
    if exists i :: 0 <= i < |entityIds| && entityIds[i] !in a.entityToDocuments then Failure(NullPointer)
    else
    var possible := UnionOver(a.entityToDocuments, entityIds);
    var wanted := set e | e in entityIds;
    assert forall d :: d in possible ==> d in a.documentToEntities by {
      forall d | d in possible ensures d in a.documentToEntities {
        var k :| k in entityIds && k in a.entityToDocuments && d in a.entityToDocuments[k];
        assert EntityHasDocument(a, k, d);
      }
    }
    var r := set d | d in possible && a.documentToEntities[d] >= wanted;
    assert forall d :: d in r <==> |entityIds| > 0 && forall e :: e in entityIds ==> DocumentHasEntity(a, d, e) by {
      forall d ensures d in r <==> |entityIds| > 0 && forall e :: e in entityIds ==> DocumentHasEntity(a, d, e) {
        if |entityIds| > 0 && forall e :: e in entityIds ==> DocumentHasEntity(a, d, e) {
          assert DocumentHasEntity(a, d, entityIds[0]);
          assert EntityHasDocument(a, entityIds[0], d);
          assert d in possible;
          forall e | e in wanted ensures e in a.documentToEntities[d] {
            assert DocumentHasEntity(a, d, e);
          }
        }
        if d in r {
          var k :| k in entityIds && k in a.entityToDocuments && d in a.entityToDocuments[k];
          forall e | e in entityIds ensures DocumentHasEntity(a, d, e) {
            assert e in wanted;
          }
        }
      }
    }
    Success(r)
  }

  /** `getEntityIdsInAnyofTheseDocumentIds`: every entity of some listed document; unknown documents add nothing. */
  function EntityIdsInAnyOfTheseDocumentIds(a: Associations, docIds: seq<int>): (r: set<int>)
    ensures forall e :: e in r <==> exists d :: d in docIds && DocumentHasEntity(a, d, e)
  {
    UnionOver(a.documentToEntities, docIds)
  }

  /** The two queries agree: every entity of a document that has all listed entities is among that document's entities. */
  lemma AllOfTheseAreInAny(a: Associations, entityIds: seq<int>, d: int)
    requires Consistent(a)
    requires DocumentIdsWithAllOfTheseEntityIds(a, entityIds).Success?
    requires d in DocumentIdsWithAllOfTheseEntityIds(a, entityIds).value
    ensures forall e :: e in entityIds ==> e in EntityIdsInAnyOfTheseDocumentIds(a, [d])
  {
    forall e | e in entityIds ensures e in EntityIdsInAnyOfTheseDocumentIds(a, [d]) {
      assert DocumentHasEntity(a, d, e);
      assert d in [d];
    }
  }

  /** The total of `m[k]` over `keys`, taken in ascending key order. */
  function SumCounts(m: map<int, int>, keys: set<int>): int
    requires keys <= m.Keys
    decreases keys
  {
    if keys == {} then 0
    else
      var k := IntSets.Least(keys);
      m[k] + SumCounts(m, keys - {k})
  }

  /** The total does not depend on which key is taken first. */
  lemma {:induction false} SumCountsRemove(m: map<int, int>, keys: set<int>, k: int)
    requires keys <= m.Keys && k in keys
    ensures SumCounts(m, keys) == m[k] + SumCounts(m, keys - {k})
    decreases keys
  {
    var least := IntSets.Least(keys);
    if k != least {
      SumCountsRemove(m, keys - {least}, k);
      SumCountsRemove(m, keys - {k}, least);
      assert keys - {least} - {k} == keys - {k} - {least};
    }
  }

  /** With every count at least one, the total is at least the number of keys. */
  lemma {:induction false} SumCountsAtLeastSize(m: map<int, int>, keys: set<int>)
    requires keys <= m.Keys
    requires forall k :: k in keys ==> m[k] >= 1
    ensures SumCounts(m, keys) >= |keys|
    decreases keys
  {
    if keys != {} {
      var k := IntSets.Least(keys);
      SumCountsAtLeastSize(m, keys - {k});
    }
  }

  /** An entity none of whose documents is requested has a mention total of zero. */
  lemma NoOverlapMentionTotalIsZero(a: Associations, e: int, docIds: set<int>)
    requires e in a.entityToDocumentToCount
    requires forall d :: d in docIds ==> !EntityHasCount(a, e, d)
    ensures MentionTotal(a, e, docIds) == 0
  {
    var m := a.entityToDocumentToCount[e];
    forall d | d in m.Keys ensures d !in docIds {
      assert EntityHasCount(a, e, d);
    }
    assert m.Keys * docIds == {};
  }

  /** The mention total of entity `e` over the documents in `docIds`. */
  function MentionTotal(a: Associations, e: int, docIds: set<int>): int
    requires e in a.entityToDocumentToCount
  {
    var m := a.entityToDocumentToCount[e];
    SumCounts(m, m.Keys * docIds)
  }

  /**
   * `getMentionCountsForEntitiesInDocuments`: for each requested entity, walk
   * its document-to-count map and add the counts of the requested documents.
   * The first requested entity without a count map throws.
   */
  method MentionCountsForEntitiesInDocuments(a: Associations, entityIds: seq<int>, docIds: seq<int>)
    returns (r: Result<map<int, int>, Exception>)
    ensures r.Failure? <==> exists i :: 0 <= i < |entityIds| && entityIds[i] !in a.entityToDocumentToCount
    ensures r.Failure? ==> r.error == NullPointer
    ensures r.Success? ==> r.value.Keys == set e | e in entityIds
    ensures r.Success? ==> forall e :: e in r.value ==> e in a.entityToDocumentToCount && r.value[e] == MentionTotal(a, e, set d | d in docIds)
  {
    var docSet := set d | d in docIds;
    var totals := map[];
    for i := 0 to |entityIds|
      invariant forall k :: 0 <= k < i ==> entityIds[k] in a.entityToDocumentToCount
      invariant totals.Keys == set e | e in entityIds[..i]
      invariant forall e :: e in totals ==> e in a.entityToDocumentToCount && totals[e] == MentionTotal(a, e, docSet)
    {
      var e := entityIds[i];
      if e !in a.entityToDocumentToCount {
        return Failure(NullPointer);
      }
      var m := a.entityToDocumentToCount[e];
      var total := 0;
      var left := m.Keys;
      while left != {}
        invariant left <= m.Keys
        invariant total + SumCounts(m, left * docSet) == SumCounts(m, m.Keys * docSet)
        decreases left
      {
        IntSets.EmptyOrMember(left);
        var k :| k in left;
        if k in docSet {
          SumCountsRemove(m, left * docSet, k);
          assert (left - {k}) * docSet == left * docSet - {k};
          total := total + m[k];
        } else {
          assert (left - {k}) * docSet == left * docSet;
        }
        left := left - {k};
      }
      assert left * docSet == {};
      totals := totals[e := total];
      assert entityIds[..i + 1] == entityIds[..i] + [e];
    }
    assert entityIds[..|entityIds|] == entityIds;
    r := Success(totals);
  }

  /** The count of documents of `e` among the requested documents. */
  function DocumentTotal(a: Associations, e: int, docIds: set<int>): nat
    requires e in a.entityToDocuments
  {
    |a.entityToDocuments[e] * docIds|
  }

  /**
   * `getDocumentCountsForEntitiesInDocuments`: for each requested entity,
   * count its documents that are among the requested ones. The first
   * requested entity without a document set throws.
   */
  method DocumentCountsForEntitiesInDocuments(a: Associations, entityIds: seq<int>, docIds: seq<int>)
    returns (r: Result<map<int, int>, Exception>)
    ensures r.Failure? <==> exists i :: 0 <= i < |entityIds| && entityIds[i] !in a.entityToDocuments
    ensures r.Failure? ==> r.error == NullPointer
    ensures r.Success? ==> r.value.Keys == set e | e in entityIds
    ensures r.Success? ==> forall e :: e in r.value ==> e in a.entityToDocuments && r.value[e] == DocumentTotal(a, e, set d | d in docIds)
  {
    var docSet := set d | d in docIds;
    var counts := map[];
    for i := 0 to |entityIds|
      invariant forall k :: 0 <= k < i ==> entityIds[k] in a.entityToDocuments
      invariant counts.Keys == set e | e in entityIds[..i]
      invariant forall e :: e in counts ==> e in a.entityToDocuments && counts[e] == DocumentTotal(a, e, docSet)
    {
      var e := entityIds[i];
      if e !in a.entityToDocuments {
        return Failure(NullPointer);
      }
      var docs := a.entityToDocuments[e];
      var count := 0;
      var left := docs;
      while left != {}
        invariant left <= docs
        invariant count + |left * docSet| == |docs * docSet|
        decreases left
      {
        IntSets.EmptyOrMember(left);
        var d :| d in left;
        if d in docSet {
          assert (left - {d}) * docSet == left * docSet - {d};
          count := count + 1;
        } else {
          assert (left - {d}) * docSet == left * docSet;
        }
        left := left - {d};
      }
      assert left * docSet == {};
      counts := counts[e := count];
      assert entityIds[..i + 1] == entityIds[..i] + [e];
    }
    assert entityIds[..|entityIds|] == entityIds;
    r := Success(counts);
  }

  /**
   * When every stored count is at least one (each association row records at
   * least one mention), an entity's mention total over some documents is at
   * least the number of those documents it appears in.
   */
  lemma MentionTotalAtLeastDocumentTotal(a: Associations, e: int, docIds: set<int>)
    requires Consistent(a) && e in a.entityToDocuments
    requires forall d :: EntityHasCount(a, e, d) ==> a.entityToDocumentToCount[e][d] >= 1
    ensures MentionTotal(a, e, docIds) >= DocumentTotal(a, e, docIds)
  {
    var m := a.entityToDocumentToCount[e];
    assert a.entityToDocuments[e] == m.Keys by {
      forall d ensures d in a.entityToDocuments[e] <==> d in m {
        assert EntityHasDocument(a, e, d) <==> EntityHasCount(a, e, d);
      }
    }
    forall k | k in m.Keys * docIds ensures m[k] >= 1 {
      assert EntityHasCount(a, e, k);
    }
    SumCountsAtLeastSize(m, m.Keys * docIds);
  }
}

=== FILE: associations.dfy ===
/**
 * The three document-entity maps of the in-memory store
 * (`relational/VizLincRDBMem.java`, `fetchDocumentEntityAndMentionMaps`),
 * built from the rows of the `document_entity` table.
 *
 * The rows are an abstract sequence: the SQL query that produces them and the
 * snapshot files that may replace the build are not part of this module.
 */
module Associations {
  import opened Wrappers

  /** One row of `SELECT document_id, entity_id, num_mentions FROM document_entity`. */
  datatype AssociationRow = AssociationRow(documentId: int, entityId: int, numMentions: int)

  /** `documentIdToEntityIds`, `entityIdToDocumentIds` and `entityIdToDocumentIdToMentionCount`. */
  datatype Associations = Associations(
    documentToEntities: map<int, set<int>>,
    entityToDocuments: map<int, set<int>>,
    entityToDocumentToCount: map<int, map<int, int>>)

  const NoAssociations: Associations := Associations(map[], map[], map[])

  predicate DocumentHasEntity(a: Associations, d: int, e: int) {
    d in a.documentToEntities && e in a.documentToEntities[d]
  }

  predicate EntityHasDocument(a: Associations, e: int, d: int) {
    e in a.entityToDocuments && d in a.entityToDocuments[e]
  }

  predicate EntityHasCount(a: Associations, e: int, d: int) {
    e in a.entityToDocumentToCount && d in a.entityToDocumentToCount[e]
  }

  /**
   * The three maps describe the same document-entity pairs, an entity has a
   * count map exactly when it has a document set, and no key maps to an
   * empty set.
   */
  ghost predicate Consistent(a: Associations) {
    && (forall d, e :: DocumentHasEntity(a, d, e) <==> EntityHasDocument(a, e, d))
    && (forall d, e :: EntityHasDocument(a, e, d) <==> EntityHasCount(a, e, d))
    && (forall d :: d in a.documentToEntities ==> a.documentToEntities[d] != {})
    && (forall e :: e in a.entityToDocuments ==> a.entityToDocuments[e] != {})
    && a.entityToDocuments.Keys == a.entityToDocumentToCount.Keys
  }

  /**
   * One turn of the row loop: add the entity to the document's set, the
   * document to the entity's set, and put the row's count under the entity
   * and document, replacing an earlier count for the same pair.
   */
  function AddRow(a: Associations, row: AssociationRow): (r: Associations)
    ensures forall d, e :: DocumentHasEntity(r, d, e) <==> DocumentHasEntity(a, d, e) || (d == row.documentId && e == row.entityId)
    ensures forall d, e :: EntityHasCount(r, e, d) <==> EntityHasCount(a, e, d) || (d == row.documentId && e == row.entityId)
    ensures EntityHasCount(r, row.entityId, row.documentId)
      && r.entityToDocumentToCount[row.entityId][row.documentId] == row.numMentions
    ensures forall d, e :: EntityHasCount(a, e, d) && (d != row.documentId || e != row.entityId) ==>
      EntityHasCount(r, e, d) && r.entityToDocumentToCount[e][d] == a.entityToDocumentToCount[e][d]
    ensures Consistent(a) ==> Consistent(r)
  {
    var d, e := row.documentId, row.entityId;
    var entities := if d in a.documentToEntities then a.documentToEntities[d] else {};
    var documents := if e in a.entityToDocuments then a.entityToDocuments[e] else {};
    var counts := if e in a.entityToDocumentToCount then a.entityToDocumentToCount[e] else map[];
    Associations(
      a.documentToEntities[d := entities + {e}],
      a.entityToDocuments[e := documents + {d}],
      a.entityToDocumentToCount[e := counts[d := row.numMentions]])
  }

  /** Some row pairs document `d` with entity `e`. */
  ghost predicate HasPair(rows: seq<AssociationRow>, d: int, e: int) {
    exists i :: 0 <= i < |rows| && rows[i].documentId == d && rows[i].entityId == e
  }

  /** The count of the last row that pairs `d` with `e`: the one whose `put` survives. */
  function LastCount(rows: seq<AssociationRow>, d: int, e: int): (c: Option<int>)
    ensures c.Some? <==> HasPair(rows, d, e)
    decreases |rows|
  {
    if |rows| == 0 then None
    else
      var last := rows[|rows| - 1];
      HasPairSnoc(rows, d, e);
      if last.documentId == d && last.entityId == e then Some(last.numMentions)
      else LastCount(rows[..|rows| - 1], d, e)
  }

  /** The count is that of the row after which no row repeats the pair. */
  lemma {:induction false} LastCountIsLastRow(rows: seq<AssociationRow>, i: int, d: int, e: int)
    requires 0 <= i < |rows| && rows[i].documentId == d && rows[i].entityId == e
    requires forall j :: i < j < |rows| ==> !(rows[j].documentId == d && rows[j].entityId == e)
    ensures LastCount(rows, d, e) == Some(rows[i].numMentions)
    decreases |rows|
  {
    if i < |rows| - 1 {
      var init := rows[..|rows| - 1];
      assert init[i] == rows[i];
      LastCountIsLastRow(init, i, d, e);
    }
  }

  lemma HasPairSnoc(rows: seq<AssociationRow>, d: int, e: int)
    requires |rows| > 0
    ensures HasPair(rows, d, e) <==>
      HasPair(rows[..|rows| - 1], d, e) || (rows[|rows| - 1].documentId == d && rows[|rows| - 1].entityId == e)
  {
    var init := rows[..|rows| - 1];
    if HasPair(init, d, e) {
      var i :| 0 <= i < |init| && init[i].documentId == d && init[i].entityId == e;
      assert rows[i] == init[i];
    }
    if HasPair(rows, d, e) {
      var i :| 0 <= i < |rows| && rows[i].documentId == d && rows[i].entityId == e;
      if i < |init| {
        assert init[i] == rows[i];
      }
    }
  }

  /**
   * The whole row loop. A document lists an entity exactly when some row
   * pairs them, the three maps agree, and each pair's count is the count of
   * its last row.
   */
  function Build(rows: seq<AssociationRow>): (a: Associations)
    ensures Consistent(a)
    ensures forall d, e :: DocumentHasEntity(a, d, e) <==> HasPair(rows, d, e)
    ensures forall d, e :: EntityHasCount(a, e, d) ==> Some(a.entityToDocumentToCount[e][d]) == LastCount(rows, d, e)
    decreases |rows|
  {
    if |rows| == 0 then NoAssociations
    else
      var init := rows[..|rows| - 1];
      var prefix := Build(init);
      var r := AddRow(prefix, rows[|rows| - 1]);
      assert forall d, e :: DocumentHasEntity(r, d, e) <==> HasPair(rows, d, e) by {
        forall d, e ensures DocumentHasEntity(r, d, e) <==> HasPair(rows, d, e) {
          HasPairSnoc(rows, d, e);
        }
      }
      r
  }

  /** A second row for the same pair replaces the first row's count. */
  lemma LaterRowWins(d: int, e: int, first: int, second: int)
    ensures Build([AssociationRow(d, e, first), AssociationRow(d, e, second)]).entityToDocumentToCount[e][d] == second
  {
    var rows := [AssociationRow(d, e, first), AssociationRow(d, e, second)];
    assert rows[..1] == [AssociationRow(d, e, first)];
    assert HasPair(rows, d, e) by {
      assert rows[1].documentId == d && rows[1].entityId == e;
    }
  }
}

=== FILE: database_paths.dfy ===
/**
 * What the graph and relational front ends share: choosing an implementation
 * from tags in the database path, and the new-or-existing directory check of
 * their constructors (`graph/VizLincDB.java`, `relational/VizLincRDB.java`).
 *
 * The file system is outside the model: a directory is described by whether
 * the path names a directory and how many entries it lists.
 */
module DatabasePaths {
  import opened Wrappers
  import opened Exceptions

  predicate EndsWith(s: string, suffix: string) {
    |suffix| <= |s| && s[|s| - |suffix|..] == suffix
  }

  /** `t` occurs in `s` starting at position `i`. */
  predicate OccursAt(s: string, t: string, i: int) {
    0 <= i <= |s| - |t| && s[i..i + |t|] == t
  }

  /** `s.contains(t)`, scanning the start positions from the left. */
  predicate ContainsInfix(s: string, t: string)
    decreases |s|
  {
    if |s| < |t| then false else s[..|t|] == t || ContainsInfix(s[1..], t)
  }

  /** The scan finds `t` exactly when `t` occurs at some position. */
  lemma {:induction false} ContainsInfixOccurs(s: string, t: string)
    ensures ContainsInfix(s, t) <==> exists i :: OccursAt(s, t, i)
    decreases |s|
  {
    if |s| >= |t| {
      if |s| > 0 {
        ContainsInfixOccurs(s[1..], t);
        forall i | OccursAt(s[1..], t, i) ensures OccursAt(s, t, i + 1) {
          assert s[1..][i..i + |t|] == s[i + 1..i + 1 + |t|];
        }
        forall i | OccursAt(s, t, i) && i > 0 ensures OccursAt(s[1..], t, i - 1) {
          assert s[1..][i - 1..i - 1 + |t|] == s[i..i + |t|];
        }
      }
      if s[..|t|] == t {
        assert OccursAt(s, t, 0);
      }
    }
  }

  /** A string in which the first two characters of `t` never appear side by side does not contain `t`. */
  lemma NoInfixWithoutItsStart(s: string, t: string)
    requires |t| >= 2
    requires forall i :: 0 <= i < |s| - 1 ==> !(s[i] == t[0] && s[i + 1] == t[1])
    ensures !ContainsInfix(s, t)
  {
    ContainsInfixOccurs(s, t);
    forall i | 0 <= i <= |s| - |t| ensures !OccursAt(s, t, i) {
      assert s[i..i + |t|][0] == s[i] && s[i..i + |t|][1] == s[i + 1];
    }
  }

  /** A path carries a tag when it ends with `.tag` or contains `.tag.`. */
  predicate HasTag(path: string, tag: string) {
    EndsWith(path, "." + tag) || ContainsInfix(path, "." + tag + ".")
  }

  /** Some tag of the list is carried by the path. */
  predicate HasAnyTag(path: string, tags: seq<string>) {
    exists i :: 0 <= i < |tags| && HasTag(path, tags[i])
  }

  /**
   * The scan of `implementationForPath`: the first implementation, in
   * declaration order, one of whose tags the path carries; `None` when no
   * implementation matches and the default applies.
   */
  function FirstTagged<T(==)>(path: string, impls: seq<T>, tags: T -> seq<string>): (r: Option<T>)
    ensures r.None? <==> forall i :: 0 <= i < |impls| ==> !HasAnyTag(path, tags(impls[i]))
    ensures r.Some? ==> exists i :: (0 <= i < |impls| && impls[i] == r.value && HasAnyTag(path, tags(impls[i]))
      && forall j :: 0 <= j < i ==> !HasAnyTag(path, tags(impls[j])))
    decreases |impls|
  {
    if |impls| == 0 then None
    else if HasAnyTag(path, tags(impls[0])) then
      Some(impls[0])
    else
      var rest := FirstTagged(path, impls[1..], tags);
      assert forall i :: 1 <= i < |impls| ==> impls[i] == impls[1..][i - 1];
      if rest.Some? then
        var k :| (0 <= k < |impls[1..]| && impls[1..][k] == rest.value && HasAnyTag(path, tags(impls[1..][k]))
          && forall j :: 0 <= j < k ==> !HasAnyTag(path, tags(impls[1..][j])));
        assert forall j :: 0 <= j < k + 1 ==> !HasAnyTag(path, tags(impls[j])) by {
          forall j | 0 <= j < k + 1 ensures !HasAnyTag(path, tags(impls[j])) {
            if j > 0 {
              assert impls[j] == impls[1..][j - 1];
            }
          }
        }
        rest
      else
        rest
  }

  /**
   * The constructors' directory check. Opening an existing database needs a
   * non-empty directory; creating a new one needs the directory to be
   * missing or empty. A path that is not a directory counts as missing.
   */
  function CheckDatabaseDirectory(isDirectory: bool, entries: nat, newDB: bool): (r: Option<Exception>)
    ensures r.None? <==> (newDB <==> !(isDirectory && entries > 0))
    ensures r.Some? && newDB ==> r.value == IllegalArgument("Non-empty directory already exists: cannot create a new database")
    ensures r.Some? && !newDB ==> r.value == IllegalArgument("No database present: directory does not exist or is empty.")
  {
    if isDirectory && entries > 0 then
      if newDB then Some(IllegalArgument("Non-empty directory already exists: cannot create a new database")) else None
    else
      if !newDB then Some(IllegalArgument("No database present: directory does not exist or is empty.")) else None
  }
}

=== FILE: document.dfy ===
/**
 * `Document` (`document/Document.java`): a document's name, path and id, with
 * a text slot that is filled on demand and a Lucene id that is set later.
 *
 * The database a `getText` call reads from is an abstract function from
 * document id to text (`None` for a null answer), and the mutated document is
 * returned alongside the text.
 */
module Documents {
  import opened Wrappers
  import JavaInts

  datatype Document = Document(
    name: Option<string>,
    path: Option<string>,
    text: Option<string>,
    id: int,
    luceneId: Option<int>)

  /** `Document(name, path, id)`: the text is fetched on demand and the Lucene id assigned later, so both start null. */
  function NewDocument(name: Option<string>, path: Option<string>, id: int): (d: Document)
    ensures d.text == None && d.luceneId == None
    ensures d.name == name && d.path == path && d.id == id
  {
    Document(name, path, None, id, None)
  }

  /** What a `getText` call leaves behind: the document with its slot as updated, and the text returned. */
  datatype TextAnswer = TextAnswer(document: Document, text: Option<string>)

  /**
   * `getText(db)`: a cached text is returned without consulting `fetch`;
   * otherwise the fetched text (possibly null) is stored in the slot and
   * returned. Nothing but the slot changes.
   */
  function GetText(doc: Document, fetch: int -> Option<string>): (r: TextAnswer)
    ensures doc.text.Some? ==> r.text == doc.text && r.document == doc
    ensures doc.text.None? ==> r.text == fetch(doc.id)
    ensures r.document.text == r.text
    ensures r.document.(text := doc.text) == doc
  {
    if doc.text.None? then
      var fetched := fetch(doc.id);
      TextAnswer(doc.(text := fetched), fetched)
    else
      TextAnswer(doc, doc.text)
  }

  /** Once a call returned a non-null text, every later call returns that text and changes nothing, whatever the database says. */
  lemma GetTextIsStableOnceFetched(doc: Document, fetch1: int -> Option<string>, fetch2: int -> Option<string>)
    requires GetText(doc, fetch1).text.Some?
    ensures GetText(GetText(doc, fetch1).document, fetch2) == GetText(doc, fetch1)
  {
  }

  /** A null answer leaves the slot empty, so the next call asks the database again. */
  lemma NullTextIsFetchedAgain(doc: Document, fetch1: int -> Option<string>, fetch2: int -> Option<string>)
    requires doc.text.None? && fetch1(doc.id).None?
    ensures GetText(GetText(doc, fetch1).document, fetch2).text == fetch2(doc.id)
  {
  }

  /** `equals`: name and path (null-aware) and id; the text slot and the Lucene id take no part. */
  predicate Equals(a: Document, b: Document) {
    a.name == b.name && a.path == b.path && a.id == b.id
  }

  /** `hashCode`: start at 7 and fold `89 * hash + x` over the name's hash (0 for null), the path's hash, and the id. */
  function HashCode(d: Document): int {
    var h := JavaInts.HashStep(89, 7, if d.name.Some? then JavaInts.StringHash(d.name.value) else 0);
    var h := JavaInts.HashStep(89, h, if d.path.Some? then JavaInts.StringHash(d.path.value) else 0);
    JavaInts.HashStep(89, h, d.id)
  }

  /** `equals` is value equality once the text slot and Lucene id are blanked out. */
  lemma EqualsIgnoresTextAndLuceneId(a: Document, b: Document)
    ensures Equals(a, b) <==> a.(text := None, luceneId := None) == b.(text := None, luceneId := None)
  {
  }

  /** `hashCode` is consistent with `equals`. */
  lemma EqualDocumentsHashAlike(a: Document, b: Document)
    requires Equals(a, b)
    ensures HashCode(a) == HashCode(b)
  {
  }

  /** Filling the text slot does not change what the document is equal to, nor its hash. */
  lemma GetTextKeepsIdentity(doc: Document, fetch: int -> Option<string>)
    ensures Equals(GetText(doc, fetch).document, doc)
    ensures HashCode(GetText(doc, fetch).document) == HashCode(doc)
  {
  }

  /** `listOfDocumentIds`: the ids, one per document, in list order. */
  function ListOfDocumentIds(docs: seq<Document>): (ids: seq<int>)
    ensures |ids| == |docs|
    ensures forall i :: 0 <= i < |docs| ==> ids[i] == docs[i].id
  {
    if |docs| == 0 then [] else ListOfDocumentIds(docs[..|docs| - 1]) + [docs[|docs| - 1].id]
  }
}

=== FILE: entity.dfy ===
/**
 * `Entity` and its four subclasses (`entity/Entity.java`, `DateEntity.java`,
 * `LocationEntity.java`, `OrganizationEntity.java`, `PersonEntity.java`).
 *
 * The abstract class with four concrete subclasses becomes one sum type whose
 * four constructors carry the same five fields. Java's `equals` first
 * compares classes, then the five fields; Dafny's structural equality on this
 * datatype is the same relation (see `EqualsIsStructural`).
 */
module Entities {
  import opened Wrappers
  import opened Exceptions
  import JavaInts

  datatype Entity =
    | DateEntity(text: string, numDocuments: int, numMentions: int, createdBy: string, id: int)
    | LocationEntity(text: string, numDocuments: int, numMentions: int, createdBy: string, id: int)
    | OrganizationEntity(text: string, numDocuments: int, numMentions: int, createdBy: string, id: int)
    | PersonEntity(text: string, numDocuments: int, numMentions: int, createdBy: string, id: int)

  /** The class of an entity, without its fields. */
  datatype EntityKind = Date | Location | Organization | Person

  /** The type strings of `VizLincProperties`, returned by each subclass's `getTypeForClass`. */
  const DateType: string := "DATE"
  const LocationType: string := "LOCATION"
  const OrganizationType: string := "ORGANIZATION"
  const PersonType: string := "PERSON"

  function KindOf(e: Entity): EntityKind {
    match e
    case DateEntity(_, _, _, _, _) => Date
    case LocationEntity(_, _, _, _, _) => Location
    case OrganizationEntity(_, _, _, _, _) => Organization
    case PersonEntity(_, _, _, _, _) => Person
  }

  function TypeForKind(k: EntityKind): string {
    match k
    case Date => DateType
    case Location => LocationType
    case Organization => OrganizationType
    case Person => PersonType
  }

  /** `getType()`: each subclass answers its own `getTypeForClass()`. */
  function TypeOf(e: Entity): string {
    TypeForKind(KindOf(e))
  }

  /** The subclass constructor for `k`. */
  function Make(k: EntityKind, text: string, numDocuments: int, numMentions: int, createdBy: string, id: int): Entity {
    match k
    case Date => DateEntity(text, numDocuments, numMentions, createdBy, id)
    case Location => LocationEntity(text, numDocuments, numMentions, createdBy, id)
    case Organization => OrganizationEntity(text, numDocuments, numMentions, createdBy, id)
    case Person => PersonEntity(text, numDocuments, numMentions, createdBy, id)
  }

  /**
   * `Entity.create`: pick the subclass whose type string equals `entityType`,
   * testing DATE, LOCATION, ORGANIZATION, PERSON in that order; any other
   * string raises `IllegalArgumentException`.
   */
  function Create(entityType: string, text: string, numDocuments: int, numMentions: int, createdBy: string, id: int): (r: Result<Entity, Exception>)
    ensures r.Success? <==> entityType in {DateType, LocationType, OrganizationType, PersonType}
    ensures r.Failure? ==> r.error == IllegalArgument("bad entity type: " + entityType)
    ensures r.Success? ==> TypeOf(r.value) == entityType
    ensures r.Success? ==> && r.value.text == text && r.value.numDocuments == numDocuments
                           && r.value.numMentions == numMentions && r.value.createdBy == createdBy
                           && r.value.id == id
  {
    if entityType == DateType then Success(DateEntity(text, numDocuments, numMentions, createdBy, id))
    else if entityType == LocationType then Success(LocationEntity(text, numDocuments, numMentions, createdBy, id))
    else if entityType == OrganizationType then Success(OrganizationEntity(text, numDocuments, numMentions, createdBy, id))
    else if entityType == PersonType then Success(PersonEntity(text, numDocuments, numMentions, createdBy, id))
    else Failure(IllegalArgument("bad entity type: " + entityType))
  }

  /** `create` inverts `getType`: re-creating an entity from its own type string and fields gives it back. */
  lemma CreateFromOwnType(e: Entity)
    ensures Create(TypeOf(e), e.text, e.numDocuments, e.numMentions, e.createdBy, e.id) == Success(e)
  {
  }

  /** `equals`, written as the Java code compares: same class, then the five fields one by one. */
  predicate Equals(a: Entity, b: Entity) {
    && KindOf(a) == KindOf(b)
    && a.text == b.text
    && a.numDocuments == b.numDocuments
    && a.numMentions == b.numMentions
    && a.createdBy == b.createdBy
    && a.id == b.id
  }

  /** `equals` is exactly value equality of the sum type: equal fields in two different variants compare unequal. */
  lemma EqualsIsStructural(a: Entity, b: Entity)
    ensures Equals(a, b) <==> a == b
  {
  }

  /** `hashCode` over text, numDocuments, numMentions, createdBy and id (the class is not hashed). */
  function HashCode(e: Entity): int {
    var h := JavaInts.HashStep(23, 5, JavaInts.StringHash(e.text));
    var h := JavaInts.HashStep(23, h, e.numDocuments);
    var h := JavaInts.HashStep(23, h, e.numMentions);
    var h := JavaInts.HashStep(23, h, JavaInts.StringHash(e.createdBy));
    JavaInts.HashStep(23, h, e.id)
  }

  /** `hashCode` is consistent with `equals`. */
  lemma EqualEntitiesHashAlike(a: Entity, b: Entity)
    requires Equals(a, b)
    ensures HashCode(a) == HashCode(b)
  {
  }

  /** `setNumMentions`: changes the mention count and nothing else. */
  function SetNumMentions(e: Entity, mentionCount: int): (r: Entity)
    ensures r.numMentions == mentionCount
    ensures KindOf(r) == KindOf(e) && r.text == e.text && r.numDocuments == e.numDocuments
    ensures r.createdBy == e.createdBy && r.id == e.id
  {
    e.(numMentions := mentionCount)
  }

  /** `setNumDocuments`: changes the document count and nothing else. */
  function SetNumDocuments(e: Entity, docCount: int): (r: Entity)
    ensures r.numDocuments == docCount
    ensures KindOf(r) == KindOf(e) && r.text == e.text && r.numMentions == e.numMentions
    ensures r.createdBy == e.createdBy && r.id == e.id
  {
    e.(numDocuments := docCount)
  }

  /** `listOfEntityIds`: the ids, one per entity, in list order. */
  function ListOfEntityIds(entities: seq<Entity>): (ids: seq<int>)
    ensures |ids| == |entities|
    ensures forall i :: 0 <= i < |entities| ==> ids[i] == entities[i].id
  {
    if |entities| == 0 then [] else ListOfEntityIds(entities[..|entities| - 1]) + [entities[|entities| - 1].id]
  }
}

=== FILE: entity_set.dfy ===
/**
 * `EntitySet` (`entity/EntitySet.java`): four lists of entities, one per
 * entity class, as the store hands them to the in-memory index.
 */
module EntitySets {
  import opened Wrappers
  import opened Exceptions
  import opened Entities

  datatype EntitySet = EntitySet(
    dateEntities: seq<Entity>,
    locationEntities: seq<Entity>,
    organizationEntities: seq<Entity>,
    personEntities: seq<Entity>)

  /** The list an entity of kind `k` belongs to. */
  function Bucket(s: EntitySet, k: EntityKind): seq<Entity> {
    match k
    case Date => s.dateEntities
    case Location => s.locationEntities
    case Organization => s.organizationEntities
    case Person => s.personEntities
  }

  predicate AllOfKind(es: seq<Entity>, k: EntityKind) {
    forall i :: 0 <= i < |es| ==> KindOf(es[i]) == k
  }

  /** What the typed Java lists (`List<DateEntity>`, ...) guarantee. */
  predicate Valid(s: EntitySet) {
    && AllOfKind(s.dateEntities, Date)
    && AllOfKind(s.locationEntities, Location)
    && AllOfKind(s.organizationEntities, Organization)
    && AllOfKind(s.personEntities, Person)
  }

  /** `new EntitySet()`: four empty lists. */
  const Empty: EntitySet := EntitySet([], [], [], [])

  /** `size()`. */
  function Size(s: EntitySet): nat {
    |s.dateEntities| + |s.locationEntities| + |s.organizationEntities| + |s.personEntities|
  }

  /** `add`: append `e` to the list of its own class; the other three lists are untouched. */
  function Add(s: EntitySet, e: Entity): (r: EntitySet)
    ensures Bucket(r, KindOf(e)) == Bucket(s, KindOf(e)) + [e]
    ensures forall k :: k != KindOf(e) ==> Bucket(r, k) == Bucket(s, k)
    ensures Size(r) == Size(s) + 1
    ensures Valid(s) ==> Valid(r)
  {
    match e
    case DateEntity(_, _, _, _, _) => s.(dateEntities := s.dateEntities + [e])
    case LocationEntity(_, _, _, _, _) => s.(locationEntities := s.locationEntities + [e])
    case OrganizationEntity(_, _, _, _, _) => s.(organizationEntities := s.organizationEntities + [e])
    case PersonEntity(_, _, _, _, _) => s.(personEntities := s.personEntities + [e])
  }

  /** `getEntities()`: date, location, organization and person entities, in that order. */
  function GetEntities(s: EntitySet): (r: seq<Entity>)
    ensures |r| == Size(s)
  {
    s.dateEntities + s.locationEntities + s.organizationEntities + s.personEntities
  }

  /** `getEntityIds()`: the ids of `getEntities()`, in the same order. */
  function GetEntityIds(s: EntitySet): (ids: seq<int>)
    ensures |ids| == Size(s)
    ensures forall i :: 0 <= i < |ids| ==> ids[i] == GetEntities(s)[i].id
  {
    ListOfEntityIds(GetEntities(s))
  }

  /** The entities of kind `k` in `l`, in order: the reference for bucketing. */
  function FilterKind(l: seq<Entity>, k: EntityKind): seq<Entity>
    decreases |l|
  {
    if |l| == 0 then []
    else FilterKind(l[..|l| - 1], k) + (if KindOf(l[|l| - 1]) == k then [l[|l| - 1]] else [])
  }

  /**
   * The `EntitySet(List<Entity>)` constructor as evidently intended: start
   * from four empty lists and `add` every entity in turn.
   */
  function FromList(l: seq<Entity>): (r: EntitySet)
    ensures Valid(r)
    ensures forall k :: Bucket(r, k) == FilterKind(l, k)
    ensures Size(r) == |l|
    decreases |l|
  {
    if |l| == 0 then Empty else Add(FromList(l[..|l| - 1]), l[|l| - 1])
  }

  lemma FilterKindAppend(a: seq<Entity>, b: seq<Entity>, k: EntityKind)
    ensures FilterKind(a + b, k) == FilterKind(a, k) + FilterKind(b, k)
    decreases |b|
  {
    if |b| == 0 {
      assert a + b == a;
    } else {
      assert (a + b)[..|a + b| - 1] == a + b[..|b| - 1];
      FilterKindAppend(a, b[..|b| - 1], k);
    }
  }

  lemma FilterKindOfBucket(l: seq<Entity>, j: EntityKind, k: EntityKind)
    requires AllOfKind(l, j)
    ensures FilterKind(l, k) == if j == k then l else []
    decreases |l|
  {
    if |l| > 0 {
      FilterKindOfBucket(l[..|l| - 1], j, k);
    }
  }

  lemma BucketOfFlatten(s: EntitySet, k: EntityKind)
    requires Valid(s)
    ensures FilterKind(GetEntities(s), k) == Bucket(s, k)
  {
    var d, o, g, p := s.dateEntities, s.locationEntities, s.organizationEntities, s.personEntities;
    FilterKindAppend(d + o + g, p, k);
    FilterKindAppend(d + o, g, k);
    FilterKindAppend(d, o, k);
    var fd, fo, fg, fp := FilterKind(d, k), FilterKind(o, k), FilterKind(g, k), FilterKind(p, k);
    assert FilterKind(GetEntities(s), k) == fd + fo + fg + fp;
    FilterKindOfBucket(d, Date, k);
    FilterKindOfBucket(o, Location, k);
    FilterKindOfBucket(g, Organization, k);
    FilterKindOfBucket(p, Person, k);
    var b := Bucket(s, k);
    assert fd + fo + fg + fp == b by {
      if k == Date {
        assert fo == [] && fg == [] && fp == [] && fd == b;
      } else if k == Location {
        assert fd == [] && fg == [] && fp == [] && fo == b;
      } else if k == Organization {
        assert fd == [] && fo == [] && fp == [] && fg == b;
      } else {
        assert fd == [] && fo == [] && fg == [] && fp == b;
      }
    }
  }

  /** Flattening a valid set and bucketing the result again gives the same set back. */
  lemma BucketFlattenRoundTrip(s: EntitySet)
    requires Valid(s)
    ensures FromList(GetEntities(s)) == s
  {
    var r := FromList(GetEntities(s));
    BucketOfFlatten(s, Date);
    BucketOfFlatten(s, Location);
    BucketOfFlatten(s, Organization);
    BucketOfFlatten(s, Person);
    assert Bucket(r, Date) == Bucket(s, Date);
    assert Bucket(r, Location) == Bucket(s, Location);
    assert Bucket(r, Organization) == Bucket(s, Organization);
    assert Bucket(r, Person) == Bucket(s, Person);
  }

  /** Growing one part of a four-part concatenation by `e` adds `e` to the whole. */
  lemma GrowPart(a: seq<Entity>, b: seq<Entity>, c: seq<Entity>, d: seq<Entity>,
                 a': seq<Entity>, b': seq<Entity>, c': seq<Entity>, d': seq<Entity>, e: Entity)
    requires multiset(a') + multiset(b') + multiset(c') + multiset(d')
          == multiset(a) + multiset(b) + multiset(c) + multiset(d) + multiset{e}
    ensures multiset(a' + b' + c' + d') == multiset(a + b + c + d) + multiset{e}
  {
  }

  lemma AddMultiset(s: EntitySet, e: Entity)
    ensures multiset(GetEntities(Add(s, e))) == multiset(GetEntities(s)) + multiset{e}
  {
    var r := Add(s, e);
    var d, o, g, p := s.dateEntities, s.locationEntities, s.organizationEntities, s.personEntities;
    match e
    case DateEntity(_, _, _, _, _) =>
      assert multiset(d + [e]) == multiset(d) + multiset{e};
      GrowPart(d, o, g, p, d + [e], o, g, p, e);
    case LocationEntity(_, _, _, _, _) =>
      assert multiset(o + [e]) == multiset(o) + multiset{e};
      GrowPart(d, o, g, p, d, o + [e], g, p, e);
    case OrganizationEntity(_, _, _, _, _) =>
      assert multiset(g + [e]) == multiset(g) + multiset{e};
      GrowPart(d, o, g, p, d, o, g + [e], p, e);
    case PersonEntity(_, _, _, _, _) =>
      assert multiset(p + [e]) == multiset(p) + multiset{e};
      GrowPart(d, o, g, p, d, o, g, p + [e], e);
  }

  /** Bucketing a list and flattening it again permutes the list: nothing is lost or duplicated. */
  lemma {:induction false} BucketingPermutes(l: seq<Entity>)
    ensures multiset(GetEntities(FromList(l))) == multiset(l)
    decreases |l|
  {
    if |l| > 0 {
      var init, e := l[..|l| - 1], l[|l| - 1];
      assert l == init + [e];
      BucketingPermutes(init);
      var s := FromList(init);
      assert FromList(l) == Add(s, e);
      AddMultiset(s, e);
      assert multiset(l) == multiset(init) + multiset{e};
    }
  }

  predicate IdsIn(l: seq<Entity>, counts: map<int, int>) {
    forall i :: 0 <= i < |l| ==> l[i].id in counts
  }

  predicate AllIdsIn(s: EntitySet, counts: map<int, int>) {
    && IdsIn(s.dateEntities, counts) && IdsIn(s.locationEntities, counts)
    && IdsIn(s.organizationEntities, counts) && IdsIn(s.personEntities, counts)
  }

  /** `after` is `before` with every entity's mention count replaced by `counts[id]`. */
  predicate MentionsUpdated(before: seq<Entity>, after: seq<Entity>, counts: map<int, int>)
    requires IdsIn(before, counts)
  {
    |after| == |before| && forall i :: 0 <= i < |before| ==> after[i] == SetNumMentions(before[i], counts[before[i].id])
  }

  /** `after` is `before` with every entity's document count replaced by `counts[id]`. */
  predicate DocumentsUpdated(before: seq<Entity>, after: seq<Entity>, counts: map<int, int>)
    requires IdsIn(before, counts)
  {
    |after| == |before| && forall i :: 0 <= i < |before| ==> after[i] == SetNumDocuments(before[i], counts[before[i].id])
  }

  function UpdateMentionCountsAux(l: seq<Entity>, counts: map<int, int>): (r: seq<Entity>)
    requires IdsIn(l, counts)
    ensures MentionsUpdated(l, r, counts)
    decreases |l|
  {
    if |l| == 0 then [] else UpdateMentionCountsAux(l[..|l| - 1], counts) + [SetNumMentions(l[|l| - 1], counts[l[|l| - 1].id])]
  }

  function UpdateDocumentCountsAux(l: seq<Entity>, counts: map<int, int>): (r: seq<Entity>)
    requires IdsIn(l, counts)
    ensures DocumentsUpdated(l, r, counts)
    decreases |l|
  {
    if |l| == 0 then [] else UpdateDocumentCountsAux(l[..|l| - 1], counts) + [SetNumDocuments(l[|l| - 1], counts[l[|l| - 1].id])]
  }

  /**
   * `updateMentionCounts`: every entity's mention count becomes
   * `mentionMap[id]`, list by list. The Java code unboxes
   * `mentionMap.get(id)`, so every id must be a key.
   */
  function UpdateMentionCounts(s: EntitySet, mentionMap: map<int, int>): (r: EntitySet)
    requires AllIdsIn(s, mentionMap)
    ensures MentionsUpdated(s.dateEntities, r.dateEntities, mentionMap)
    ensures MentionsUpdated(s.locationEntities, r.locationEntities, mentionMap)
    ensures MentionsUpdated(s.organizationEntities, r.organizationEntities, mentionMap)
    ensures MentionsUpdated(s.personEntities, r.personEntities, mentionMap)
    ensures Valid(s) ==> Valid(r)
  {
    EntitySet(
      UpdateMentionCountsAux(s.dateEntities, mentionMap),
      UpdateMentionCountsAux(s.locationEntities, mentionMap),
      UpdateMentionCountsAux(s.organizationEntities, mentionMap),
      UpdateMentionCountsAux(s.personEntities, mentionMap))
  }

  /** `updateDocumentCounts`: every entity's document count becomes `docCountMap[id]`; every id must be a key. */
  function UpdateDocumentCounts(s: EntitySet, docCountMap: map<int, int>): (r: EntitySet)
    requires AllIdsIn(s, docCountMap)
    ensures DocumentsUpdated(s.dateEntities, r.dateEntities, docCountMap)
    ensures DocumentsUpdated(s.locationEntities, r.locationEntities, docCountMap)
    ensures DocumentsUpdated(s.organizationEntities, r.organizationEntities, docCountMap)
    ensures DocumentsUpdated(s.personEntities, r.personEntities, docCountMap)
    ensures Valid(s) ==> Valid(r)
  {
    EntitySet(
      UpdateDocumentCountsAux(s.dateEntities, docCountMap),
      UpdateDocumentCountsAux(s.locationEntities, docCountMap),
      UpdateDocumentCountsAux(s.organizationEntities, docCountMap),
      UpdateDocumentCountsAux(s.personEntities, docCountMap))
  }

  /**
   * The `EntitySet(List<Entity>)` constructor as written. It calls `super()`,
   * i.e. `Object()`, so the four list fields stay `null`; `None` stands for
   * that object. `add` then dereferences a null list.
   */
  function AddAsWritten(s: Option<EntitySet>, e: Entity): Result<Option<EntitySet>, Exception> {
    match s
    case None => Failure(NullPointer)
    case Some(lists) => Success(Some(Add(lists, e)))
  }

  function FromListAsWritten(l: seq<Entity>): Result<Option<EntitySet>, Exception>
    decreases |l|
  {
    if |l| == 0 then Success(None)
    else
      match FromListAsWritten(l[..|l| - 1])
      case Failure(x) => Failure(x)
      case Success(s) => AddAsWritten(s, l[|l| - 1])
  }

  /**
   * The constructor as written throws `NullPointerException` on every
   * non-empty list, and on the empty list yields an object whose lists are
   * null.
   */
  lemma {:induction false} FromListAsWrittenAlwaysFails(l: seq<Entity>)
    ensures |l| > 0 ==> FromListAsWritten(l) == Failure(NullPointer)
    ensures |l| == 0 ==> FromListAsWritten(l) == Success(None)
    decreases |l|
  {
    if |l| > 1 {
      FromListAsWrittenAlwaysFails(l[..|l| - 1]);
    }
  }
}

=== FILE: graph_db.dfy ===
/**
 * The pure parts of the graph front end (`graph/VizLincDB.java`): the
 * implementation chosen from the database path and the `makeList`, `makeSet`
 * and `count` helpers over an iteration, which is a finite sequence here. The
 * constructor's directory check is `DatabasePaths.CheckDatabaseDirectory`.
 */
module GraphDatabase {
  import opened Wrappers
  import opened Exceptions
  import JavaInts
  import opened DatabasePaths

  /** `VizLincDB.Implementation`, in declaration order. */
  datatype Implementation = TinkerGraph | Neo4j

  const Implementations: seq<Implementation> := [TinkerGraph, Neo4j]

  const Default: Implementation := Neo4j

  function Tags(impl: Implementation): seq<string> {
    match impl
    case TinkerGraph => ["tg", "tinker"]
    case Neo4j => ["neo4j"]
  }

  /**
   * `implementationForPath`: TinkerGraph tags are tried before the Neo4j tag,
   * and a path with no tag gets the default, Neo4j.
   */
  function ImplementationForPath(path: string): (r: Implementation)
    ensures r == TinkerGraph <==> HasTag(path, "tg") || HasTag(path, "tinker")
    ensures r == Neo4j <==> !HasTag(path, "tg") && !HasTag(path, "tinker")
  {
    var found := FirstTagged(path, Implementations, Tags);
    assert HasAnyTag(path, Tags(TinkerGraph)) <==> HasTag(path, "tg") || HasTag(path, "tinker") by {
      var tags := Tags(TinkerGraph);
      if HasTag(path, "tg") { assert HasTag(path, tags[0]); }
      if HasTag(path, "tinker") { assert HasTag(path, tags[1]); }
    }
    assert Implementations[0] == TinkerGraph && Implementations[1] == Neo4j;
    if found.Some? then found.value else Default
  }

  /** A path ending with the Neo4j tag opens Neo4j. */
  lemma Neo4jPath(p: string)
    requires p == "x.neo4j"
    ensures ImplementationForPath(p) == Neo4j
  {
    assert "." + "tg" == ".tg" && "." + "tg" + "." == ".tg.";
    assert "." + "tinker" == ".tinker" && "." + "tinker" + "." == ".tinker.";
    assert !EndsWith(p, ".tg") && !EndsWith(p, ".tinker");
    assert forall i :: 0 <= i < |p| - 1 ==> !(p[i] == '.' && p[i + 1] == 't');
    NoInfixWithoutItsStart(p, ".tg.");
    NoInfixWithoutItsStart(p, ".tinker.");
    assert !HasTag(p, "tg") && !HasTag(p, "tinker");
  }

  /** A path ending with a TinkerGraph tag opens TinkerGraph. */
  lemma TinkerPath(p: string)
    requires p == "db.tinker"
    ensures ImplementationForPath(p) == TinkerGraph
  {
    assert "." + "tinker" == ".tinker";
    assert p[2..] == ".tinker";
    assert HasTag(p, "tinker");
  }

  /** A TinkerGraph tag wins over a Neo4j tag in the same path. */
  lemma TinkerGraphBeforeNeo4j(q: string)
    requires q == "a.tg.neo4j"
    ensures ImplementationForPath(q) == TinkerGraph
  {
    var t := "." + "tg" + ".";
    assert t == ".tg.";
    assert q[1..][..4] == t;
    assert ContainsInfix(q[1..], t);
    assert ContainsInfix(q, t);
    assert HasTag(q, "tg");
  }

  /** `makeList`: every item of the iteration, in order. */
  method MakeList<T>(items: seq<T>) returns (list: seq<T>)
    ensures |list| == |items|
    ensures forall i :: 0 <= i < |items| ==> list[i] == items[i]
  {
    list := [];
    for i := 0 to |items|
      invariant list == items[..i]
    {
      list := list + [items[i]];
    }
  }

  /** `makeSet`: exactly the items of the iteration. */
  method MakeSet<T>(items: seq<T>) returns (s: set<T>)
    ensures forall x :: x in s <==> x in items
  {
    s := {};
    for i := 0 to |items|
      invariant forall x :: x in s <==> x in items[..i]
    {
      s := s + {items[i]};
      assert items[..i + 1] == items[..i] + [items[i]];
    }
    assert items[..|items|] == items;
  }

  /** `count`: the number of items, as an `int` counter that wraps past 2^31 - 1. */
  method Count<T>(items: seq<T>) returns (n: int)
    ensures n == JavaInts.Wrap32(|items|)
    ensures |items| <= JavaInts.MaxInt ==> n == |items|
  {
    n := 0;
    for i := 0 to |items|
      invariant n == JavaInts.Wrap32(i)
    {
      JavaInts.Wrap32Increment(i);
      n := JavaInts.Wrap32(n + 1);
    }
  }
}

=== FILE: int_sets.dfy ===
/** Least and greatest elements of finite sets of integers. */
module IntSets {

  /** A set is empty or has a member (set extensionality, stated so that it can be used as a witness). */
  lemma EmptyOrMember(s: set<int>)
    ensures s == {} || exists x :: x in s
  {
    if forall x :: x !in s {
      assert s == {};
    }
  }

  predicate IsLeast(s: set<int>, m: int) {
    m in s && forall x :: x in s ==> m <= x
  }

  predicate IsGreatest(s: set<int>, m: int) {
    m in s && forall x :: x in s ==> x <= m
  }

  lemma {:induction false} LeastExists(s: set<int>)
    requires s != {}
    ensures exists m :: IsLeast(s, m)
    decreases s
  {
    EmptyOrMember(s);
    var x :| x in s;
    var rest := s - {x};
    if rest == {} {
      forall y | y in s ensures x <= y {
        assert y !in rest;
      }
      assert IsLeast(s, x);
    } else {
      LeastExists(rest);
      var m :| IsLeast(rest, m);
      var least := if x < m then x else m;
      forall y | y in s ensures least <= y {
        if y != x {
          assert y in rest;
        }
      }
      assert IsLeast(s, least);
    }
  }

  lemma {:induction false} GreatestExists(s: set<int>)
    requires s != {}
    ensures exists m :: IsGreatest(s, m)
    decreases s
  {
    EmptyOrMember(s);
    var x :| x in s;
    var rest := s - {x};
    if rest == {} {
      forall y | y in s ensures y <= x {
        assert y !in rest;
      }
      assert IsGreatest(s, x);
    } else {
      GreatestExists(rest);
      var m :| IsGreatest(rest, m);
      var greatest := if m < x then x else m;
      forall y | y in s ensures y <= greatest {
        if y != x {
          assert y in rest;
        }
      }
      assert IsGreatest(s, greatest);
    }
  }

  function Least(s: set<int>): (m: int)
    requires s != {}
    ensures IsLeast(s, m)
  {
    LeastExists(s);
    var m :| IsLeast(s, m);
    m
  }

  function Greatest(s: set<int>): (m: int)
    requires s != {}
    ensures IsGreatest(s, m)
  {
    GreatestExists(s);
    var m :| IsGreatest(s, m);
    m
  }
}

=== FILE: interned_strings.dfy ===
/**
 * `InternedStringTable` (`util/InternedStringTable.java`): hands out one
 * shared representative per distinct string.
 *
 * Strings are values here, so "the same representative" is stated as "the
 * table's entry", and the table is threaded through each call.
 */
module InternedStrings {
  import opened Wrappers

  type InternTable = map<string, string>

  /** Every string the table holds is its own representative: the only entries `get` ever creates. */
  predicate Valid(t: InternTable) {
    forall s :: s in t ==> t[s] == s
  }

  /** `b` keeps every entry of `a`. */
  predicate Extends(a: InternTable, b: InternTable) {
    forall s :: s in a ==> s in b && b[s] == a[s]
  }

  /** The table after a `get` call, and the string the call returned. */
  datatype Interned = Interned(table: InternTable, result: Option<string>)

  /**
   * `get(s)`: null gives null and leaves the table alone; an unseen string is
   * entered as its own representative and returned; a seen string gives its
   * entry.
   */
  function Get(t: InternTable, s: Option<string>): (r: Interned)
    ensures s.None? ==> r.result.None? && r.table == t
    ensures s.Some? ==> s.value in r.table && r.result == Some(r.table[s.value])
    ensures s.Some? && s.value in t ==> r.table == t
    ensures Extends(t, r.table)
    ensures r.table.Keys <= t.Keys + (if s.Some? then {s.value} else {})
    ensures Valid(t) ==> Valid(r.table)
    ensures Valid(t) ==> r.result == s
  {
    match s
    case None => Interned(t, None)
    case Some(v) =>
      if v !in t then Interned(t[v := v], Some(v)) else Interned(t, Some(t[v]))
  }

  /** Asking again for a string already asked for gives the same representative and leaves the table as it was. */
  lemma SecondGetSameRepresentative(t: InternTable, s: string)
    ensures var first := Get(t, Some(s));
            Get(first.table, Some(s)) == first
  {
  }
}

=== FILE: interval_set.dfy ===
/**
 * The range set behind the proximity queries (`VizLincRDBMem.java`), which the
 * Java code keeps in a Guava `TreeRangeSet<Integer>`.
 *
 * Every range the code adds is `Range.closed(a, b).canonical(integers())`,
 * i.e. `[a, b+1)`, which holds exactly the integers of the closed interval
 * `[a, b]`. The model therefore keeps a list of closed intervals, sorted, each
 * non-empty, and pairwise neither overlapping nor adjacent: the same
 * coalescing a `TreeRangeSet` performs when it adds a range that is connected
 * to ranges already present.
 */
module IntervalSets {

  /** The closed integer interval [lo, hi]. */
  datatype Interval = Interval(lo: int, hi: int)

  predicate InInterval(iv: Interval, p: int) {
    iv.lo <= p <= iv.hi
  }

  /** Non-empty intervals in increasing order, with a gap of at least one integer between neighbours. */
  predicate Valid(s: seq<Interval>) {
    && (forall k :: 0 <= k < |s| ==> s[k].lo <= s[k].hi)
    && (forall j, k :: 0 <= j < k < |s| ==> s[j].hi + 1 < s[k].lo)
  }

  /** The point `p` lies in some interval of `s`: the meaning of `RangeSet.contains`. */
  predicate Covers(s: seq<Interval>, p: int) {
    exists k :: 0 <= k < |s| && InInterval(s[k], p)
  }

  /** The smallest interval holding both arguments. */
  function Hull(a: Interval, b: Interval): Interval {
    Interval(if a.lo <= b.lo then a.lo else b.lo, if a.hi <= b.hi then b.hi else a.hi)
  }

  lemma CoversCons(a: Interval, s: seq<Interval>)
    ensures forall p :: Covers([a] + s, p) <==> InInterval(a, p) || Covers(s, p)
  {
    forall p ensures Covers([a] + s, p) <==> InInterval(a, p) || Covers(s, p) {
      assert ([a] + s)[0] == a;
      if Covers(s, p) {
        var k :| 0 <= k < |s| && InInterval(s[k], p);
        assert ([a] + s)[k + 1] == s[k];
      }
      if Covers([a] + s, p) {
        var k :| 0 <= k < |[a] + s| && InInterval(([a] + s)[k], p);
        if k == 0 {
          assert ([a] + s)[0] == a;
        } else {
          assert ([a] + s)[k] == s[k - 1];
        }
      }
    }
  }

  lemma CoversTail(s: seq<Interval>)
    requires |s| > 0
    ensures forall p :: Covers(s, p) <==> InInterval(s[0], p) || Covers(s[1..], p)
  {
    assert s == [s[0]] + s[1..];
    CoversCons(s[0], s[1..]);
  }

  /**
   * `TreeRangeSet.add`: insert `iv`, coalescing it with every interval it
   * overlaps or touches. The result covers exactly the old points plus the
   * points of `iv`, and stays sorted, disjoint and non-adjacent.
   */
  function Insert(s: seq<Interval>, iv: Interval): (r: seq<Interval>)
    requires Valid(s) && iv.lo <= iv.hi
    ensures Valid(r)
    ensures |r| > 0 && r[0].lo == (if |s| == 0 || iv.lo <= s[0].lo then iv.lo else s[0].lo)
    ensures forall p :: Covers(r, p) <==> Covers(s, p) || InInterval(iv, p)
    decreases |s|
  {
    if |s| == 0 then
      assert [iv] == [iv] + [];
      CoversCons(iv, []);
      [iv]
    else if s[0].hi + 1 < iv.lo then
      var rest := Insert(s[1..], iv);
      CoversTail(s);
      CoversCons(s[0], rest);
      [s[0]] + rest
    else if iv.hi + 1 < s[0].lo then
      CoversCons(iv, s);
      [iv] + s
    else
      var merged := Insert(s[1..], Hull(s[0], iv));
      CoversTail(s);
      merged
  }

  /**
   * `TreeRangeSet.contains`: find the last interval starting at or below `p`
   * (Guava's floor lookup) by binary search, and test `p` against it.
   */
  method Contains(s: seq<Interval>, p: int) returns (b: bool)
    requires Valid(s)
    ensures b <==> Covers(s, p)
  {
    var lo, hi := 0, |s|;
    while lo < hi
      invariant 0 <= lo <= hi <= |s|
      invariant forall k :: 0 <= k < lo ==> s[k].lo <= p
      invariant forall k :: hi <= k < |s| ==> p < s[k].lo
    {
      var mid := (lo + hi) / 2;
      if s[mid].lo <= p {
        lo := mid + 1;
      } else {
        hi := mid;
      }
    }
    b := lo > 0 && p <= s[lo - 1].hi;
  }

  /** Two query mentions at 10 and 12 with distance 1 give the single window [9, 13]. */
  lemma MergeTouchingWindows()
    ensures Insert(Insert([], Interval(9, 11)), Interval(11, 13)) == [Interval(9, 13)]
    ensures Covers([Interval(9, 13)], 13) && !Covers([Interval(9, 13)], 14)
  {
    assert InInterval(Interval(9, 13), 13);
  }
}

=== FILE: java_ints.dfy ===
/**
 * Java `int` arithmetic where the modelled code depends on it: the 32-bit
 * wrap-around of the `hashCode` computations and the `(short)` cast of the
 * mention type codes.
 */
module JavaInts {

  const TwoTo32: int := 0x1_0000_0000
  const MinInt: int := -0x8000_0000
  const MaxInt: int := 0x7fff_ffff

  const TwoTo16: int := 0x1_0000
  const MinShort: int := -0x8000
  const MaxShort: int := 0x7fff

  /** The Java `int` holding the low 32 bits of `x` (two's complement). */
  function Wrap32(x: int): (r: int)
    ensures MinInt <= r <= MaxInt
    ensures (x - r) % TwoTo32 == 0
    ensures MinInt <= x <= MaxInt ==> r == x
  {
    (x - MinInt) % TwoTo32 + MinInt
  }

  /** The Java `short` holding the low 16 bits of `x`: the `(short)` cast. */
  function Wrap16(x: int): (r: int)
    ensures MinShort <= r <= MaxShort
    ensures (x - r) % TwoTo16 == 0
    ensures MinShort <= x <= MaxShort ==> r == x
  {
    (x - MinShort) % TwoTo16 + MinShort
  }

  /**
   * The UTF-16 code units of one character, the units a Java `String` holds:
   * the character itself below U+10000, otherwise its surrogate pair.
   */
  function Utf16Units(c: char): (u: seq<int>)
    ensures |u| == 1 || |u| == 2
    ensures |u| == 1 <==> (c as int) < TwoTo16
    ensures |u| == 1 ==> u[0] == c as int
    ensures |u| == 2 ==> 0xD800 <= u[0] < 0xDC00 <= u[1] < 0xE000
    ensures |u| == 2 ==> TwoTo16 + (u[0] - 0xD800) * 0x400 + (u[1] - 0xDC00) == c as int
    ensures forall k :: 0 <= k < |u| ==> 0 <= u[k] < TwoTo16
  {
    var v := c as int;
    if v < TwoTo16 then [v]
    else [0xD800 + (v - TwoTo16) / 0x400, 0xDC00 + (v - TwoTo16) % 0x400]
  }

  /** The UTF-16 code units of a string, character by character. */
  function Utf16(s: string): (u: seq<int>)
    ensures |u| >= |s|
    ensures (forall i :: 0 <= i < |s| ==> (s[i] as int) < TwoTo16) ==> u == seq(|s|, i requires 0 <= i < |s| => s[i] as int)
    decreases |s|
  {
    if |s| == 0 then []
    else
      var u := Utf16(s[..|s| - 1]) + Utf16Units(s[|s| - 1]);
      assert forall i :: 0 <= i < |s| - 1 ==> s[..|s| - 1][i] == s[i];
      u
  }

  /** h = 31 * h + unit over the code units, in `int` arithmetic, starting from `h`. */
  function HashFrom(h: int, units: seq<int>): (r: int)
    requires MinInt <= h <= MaxInt
    ensures MinInt <= r <= MaxInt
    decreases |units|
  {
    if |units| == 0 then h else Wrap32(31 * HashFrom(h, units[..|units| - 1]) + units[|units| - 1])
  }

  /** `String.hashCode`: the fold over the string's UTF-16 code units, from 0. */
  function StringHash(s: string): (h: int)
    ensures MinInt <= h <= MaxInt
  {
    HashFrom(0, Utf16(s))
  }

  /** Folding `a + b` is folding `b` from where folding `a` stopped. */
  lemma {:induction false} HashFromAppend(h: int, a: seq<int>, b: seq<int>)
    requires MinInt <= h <= MaxInt
    ensures HashFrom(h, a + b) == HashFrom(HashFrom(h, a), b)
    decreases |b|
  {
    if |b| == 0 {
      assert a + b == a;
    } else {
      var init := b[..|b| - 1];
      assert (a + b)[..|a + b| - 1] == a + init;
      HashFromAppend(h, a, init);
    }
  }

  /** The code units of a string with one more character end with that character's units. */
  lemma Utf16Snoc(s: string, c: char)
    ensures Utf16(s + [c]) == Utf16(s) + Utf16Units(c)
  {
    assert (s + [c])[..|s + [c]| - 1] == s;
  }

  /**
   * Folding one or two units is one or two hash steps: with `StringHashSnoc`,
   * a character below U+10000 adds the step `31 * h + c`, any other the two
   * steps of its high and then its low surrogate.
   */
  lemma HashFromShort(h: int, u: seq<int>)
    requires MinInt <= h <= MaxInt && 1 <= |u| <= 2
    ensures |u| == 1 ==> HashFrom(h, u) == Wrap32(31 * h + u[0])
    ensures |u| == 2 ==> HashFrom(h, u) == Wrap32(31 * Wrap32(31 * h + u[0]) + u[1])
  {
    if |u| == 2 {
      assert u[..1] == [u[0]];
      assert u[..1][..0] == [];
    } else {
      assert u[..0] == [];
    }
  }

  /** Appending a character continues the hash over that character's code units. */
  lemma StringHashSnoc(s: string, c: char)
    ensures StringHash(s + [c]) == HashFrom(StringHash(s), Utf16Units(c))
  {
    Utf16Snoc(s, c);
    HashFromAppend(0, Utf16(s), Utf16Units(c));
  }

  /** One step `hash = factor * hash + v` of a generated `hashCode` method. */
  function HashStep(factor: int, hash: int, v: int): (r: int)
    ensures MinInt <= r <= MaxInt
  {
    Wrap32(factor * hash + v)
  }

  /** Two `int` values that agree modulo 2^32 are the same value. */
  lemma Wrap32Unique(a: int, b: int)
    requires MinInt <= a <= MaxInt && MinInt <= b <= MaxInt
    requires (a - b) % TwoTo32 == 0
    ensures a == b
  {
  }

  /** Incrementing a wrapped counter wraps the incremented count: `count++` on an `int`. */
  lemma Wrap32Increment(x: int)
    ensures Wrap32(Wrap32(x) + 1) == Wrap32(x + 1)
  {
    var w := Wrap32(x);
    assert ((x + 1) - (w + 1)) % TwoTo32 == 0;
    Wrap32Unique(Wrap32(w + 1), Wrap32(x + 1));
  }
}

=== FILE: mem_store.dfy ===
/**
 * The id indexes of the in-memory store (`relational/VizLincRDBMem.java`,
 * `fetchDocuments`, `fetchEntities`) and the lookups that read them.
 *
 * Each index is filled by one `put` per element in list order, so when two
 * elements share an id the later one is the one the index keeps.
 */
module MemStore {
  import opened Wrappers
  import opened Exceptions
  import opened Entities
  import opened Documents
  import EntitySets

  /** The last position of `xs` whose key is `k`, when there is one. */
  ghost predicate IsLastWithKey<T>(xs: seq<T>, key: T -> int, k: int, i: int) {
    0 <= i < |xs| && key(xs[i]) == k && forall j :: i < j < |xs| ==> key(xs[j]) != k
  }

  /**
   * A map from key to element, filled by one `put` per element in order: each
   * key present in the list maps to the last element with that key.
   */
  function IndexBy<T>(xs: seq<T>, key: T -> int): (m: map<int, T>)
    ensures m.Keys == set i | 0 <= i < |xs| :: key(xs[i])
    ensures forall k :: k in m ==> exists i :: IsLastWithKey(xs, key, k, i) && m[k] == xs[i]
    decreases |xs|
  {
    if |xs| == 0 then map[]
    else
      var init := xs[..|xs| - 1];
      var last := xs[|xs| - 1];
      var m := IndexBy(init, key);
      var r := m[key(last) := last];
      assert r.Keys == set i | 0 <= i < |xs| :: key(xs[i]) by {
        forall k | k in set i | 0 <= i < |xs| :: key(xs[i]) ensures k in r {
          var i :| 0 <= i < |xs| && key(xs[i]) == k;
          if i < |init| {
            assert key(init[i]) == k;
          }
        }
        forall k | k in r ensures k in set i | 0 <= i < |xs| :: key(xs[i]) {
          if k != key(last) {
            var i :| 0 <= i < |init| && key(init[i]) == k;
            assert key(xs[i]) == k;
          }
        }
      }
      assert forall k :: k in r ==> exists i :: IsLastWithKey(xs, key, k, i) && r[k] == xs[i] by {
        forall k | k in r ensures exists i :: IsLastWithKey(xs, key, k, i) && r[k] == xs[i] {
          if k == key(last) {
            assert IsLastWithKey(xs, key, k, |xs| - 1);
          } else {
            var i :| IsLastWithKey(init, key, k, i) && m[k] == init[i];
            assert IsLastWithKey(xs, key, k, i);
          }
        }
      }
      r
  }

  /** The key function of the document index. */
  function DocumentKey(d: Document): int { d.id }

  /** The key function of the entity index. */
  function EntityKey(e: Entity): int { e.id }

  /** `documentIdToDocument`, built from `allDocuments` in list order. */
  function DocumentIndex(docs: seq<Document>): (m: map<int, Document>)
    ensures m.Keys == set i | 0 <= i < |docs| :: docs[i].id
    ensures forall id :: id in m ==> m[id].id == id && m[id] in docs
  {
    var m := IndexBy(docs, DocumentKey);
    assert forall id :: id in m ==> m[id].id == id && m[id] in docs by {
      forall id | id in m ensures m[id].id == id && m[id] in docs {
        var i :| IsLastWithKey(docs, DocumentKey, id, i) && m[id] == docs[i];
      }
    }
    m
  }

  /** `entityIdToEntity`, built from the date, location, organization and person lists, in that order. */
  function EntityIndex(s: EntitySets.EntitySet): (m: map<int, Entity>)
    ensures m.Keys == set i | 0 <= i < |EntitySets.GetEntities(s)| :: EntitySets.GetEntities(s)[i].id
    ensures forall id :: id in m ==> m[id].id == id && m[id] in EntitySets.GetEntities(s)
  {
    var all := EntitySets.GetEntities(s);
    var m := IndexBy(all, EntityKey);
    assert forall id :: id in m ==> m[id].id == id && m[id] in all by {
      forall id | id in m ensures m[id].id == id && m[id] in all {
        var i :| IsLastWithKey(all, EntityKey, id, i) && m[id] == all[i];
      }
    }
    m
  }

  /** A document whose id no other document shares is what the index returns for that id. */
  lemma UniqueDocumentIsFound(docs: seq<Document>, i: int)
    requires 0 <= i < |docs|
    requires forall j :: 0 <= j < |docs| && j != i ==> docs[j].id != docs[i].id
    ensures GetWithId(DocumentIndex(docs), docs[i].id) == Some(docs[i])
  {
    var m := IndexBy(docs, DocumentKey);
    var j :| IsLastWithKey(docs, DocumentKey, docs[i].id, j) && m[docs[i].id] == docs[j];
    assert j == i;
  }

  /** Of two documents with the same id, the index keeps the later one. */
  lemma LaterDocumentWins(a: Document, b: Document)
    requires a.id == b.id
    ensures GetWithId(DocumentIndex([a, b]), a.id) == Some(b)
  {
    var m := IndexBy([a, b], DocumentKey);
    var j :| IsLastWithKey([a, b], DocumentKey, a.id, j) && m[a.id] == [a, b][j];
    assert j == 1;
  }

  /**
   * `getDocumentWithId` and `getEntityWithId`, the same `HashMap.get` on the
   * document and the entity index: the indexed value, or null for an unknown id.
   */
  function GetWithId<T>(index: map<int, T>, id: int): (r: Option<T>)
    ensures r.Some? <==> id in index
    ensures r.Some? ==> r.value == index[id]
  {
    if id in index then Some(index[id]) else None
  }

  /** `getDocumentsWithIds`: one answer per requested id, in request order, null for an unknown id. */
  function GetDocumentsWithIds(index: map<int, Document>, ids: seq<int>): (r: seq<Option<Document>>)
    ensures |r| == |ids|
    ensures forall i :: 0 <= i < |ids| ==> (r[i].Some? <==> ids[i] in index)
    ensures forall i :: 0 <= i < |ids| && r[i].Some? ==> r[i].value == index[ids[i]]
    decreases |ids|
  {
    if |ids| == 0 then []
    else GetDocumentsWithIds(index, ids[..|ids| - 1]) + [GetWithId(index, ids[|ids| - 1])]
  }

  /** Every requested id is indexed. */
  predicate AllKnown(index: map<int, Entity>, ids: seq<int>) {
    forall i :: 0 <= i < |ids| ==> ids[i] in index
  }

  /** The indexed entities of `ids`, in request order. */
  function Found(index: map<int, Entity>, ids: seq<int>): (r: seq<Entity>)
    requires AllKnown(index, ids)
    ensures |r| == |ids|
    ensures forall i :: 0 <= i < |ids| ==> r[i] == index[ids[i]]
    decreases |ids|
  {
    if |ids| == 0 then [] else Found(index, ids[..|ids| - 1]) + [index[ids[|ids| - 1]]]
  }

  /**
   * `getEntitiesWithIds`: a fresh entity set with one `add` per id in order.
   * An unknown id adds null, which `EntitySet.add` rejects.
   */
  function GetEntitiesWithIds(index: map<int, Entity>, ids: seq<int>): (r: Result<EntitySets.EntitySet, Exception>)
    ensures r.Failure? <==> !AllKnown(index, ids)
    ensures r.Failure? ==> r.error == IllegalArgument("unexpected type of entity")
    ensures r.Success? ==> EntitySets.Valid(r.value) && EntitySets.Size(r.value) == |ids|
    ensures r.Success? ==> forall k :: EntitySets.Bucket(r.value, k) == EntitySets.FilterKind(Found(index, ids), k)
  {
    if !AllKnown(index, ids) then Failure(IllegalArgument("unexpected type of entity"))
    else Success(EntitySets.FromList(Found(index, ids)))
  }

  /** The set returned for a list of known ids holds exactly their entities, each as often as requested. */
  lemma {:induction false} EntitiesWithIdsArePermuted(index: map<int, Entity>, ids: seq<int>)
    requires AllKnown(index, ids)
    ensures GetEntitiesWithIds(index, ids).Success?
    ensures multiset(EntitySets.GetEntities(GetEntitiesWithIds(index, ids).value)) == multiset(Found(index, ids))
  {
    EntitySets.BucketingPermutes(Found(index, ids));
  }
}

=== FILE: mention_index.dfy ===
/**
 * The document-to-mention-locations index of the in-memory store
 * (`relational/VizLincRDBMem.java`, `fetchMentionLocations` and the two
 * mention-location lookups).
 *
 * The index is either adopted from a snapshot, when both snapshot parts are
 * present, or rebuilt from the `mention` table's rows. Reading and writing
 * the snapshot files is outside the model: a snapshot part is an `Option`
 * that is `None` when its file is missing or unreadable.
 */
module MentionIndex {
  import opened Wrappers
  import opened Exceptions
  import JavaInts
  import opened MentionLocations

  type DocumentMentions = map<int, seq<MentionLocation>>

  /** The locations of document `d`, in input order. */
  function InDocument(locs: seq<MentionLocation>, d: int): (r: seq<MentionLocation>)
    ensures |r| <= |locs|
    ensures forall x :: x in r <==> x in locs && x.documentId == d
    decreases |locs|
  {
    if |locs| == 0 then []
    else
      var init := InDocument(locs[..|locs| - 1], d);
      var last := locs[|locs| - 1];
      assert locs == locs[..|locs| - 1] + [last];
      if last.documentId == d then init + [last] else init
  }

  /** The documents that have at least one location. */
  function DocumentIds(locs: seq<MentionLocation>): set<int> {
    set i | 0 <= i < |locs| :: locs[i].documentId
  }

  /** Grouping keeps the input order: the group of a concatenation is the concatenation of the groups. */
  lemma {:induction false} InDocumentAppend(a: seq<MentionLocation>, b: seq<MentionLocation>, d: int)
    ensures InDocument(a + b, d) == InDocument(a, d) + InDocument(b, d)
    decreases |b|
  {
    if |b| == 0 {
      assert a + b == a;
    } else {
      var init := b[..|b| - 1];
      assert (a + b)[..|a + b| - 1] == a + init;
      InDocumentAppend(a, init, d);
    }
  }

  lemma DocumentIdsSnoc(locs: seq<MentionLocation>, i: int)
    requires 0 <= i < |locs|
    ensures DocumentIds(locs[..i + 1]) == DocumentIds(locs[..i]) + {locs[i].documentId}
  {
    var a, b := locs[..i + 1], locs[..i];
    forall d | d in DocumentIds(a) ensures d in DocumentIds(b) + {locs[i].documentId} {
      var j :| 0 <= j < |a| && a[j].documentId == d;
      if j < i {
        assert b[j] == a[j];
      }
    }
    forall d | d in DocumentIds(b) ensures d in DocumentIds(a) {
      var j :| 0 <= j < |b| && b[j].documentId == d;
      assert a[j] == b[j];
    }
    assert a[i] == locs[i];
  }

  lemma NotListedNoGroup(locs: seq<MentionLocation>, d: int)
    requires d !in DocumentIds(locs)
    ensures InDocument(locs, d) == []
  {
  }

  lemma InDocumentSnoc(locs: seq<MentionLocation>, i: int, d: int)
    requires 0 <= i < |locs|
    ensures InDocument(locs[..i + 1], d) == InDocument(locs[..i], d) + (if locs[i].documentId == d then [locs[i]] else [])
  {
    assert locs[..i + 1][..i] == locs[..i];
  }

  /** The first pass of the rebuild: the number of locations of each document that has one. */
  method CountPerDocument(locs: seq<MentionLocation>) returns (counts: map<int, int>)
    ensures counts.Keys == DocumentIds(locs)
    ensures forall d :: d in counts ==> counts[d] == |InDocument(locs, d)|
  {
    counts := map[];
    for i := 0 to |locs|
      invariant counts.Keys == DocumentIds(locs[..i])
      invariant forall d :: d in counts ==> counts[d] == |InDocument(locs[..i], d)|
    {
      ghost var before := counts;
      var d := locs[i].documentId;
      if d !in counts {
        NotListedNoGroup(locs[..i], d);
        counts := counts[d := 0];
      }
      counts := counts[d := counts[d] + 1];
      DocumentIdsSnoc(locs, i);
      forall d' | d' in counts ensures counts[d'] == |InDocument(locs[..i + 1], d')| {
        InDocumentSnoc(locs, i, d');
        if d' != d {
          assert counts[d'] == before[d'];
        }
      }
    }
    assert locs[..|locs|] == locs;
  }

  /**
   * The rebuild: count the locations of each document, set up one list per
   * counted document, then append every location to its document's list.
   * Each document with a location gets exactly its locations, in input order,
   * and the list is as long as the count of the first pass.
   */
  method GroupByDocument(locs: seq<MentionLocation>) returns (m: DocumentMentions)
    ensures m.Keys == DocumentIds(locs)
    ensures forall d :: d in m ==> m[d] == InDocument(locs, d)
    ensures forall i :: 0 <= i < |locs| ==> locs[i] in m[locs[i].documentId]
  {
    var counts := CountPerDocument(locs);
    m := AppendPass(locs, map d | d in counts :: []);
    forall i | 0 <= i < |locs| ensures locs[i] in m[locs[i].documentId] {
      assert locs[i].documentId in DocumentIds(locs);
    }
  }

  /** The second pass of the rebuild: append every location to its document's list, starting from empty lists. */
  method AppendPass(locs: seq<MentionLocation>, start: DocumentMentions) returns (m: DocumentMentions)
    requires DocumentIds(locs) <= start.Keys
    requires forall d :: d in start ==> start[d] == []
    ensures m.Keys == start.Keys
    ensures forall d :: d in m ==> m[d] == InDocument(locs, d)
  {
    m := start;
    for i := 0 to |locs|
      invariant m.Keys == start.Keys
      invariant forall d :: d in m ==> m[d] == InDocument(locs[..i], d)
    {
      var d := locs[i].documentId;
      assert d in DocumentIds(locs);
      AppendStep(m, locs, i);
      m := m[d := m[d] + [locs[i]]];
    }
    assert locs[..|locs|] == locs;
  }

  /** One step of the second pass: appending `locs[i]` to its document's list extends every group by one more location. */
  lemma AppendStep(m: DocumentMentions, locs: seq<MentionLocation>, i: int)
    requires 0 <= i < |locs| && locs[i].documentId in m
    requires forall d :: d in m ==> m[d] == InDocument(locs[..i], d)
    ensures forall d :: d in m ==> m[locs[i].documentId := m[locs[i].documentId] + [locs[i]]][d] == InDocument(locs[..i + 1], d)
  {
    forall d | d in m ensures m[locs[i].documentId := m[locs[i].documentId] + [locs[i]]][d] == InDocument(locs[..i + 1], d) {
      InDocumentSnoc(locs, i, d);
    }
  }

  /** What the mention-location fetch leaves behind: the index and the type-code table. */
  datatype Fetched = Fetched(byDocument: DocumentMentions, table: TypeCodeTable)

  /**
   * `fetchMentionLocations`: adopt the snapshot index and its type-code table
   * when both are present; otherwise build a location per row against the
   * current table and group them by document.
   */
  method FetchMentionLocations(snapshot: Option<DocumentMentions>, snapshotTable: Option<TypeCodeTable>,
                               table: TypeCodeTable, rows: seq<MentionRow>) returns (r: Fetched)
    requires snapshot.None? || snapshotTable.None? ==>
      ValidTable(table) && HasRoom(table) && NextShort(table) + |NewTypes(table, rows)| <= JavaInts.MaxShort
    ensures snapshot.Some? && snapshotTable.Some? ==> r == Fetched(snapshot.value, snapshotTable.value)
    ensures snapshot.None? || snapshotTable.None? ==>
      && r.byDocument.Keys == (set i | 0 <= i < |rows| :: rows[i].documentId)
      && ValidTable(r.table) && MentionLocations.Extends(table, r.table)
      && forall d :: d in r.byDocument ==>
           forall x :: x in r.byDocument[d] ==> x.documentId == d && GetMentionType(r.table, x).Some?
    ensures snapshot.None? || snapshotTable.None? ==>
      var loaded := FromRows(table, rows);
      && r.table == loaded.table
      && (forall d :: d in r.byDocument ==> r.byDocument[d] == InDocument(loaded.locations, d))
      && forall i :: 0 <= i < |rows| ==>
           loaded.locations[i] in r.byDocument[rows[i].documentId]
           && GetMentionType(r.table, loaded.locations[i]) == Some(rows[i].mentionType)
  {
    if snapshot.Some? && snapshotTable.Some? {
      r := Fetched(snapshot.value, snapshotTable.value);
    } else {
      var loaded := FromRows(table, rows);
      LoadedTableStaysValid(table, rows);
      LoadedLocationsReportTheirTypes(table, rows);
      var m := GroupByDocument(loaded.locations);
      assert DocumentIds(loaded.locations) == (set i | 0 <= i < |rows| :: rows[i].documentId) by {
        forall d | d in (set i | 0 <= i < |rows| :: rows[i].documentId) ensures d in DocumentIds(loaded.locations) {
          var i :| 0 <= i < |rows| && rows[i].documentId == d;
          assert loaded.locations[i].documentId == d;
        }
      }
      forall d: int, x: MentionLocation | d in m && x in m[d] ensures x.documentId == d && GetMentionType(loaded.table, x).Some? {
        assert x in loaded.locations;
        var i :| 0 <= i < |loaded.locations| && loaded.locations[i] == x;
        assert GetMentionType(loaded.table, loaded.locations[i]) == Some(rows[i].mentionType);
      }
      r := Fetched(m, loaded.table);
    }
  }

  /** `getMentionLocationsForDocument`: the document's list, or an empty list for a document without one. */
  function MentionLocationsForDocument(m: DocumentMentions, d: int): (r: seq<MentionLocation>)
    ensures d in m ==> r == m[d]
    ensures d !in m ==> r == []
  {
    if d in m then m[d] else []
  }

  /** The locations of `locs` whose entity is in `ids`, in order. */
  function WithEntities(locs: seq<MentionLocation>, ids: set<int>): (r: seq<MentionLocation>)
    ensures |r| <= |locs|
    ensures forall x :: x in r <==> x in locs && x.entityId in ids
    ensures forall x :: multiset(r)[x] == if x.entityId in ids then multiset(locs)[x] else 0
    decreases |locs|
  {
    if |locs| == 0 then []
    else
      var init := WithEntities(locs[..|locs| - 1], ids);
      var last := locs[|locs| - 1];
      assert locs == locs[..|locs| - 1] + [last];
      assert multiset(locs) == multiset(locs[..|locs| - 1]) + multiset{last};
      if last.entityId in ids then init + [last] else init
  }

  /** Filtering keeps the input order: the filter of a concatenation is the concatenation of the filters. */
  lemma {:induction false} WithEntitiesAppend(a: seq<MentionLocation>, b: seq<MentionLocation>, ids: set<int>)
    ensures WithEntities(a + b, ids) == WithEntities(a, ids) + WithEntities(b, ids)
    decreases |b|
  {
    if |b| == 0 {
      assert a + b == a;
    } else {
      var init := b[..|b| - 1];
      assert (a + b)[..|a + b| - 1] == a + init;
      WithEntitiesAppend(a, init, ids);
    }
  }

  /** A single location passes the filter exactly when its entity is listed. */
  lemma WithEntitiesSingleton(x: MentionLocation, ids: set<int>)
    ensures WithEntities([x], ids) == if x.entityId in ids then [x] else []
  {
    assert [x][..0] == [];
  }

  /**
   * `getMentionLocationsForEntitiesIdInDocument`: the document's locations
   * whose entity is listed, in order. A document without a list makes the
   * loop dereference null.
   */
  function MentionLocationsForEntitiesInDocument(m: DocumentMentions, entityIds: seq<int>, d: int): (r: Result<seq<MentionLocation>, Exception>)
    ensures r.Failure? <==> d !in m
    ensures r.Failure? ==> r.error == NullPointer
    ensures r.Success? ==> forall x :: x in r.value <==> x in m[d] && x.entityId in entityIds
    ensures r.Success? ==> forall x :: multiset(r.value)[x] == if x.entityId in entityIds then multiset(m[d])[x] else 0
  {
    if d !in m then Failure(NullPointer)
    else Success(WithEntities(m[d], set id | id in entityIds))
  }

  /** Filtering by entity and grouping by document commute: the lookup sees exactly the listed entities' locations of that document. */
  lemma {:induction false} FilterOfGroup(locs: seq<MentionLocation>, ids: set<int>, d: int)
    ensures WithEntities(InDocument(locs, d), ids) == InDocument(WithEntities(locs, ids), d)
    decreases |locs|
  {
    if |locs| > 0 {
      var init := locs[..|locs| - 1];
      var last := locs[|locs| - 1];
      FilterOfGroup(init, ids, d);
      var g := InDocument(init, d);
      var w := WithEntities(init, ids);
      if last.documentId == d {
        assert InDocument(locs, d) == g + [last];
        assert (g + [last])[..|g + [last]| - 1] == g;
      } else {
        assert InDocument(locs, d) == g;
      }
      if last.entityId in ids {
        assert WithEntities(locs, ids) == w + [last];
        assert (w + [last])[..|w + [last]| - 1] == w;
      } else {
        assert WithEntities(locs, ids) == w;
      }
    }
  }
}

=== FILE: mention_location.dfy ===
/**
 * `MentionLocation` (`entity/MentionLocation.java`): the part of a mention the
 * proximity queries need, with its mention type stored as a short code.
 *
 * The Java class keeps the code-to-type table in a static field that every
 * constructor call reads and may extend. Here the table is an explicit value:
 * the constructor takes the table as it stands and returns the location
 * together with the table as it stands afterwards.
 */
module MentionLocations {
  import opened Wrappers
  import JavaInts
  import IntSets

  /** The static `shortToType` table: mention type code to mention type string. */
  type TypeCodeTable = map<int, string>

  /** The entity id stored for a mention whose entity id is null. */
  const NoEntity: int := -1

  datatype MentionLocation = MentionLocation(
    documentId: int,
    entityId: int,
    index: int,
    textStart: int,
    textStop: int,
    mentionTypeCode: int)

  /** The tables the constructor builds from an empty one: codes are non-negative shorts and no type has two codes. */
  predicate ValidTable(t: TypeCodeTable) {
    && (forall c :: c in t ==> 0 <= c <= JavaInts.MaxShort)
    && (forall c, d :: c in t && d in t && t[c] == t[d] ==> c == d)
  }

  /** Every key is below the largest short, so that one more code can still be allocated without wrapping. */
  predicate HasRoom(t: TypeCodeTable) {
    forall c :: c in t ==> c < JavaInts.MaxShort
  }

  /** `b` keeps every entry of `a`. */
  predicate Extends(a: TypeCodeTable, b: TypeCodeTable) {
    forall c :: c in a ==> c in b && b[c] == a[c]
  }

  predicate HasType(t: TypeCodeTable, mentionType: string) {
    exists c :: c in t && t[c] == mentionType
  }

  /**
   * `getShortCodeForType`: a code whose entry is `mentionType`, or -1 when
   * there is none. The Java loop returns the first match in `HashMap` order;
   * the model returns the least matching code, which is the only one in a
   * `ValidTable`.
   */
  function ShortCodeForType(t: TypeCodeTable, mentionType: string): (c: int)
    ensures HasType(t, mentionType) <==> c in t && t[c] == mentionType
    ensures HasType(t, mentionType) ==> forall d :: d in t && t[d] == mentionType ==> c <= d
    ensures !HasType(t, mentionType) ==> c == -1
  {
    var codes := set c | c in t && t[c] == mentionType;
    assert forall d :: d in t && t[d] == mentionType ==> d in codes;
    if HasType(t, mentionType) then
      assert codes != {} by {
        var w :| w in t && t[w] == mentionType;
        assert w in codes;
      }
      IntSets.Least(codes)
    else
      -1
  }

  /**
   * `findNextShort`: one more than the largest key, counting from -1, cast to
   * `short`. While the table has room the new code is non-negative, above
   * every key, and the smallest such code.
   */
  function NextShort(t: TypeCodeTable): (c: int)
    ensures JavaInts.MinShort <= c <= JavaInts.MaxShort
    ensures HasRoom(t) ==> 0 <= c && (forall k :: k in t ==> k < c) && (c == 0 || c - 1 in t)
  {
    var keys := t.Keys;
    var max := if keys == {} || IntSets.Greatest(keys) < -1 then -1 else IntSets.Greatest(keys);
    JavaInts.Wrap16(max + 1)
  }

  /** A location built by the constructor, with the type-code table it leaves behind. */
  datatype Constructed = Constructed(location: MentionLocation, table: TypeCodeTable)

  /**
   * The six-argument constructor. A null entity id is stored as -1; a
   * negative text start is only logged, and kept. The type reuses a
   * non-negative code already mapped to it, or is entered under a new code.
   */
  function NewMentionLocation(t: TypeCodeTable, documentId: int, entityId: Option<int>, index: int,
                              textStart: int, textStop: int, mentionType: string): (r: Constructed)
    ensures r.location.documentId == documentId && r.location.index == index
    ensures r.location.textStart == textStart && r.location.textStop == textStop
    ensures r.location.entityId == (if entityId.Some? then entityId.value else NoEntity)
    ensures r.location.mentionTypeCode in r.table && r.table[r.location.mentionTypeCode] == mentionType
    ensures r.table.Keys <= t.Keys + {r.location.mentionTypeCode}
    ensures ValidTable(t) && HasType(t, mentionType) ==> r.table == t
    ensures !HasType(t, mentionType) ==> r.location.mentionTypeCode == NextShort(t) && r.table == t[NextShort(t) := mentionType]
    ensures HasRoom(t) ==> Extends(t, r.table)
    ensures ValidTable(t) && HasRoom(t) ==> ValidTable(r.table)
  {
    var entityVal := if entityId.Some? then entityId.value else NoEntity;
    var found := ShortCodeForType(t, mentionType);
    if found >= 0 then
      Constructed(MentionLocation(documentId, entityVal, index, textStart, textStop, found), t)
    else
      var code := NextShort(t);
      Constructed(MentionLocation(documentId, entityVal, index, textStart, textStop, code), t[code := mentionType])
  }

  /** `getMentionType`: the table's entry for the location's code, or null. */
  function GetMentionType(t: TypeCodeTable, ml: MentionLocation): (r: Option<string>)
    ensures r.Some? <==> ml.mentionTypeCode in t
    ensures r.Some? ==> r.value == t[ml.mentionTypeCode]
  {
    if ml.mentionTypeCode in t then Some(t[ml.mentionTypeCode]) else None
  }

  /** A freshly built location reports the type it was built with. */
  lemma NewLocationReportsItsType(t: TypeCodeTable, documentId: int, entityId: Option<int>, index: int,
                                  textStart: int, textStop: int, mentionType: string)
    ensures var r := NewMentionLocation(t, documentId, entityId, index, textStart, textStop, mentionType);
            GetMentionType(r.table, r.location) == Some(mentionType)
  {
  }

  /** Building a new location never changes the type an earlier location reports, while the table has room. */
  lemma EarlierLocationsKeepTheirType(t: TypeCodeTable, earlier: MentionLocation, documentId: int, entityId: Option<int>,
                                      index: int, textStart: int, textStop: int, mentionType: string)
    requires HasRoom(t)
    requires earlier.mentionTypeCode in t
    ensures var r := NewMentionLocation(t, documentId, entityId, index, textStart, textStop, mentionType);
            GetMentionType(r.table, earlier) == GetMentionType(t, earlier)
  {
  }

  /** Two locations with the same type share a code: a valid table never holds one type twice. */
  lemma SameTypeSameCode(t: TypeCodeTable, mentionType: string)
    requires ValidTable(t) && HasRoom(t)
    ensures var r1 := NewMentionLocation(t, 1, None, 0, 0, 0, mentionType);
            var r2 := NewMentionLocation(r1.table, 2, None, 1, 1, 1, mentionType);
            r2.location.mentionTypeCode == r1.location.mentionTypeCode && r2.table == r1.table
  {
    var r1 := NewMentionLocation(t, 1, None, 0, 0, 0, mentionType);
    assert HasType(r1.table, mentionType);
  }

  /** From an empty table, the first type gets code 0 and a second, different type gets code 1. */
  lemma FirstCodesAreZeroAndOne()
    ensures var r1 := NewMentionLocation(map[], 1, Some(3), 0, 10, 15, "NAM");
            var r2 := NewMentionLocation(r1.table, 1, Some(4), 1, 20, 23, "PRO");
            && r1.location.mentionTypeCode == 0 && r2.location.mentionTypeCode == 1
            && r2.table == map[0 := "NAM", 1 := "PRO"]
  {
    var r1 := NewMentionLocation(map[], 1, Some(3), 0, 10, 15, "NAM");
    assert r1.table == map[0 := "NAM"];
    assert !HasType(r1.table, "PRO");
  }

  /** `equals`: the five position fields, not the type code. */
  predicate Equals(a: MentionLocation, b: MentionLocation) {
    && a.documentId == b.documentId
    && a.entityId == b.entityId
    && a.index == b.index
    && a.textStart == b.textStart
    && a.textStop == b.textStop
  }

  /** `equals` is value equality once the type code is blanked out. */
  lemma EqualsIgnoresTypeCode(a: MentionLocation, b: MentionLocation)
    ensures Equals(a, b) <==> a.(mentionTypeCode := 0) == b.(mentionTypeCode := 0)
  {
  }

  /** `hashCode`: start at 7 and fold `41 * hash + field` over the five position fields, in `int` arithmetic. */
  function HashCode(ml: MentionLocation): int {
    var h := JavaInts.HashStep(41, 7, ml.documentId);
    var h := JavaInts.HashStep(41, h, ml.entityId);
    var h := JavaInts.HashStep(41, h, ml.index);
    var h := JavaInts.HashStep(41, h, ml.textStart);
    JavaInts.HashStep(41, h, ml.textStop)
  }

  /** `hashCode` is consistent with `equals`. */
  lemma EqualLocationsHashAlike(a: MentionLocation, b: MentionLocation)
    requires Equals(a, b)
    ensures HashCode(a) == HashCode(b)
  {
  }

  /** One row of `SELECT document_id, entity_id, index, text_start, text_stop, type FROM mention`. */
  datatype MentionRow = MentionRow(documentId: int, entityId: Option<int>, index: int,
                                   textStart: int, textStop: int, mentionType: string)

  /** The location a row describes, once its type has been given `code`. */
  function FromRow(row: MentionRow, code: int): MentionLocation {
    MentionLocation(row.documentId, row.entityId.GetOr(NoEntity), row.index, row.textStart, row.textStop, code)
  }

  /** Locations built from rows, in row order, with the table after the last row. */
  datatype Loaded = Loaded(locations: seq<MentionLocation>, table: TypeCodeTable)

  /**
   * `VizLincRDB.getMentionLocations`: one constructor call per row, in row
   * order, each against the table the previous call left.
   */
  function FromRows(t: TypeCodeTable, rows: seq<MentionRow>): (r: Loaded)
    ensures |r.locations| == |rows|
    ensures forall i :: 0 <= i < |rows| ==> r.locations[i] == FromRow(rows[i], r.locations[i].mentionTypeCode)
    decreases |rows|
  {
    if |rows| == 0 then Loaded([], t)
    else
      var row := rows[|rows| - 1];
      var prefix := FromRows(t, rows[..|rows| - 1]);
      var built := NewMentionLocation(prefix.table, row.documentId, row.entityId, row.index,
                                      row.textStart, row.textStop, row.mentionType);
      var locations := prefix.locations + [built.location];
      assert built.location == FromRow(row, built.location.mentionTypeCode);
      assert forall i :: 0 <= i < |rows| - 1 ==> locations[i] == prefix.locations[i] && rows[..|rows| - 1][i] == rows[i];
      Loaded(locations, built.table)
  }

  /** The mention types of the rows that `t` has no code for: the types a load must allocate a code to. */
  function NewTypes(t: TypeCodeTable, rows: seq<MentionRow>): set<string> {
    set i | 0 <= i < |rows| && !HasType(t, rows[i].mentionType) :: rows[i].mentionType
  }

  /** The new types of the rows are those of all rows but the last, plus the last row's type when `t` lacks it. */
  lemma NewTypesSnoc(t: TypeCodeTable, rows: seq<MentionRow>)
    requires |rows| > 0
    ensures var last := rows[|rows| - 1].mentionType;
            NewTypes(t, rows) == NewTypes(t, rows[..|rows| - 1]) + (if HasType(t, last) then {} else {last})
  {
    var init := rows[..|rows| - 1];
    forall x | x in NewTypes(t, init) ensures x in NewTypes(t, rows) {
      var i :| 0 <= i < |init| && !HasType(t, init[i].mentionType) && init[i].mentionType == x;
      assert rows[i] == init[i];
    }
    forall x | x in NewTypes(t, rows) && x != rows[|rows| - 1].mentionType ensures x in NewTypes(t, init) {
      var i :| 0 <= i < |rows| && !HasType(t, rows[i].mentionType) && rows[i].mentionType == x;
      assert i < |init| && init[i] == rows[i];
    }
  }

  /**
   * However many rows a load has, it allocates at most one code per distinct
   * mention type: rows drawn from a set of types have no more new types than
   * that set has members.
   */
  lemma NewTypesBoundedByTypes(t: TypeCodeTable, rows: seq<MentionRow>, types: set<string>)
    requires forall i :: 0 <= i < |rows| ==> rows[i].mentionType in types
    ensures |NewTypes(t, rows)| <= |types|
  {
    SubsetCard(NewTypes(t, rows), types);
  }

  /** A subset is no larger than its superset. */
  lemma {:induction false} SubsetCard<T>(a: set<T>, b: set<T>)
    requires a <= b
    ensures |a| <= |b|
    decreases |b|
  {
    if a != {} {
      var x :| x in a;
      SubsetCard(a - {x}, b - {x});
    }
  }

  /** The table a constructor call for `mentionType` leaves behind `p`. */
  function TableAfter(p: TypeCodeTable, mentionType: string): TypeCodeTable {
    if HasType(p, mentionType) then p else p[NextShort(p) := mentionType]
  }

  /**
   * One row of a load: if the codes so far lie in `t` or below
   * `NextShort(t) + k`, and a type the table lacks is counted among `n > k`
   * new types, then after the row the codes lie below `NextShort(t) + n`.
   */
  lemma LoadStep(t: TypeCodeTable, p: TypeCodeTable, k: int, n: int, mentionType: string)
    requires HasRoom(t) && ValidTable(p) && Extends(t, p)
    requires forall c :: c in p ==> c in t || c < NextShort(t) + k
    requires 0 <= k <= n && NextShort(t) + n <= JavaInts.MaxShort
    requires !HasType(p, mentionType) ==> k < n
    ensures var q := TableAfter(p, mentionType);
            && ValidTable(q) && Extends(t, q) && Extends(p, q) && HasRoom(q) && HasType(q, mentionType)
            && forall c :: c in q ==> c in t || c < NextShort(t) + n
  {
    assert HasRoom(p);
    if !HasType(p, mentionType) {
      var c := NextShort(p);
      assert c <= NextShort(t) + k by {
        if c > 0 {
          assert c - 1 in p;
        }
      }
      assert p[c := mentionType][c] == mentionType;
    }
  }

  /** A row whose type the table lacks, when every earlier row's type is in the table, brings one more new type. */
  lemma NewTypeCounted(t: TypeCodeTable, p: TypeCodeTable, rows: seq<MentionRow>)
    requires |rows| > 0 && Extends(t, p)
    requires forall i :: 0 <= i < |rows| - 1 ==> HasType(p, rows[i].mentionType)
    requires !HasType(p, rows[|rows| - 1].mentionType)
    ensures |NewTypes(t, rows)| == |NewTypes(t, rows[..|rows| - 1])| + 1
  {
    var init := rows[..|rows| - 1];
    var last := rows[|rows| - 1].mentionType;
    NewTypesSnoc(t, rows);
    assert forall c :: c in t && t[c] == last ==> c in p && p[c] == last;
    forall i | 0 <= i < |init| ensures init[i].mentionType != last {
      assert init[i] == rows[i];
    }
  }

  /**
   * Loading keeps a valid table valid and keeps every entry it started
   * with, while there is room below the largest short for one new code per
   * new mention type: codes are allocated only below
   * `NextShort(t) + |NewTypes(t, rows)|`, and every row's type ends up in
   * the table.
   */
  lemma {:induction false} LoadedTableStaysValid(t: TypeCodeTable, rows: seq<MentionRow>)
    requires ValidTable(t) && HasRoom(t)
    requires NextShort(t) + |NewTypes(t, rows)| <= JavaInts.MaxShort
    ensures var r := FromRows(t, rows);
            && ValidTable(r.table) && Extends(t, r.table) && HasRoom(r.table)
            && (forall c :: c in r.table ==> c in t || c < NextShort(t) + |NewTypes(t, rows)|)
            && forall i :: 0 <= i < |rows| ==> HasType(r.table, rows[i].mentionType)
    decreases |rows|
  {
    if |rows| > 0 {
      var init := rows[..|rows| - 1];
      var row := rows[|rows| - 1];
      NewTypesSnoc(t, rows);
      SubsetCard(NewTypes(t, init), NewTypes(t, rows));
      LoadedTableStaysValid(t, init);
      var prefix := FromRows(t, init);
      forall i | 0 <= i < |rows| - 1 ensures HasType(prefix.table, rows[i].mentionType) {
        assert init[i] == rows[i];
      }
      if !HasType(prefix.table, row.mentionType) {
        NewTypeCounted(t, prefix.table, rows);
      }
      LoadStep(t, prefix.table, |NewTypes(t, init)|, |NewTypes(t, rows)|, row.mentionType);
      var q := TableAfter(prefix.table, row.mentionType);
      assert FromRows(t, rows).table == q;
      forall i | 0 <= i < |rows| ensures HasType(q, rows[i].mentionType) {
        if i < |rows| - 1 {
          var c :| c in prefix.table && prefix.table[c] == rows[i].mentionType;
          assert c in q && q[c] == rows[i].mentionType;
        }
      }
    }
  }

  /** Every location built from the rows reports its row's type against the table after the last row. */
  lemma {:induction false} LoadedLocationsReportTheirTypes(t: TypeCodeTable, rows: seq<MentionRow>)
    requires ValidTable(t) && HasRoom(t)
    requires NextShort(t) + |NewTypes(t, rows)| <= JavaInts.MaxShort
    ensures var r := FromRows(t, rows);
            forall i :: 0 <= i < |rows| ==> GetMentionType(r.table, r.locations[i]) == Some(rows[i].mentionType)
  {
    forall i | 0 <= i < |rows| ensures GetMentionType(FromRows(t, rows).table, FromRows(t, rows).locations[i]) == Some(rows[i].mentionType) {
      LoadedLocationReportsItsType(t, rows, i);
    }
  }

  /**
   * The location of row `i` reports row `i`'s type: the last row's location
   * gets its type from the constructor call, and an earlier one keeps its
   * report because the calls after it only extend the table.
   */
  lemma {:induction false} LoadedLocationReportsItsType(t: TypeCodeTable, rows: seq<MentionRow>, i: int)
    requires ValidTable(t) && HasRoom(t)
    requires NextShort(t) + |NewTypes(t, rows)| <= JavaInts.MaxShort
    requires 0 <= i < |rows|
    ensures GetMentionType(FromRows(t, rows).table, FromRows(t, rows).locations[i]) == Some(rows[i].mentionType)
    decreases |rows|
  {
    var init := rows[..|rows| - 1];
    var prefix := FromRows(t, init);
    var built := BuildRow(prefix.table, rows[|rows| - 1]);
    FromRowsSnoc(t, rows);
    if i < |rows| - 1 {
      assert NextShort(t) + |NewTypes(t, init)| <= JavaInts.MaxShort by {
        NewTypesSnoc(t, rows);
        SubsetCard(NewTypes(t, init), NewTypes(t, rows));
      }
      LoadedLocationReportsItsType(t, init, i);
      assert HasRoom(prefix.table) by {
        LoadedTableStaysValid(t, init);
      }
      assert Extends(prefix.table, built.table);
      assert init[i] == rows[i];
      assert FromRows(t, rows).locations[i] == prefix.locations[i];
    }
  }

  /** The location and table a constructor call for `row` produces against table `p`. */
  function BuildRow(p: TypeCodeTable, row: MentionRow): Constructed {
    NewMentionLocation(p, row.documentId, row.entityId, row.index, row.textStart, row.textStop, row.mentionType)
  }

  /** Loading one more row appends that row's location and moves to the table its constructor call leaves. */
  lemma FromRowsSnoc(t: TypeCodeTable, rows: seq<MentionRow>)
    requires |rows| > 0
    ensures var prefix := FromRows(t, rows[..|rows| - 1]);
            var built := BuildRow(prefix.table, rows[|rows| - 1]);
            FromRows(t, rows) == Loaded(prefix.locations + [built.location], built.table)
  {
  }
}

=== FILE: proximity.dfy ===
/**
 * The windowed co-occurrence queries of the in-memory store
 * (`relational/VizLincRDBMem.java`, `getEntitiesMentionedNearEntities`,
 * `getDocumentsForEntitiesMentionedNearEntity` and their `ByIndex` /
 * `ByTextOffset` entry points).
 *
 * In each requested document every mention of a query entity opens the
 * closed window `[pos - distance, pos + distance]`; a mention of a wanted
 * entity counts when its own position lies in the union of the windows.
 * The union is the `IntervalSets` model of Guava's `TreeRangeSet`.
 */
module Proximity {
  import opened Wrappers
  import opened Exceptions
  import opened IntervalSets
  import opened MentionLocations
  import opened MentionIndex

  /** `NeighborhoodType`: which coordinate of a mention is its position. */
  datatype Neighborhood = ByIndex | ByTextStart

  function Position(ml: MentionLocation, nt: Neighborhood): int {
    match nt
    case ByIndex => ml.index
    case ByTextStart => ml.textStart
  }

  /** The query entities, the window half-width and the coordinate used. */
  datatype Query = Query(queryIds: set<int>, distance: int, nt: Neighborhood)

  /** `EntityCounts`: how many qualifying mentions, in how many documents. */
  datatype EntityCounts = EntityCounts(mentionCount: int, documentCount: int)

  /** Position `p` is within the distance of some query-entity mention of `around`. */
  ghost predicate Near(around: seq<MentionLocation>, q: Query, p: int) {
    exists j :: 0 <= j < |around| && around[j].entityId in q.queryIds
      && Position(around[j], q.nt) - q.distance <= p <= Position(around[j], q.nt) + q.distance
  }

  /** The window one mention of a query entity contributes. */
  function Window(ml: MentionLocation, q: Query): Interval {
    Interval(Position(ml, q.nt) - q.distance, Position(ml, q.nt) + q.distance)
  }

  /**
   * The windows of `locs` can be built: `Range.closed` rejects a window whose
   * lower end exceeds its upper end, which a negative distance gives every
   * query-entity mention.
   */
  predicate WindowsDefined(locs: seq<MentionLocation>, q: Query) {
    q.distance >= 0 || forall j :: 0 <= j < |locs| ==> locs[j].entityId !in q.queryIds
  }

  /**
   * The range set of one document: one closed window per query-entity
   * mention, inserted in list order. A point is covered exactly when it is
   * near some query-entity mention.
   */
  function Windows(locs: seq<MentionLocation>, q: Query): (s: seq<Interval>)
    requires WindowsDefined(locs, q)
    ensures IntervalSets.Valid(s)
    ensures forall p :: Covers(s, p) <==> Near(locs, q, p)
    decreases |locs|
  {
    if |locs| == 0 then []
    else
      var init := locs[..|locs| - 1];
      var last := locs[|locs| - 1];
      var prefix := Windows(init, q);
      var s := if last.entityId in q.queryIds then Insert(prefix, Window(last, q)) else prefix;
      assert forall p :: Covers(s, p) <==> Near(locs, q, p) by {
        forall p ensures Covers(s, p) <==> Near(locs, q, p) {
          if Near(locs, q, p) {
            var j :| 0 <= j < |locs| && locs[j].entityId in q.queryIds
              && Position(locs[j], q.nt) - q.distance <= p <= Position(locs[j], q.nt) + q.distance;
            if j < |init| {
              assert init[j] == locs[j];
            }
          }
          if Near(init, q, p) {
            var j :| 0 <= j < |init| && init[j].entityId in q.queryIds
              && Position(init[j], q.nt) - q.distance <= p <= Position(init[j], q.nt) + q.distance;
            assert locs[j] == init[j];
          }
        }
      }
      s
  }

  /** The number of mentions of `e` in `locs` whose position is near a query-entity mention of `around`. */
  ghost function CountNear(locs: seq<MentionLocation>, around: seq<MentionLocation>, q: Query, e: int): nat
    decreases |locs|
  {
    if |locs| == 0 then 0
    else
      var last := locs[|locs| - 1];
      CountNear(locs[..|locs| - 1], around, q, e) + (if last.entityId == e && Near(around, q, Position(last, q.nt)) then 1 else 0)
  }

  /** Some mention of `e` in `locs` is near a query-entity mention of `around`. */
  ghost predicate SomeNear(locs: seq<MentionLocation>, around: seq<MentionLocation>, q: Query, e: int) {
    exists j :: 0 <= j < |locs| && locs[j].entityId == e && Near(around, q, Position(locs[j], q.nt))
  }

  /** The count is positive exactly when some mention qualifies. */
  lemma {:induction false} CountNearPositive(locs: seq<MentionLocation>, around: seq<MentionLocation>, q: Query, e: int)
    ensures CountNear(locs, around, q, e) > 0 <==> SomeNear(locs, around, q, e)
    decreases |locs|
  {
    if |locs| > 0 {
      var init := locs[..|locs| - 1];
      var last := locs[|locs| - 1];
      CountNearPositive(init, around, q, e);
      if SomeNear(locs, around, q, e) {
        var j :| 0 <= j < |locs| && locs[j].entityId == e && Near(around, q, Position(locs[j], q.nt));
        if j < |init| {
          assert init[j] == locs[j];
        }
      }
      if SomeNear(init, around, q, e) {
        var j :| 0 <= j < |init| && init[j].entityId == e && Near(around, q, Position(init[j], q.nt));
        assert locs[j] == init[j];
      }
    }
  }

  lemma CountNearSnoc(locs: seq<MentionLocation>, around: seq<MentionLocation>, q: Query, e: int, j: int)
    requires 0 <= j < |locs|
    ensures CountNear(locs[..j + 1], around, q, e) ==
      CountNear(locs[..j], around, q, e) + (if locs[j].entityId == e && Near(around, q, Position(locs[j], q.nt)) then 1 else 0)
  {
    assert locs[..j + 1][..j] == locs[..j];
  }

  /**
   * One document's pass of the counting loop: the per-entity counts of the
   * wanted entities' mentions that fall inside the document's windows.
   * Entities with no such mention get no entry.
   */
  method CountNearInDocument(locs: seq<MentionLocation>, q: Query, wanted: set<int>) returns (counts: map<int, int>)
    requires WindowsDefined(locs, q)
    ensures forall e :: e in counts <==> e in wanted && CountNear(locs, locs, q, e) > 0
    ensures forall e :: e in counts ==> counts[e] == CountNear(locs, locs, q, e)
  {
    var windows := Windows(locs, q);
    counts := map[];
    for j := 0 to |locs|
      invariant forall e :: e in counts <==> e in wanted && CountNear(locs[..j], locs, q, e) > 0
      invariant forall e :: e in counts ==> counts[e] == CountNear(locs[..j], locs, q, e)
    {
      var ml := locs[j];
      var inside := Contains(windows, Position(ml, q.nt));
      if ml.entityId in wanted && inside {
        if ml.entityId !in counts {
          counts := counts[ml.entityId := 1];
        } else {
          counts := counts[ml.entityId := counts[ml.entityId] + 1];
        }
      }
      forall e ensures CountNear(locs[..j + 1], locs, q, e) ==
        CountNear(locs[..j], locs, q, e) + (if ml.entityId == e && Near(locs, q, Position(ml, q.nt)) then 1 else 0) {
        CountNearSnoc(locs, locs, q, e, j);
      }
    }
    assert locs[..|locs|] == locs;
  }

  /** Every requested document has a location list. */
  predicate AllIndexed(m: DocumentMentions, docIds: seq<int>) {
    forall i :: 0 <= i < |docIds| ==> docIds[i] in m
  }

  /** Every requested document has a location list whose windows can be built. */
  predicate RangesBuilt(m: DocumentMentions, q: Query, docIds: seq<int>) {
    forall i :: 0 <= i < |docIds| ==> docIds[i] in m && WindowsDefined(m[docIds[i]], q)
  }

  /**
   * What the range-building pass throws at document `d`: iterating the
   * missing list of a document without one throws `NullPointerException`,
   * and a negative distance makes `Range.closed` throw
   * `IllegalArgumentException` at the document's first query-entity mention.
   */
  function DocumentFailure(m: DocumentMentions, q: Query, d: int): (r: Option<Exception>)
    ensures r.None? <==> d in m && WindowsDefined(m[d], q)
    ensures r == Some(NullPointer) <==> d !in m
  {
    if d !in m then Some(NullPointer)
    else if !WindowsDefined(m[d], q) then Some(IllegalArgument(InvalidRange))
    else None
  }

  /** The message of Guava's rejection of an empty closed range; the bounds it also prints are left out. */
  const InvalidRange: string := "Invalid range"

  /** Document `i` is the first requested document at which the range-building pass throws. */
  predicate FirstFailureAt(m: DocumentMentions, q: Query, docIds: seq<int>, i: int) {
    && 0 <= i < |docIds|
    && DocumentFailure(m, q, docIds[i]).Some?
    && forall k :: 0 <= k < i ==> DocumentFailure(m, q, docIds[k]).None?
  }

  /**
   * The range-building pass over the requested documents, in request order:
   * the exception of the first document that throws, or `None` when every
   * document's windows are built.
   */
  function BuildFailure(m: DocumentMentions, q: Query, docIds: seq<int>): (r: Option<Exception>)
    ensures r.None? <==> RangesBuilt(m, q, docIds)
    ensures r.Some? ==> exists i :: FirstFailureAt(m, q, docIds, i) && r == DocumentFailure(m, q, docIds[i])
    decreases |docIds|
  {
    if |docIds| == 0 then None
    else if DocumentFailure(m, q, docIds[0]).Some? then DocumentFailure(m, q, docIds[0])
    else
      var rest := BuildFailure(m, q, docIds[1..]);
      assert rest.Some? ==> exists i :: FirstFailureAt(m, q, docIds, i) && rest == DocumentFailure(m, q, docIds[i]) by {
        if rest.Some? {
          var i :| FirstFailureAt(m, q, docIds[1..], i) && rest == DocumentFailure(m, q, docIds[1..][i]);
          assert forall k :: 1 <= k < i + 1 ==> docIds[k] == docIds[1..][k - 1];
          assert FirstFailureAt(m, q, docIds, i + 1);
        }
      }
      rest
  }

  /** A negative distance opens no window, so no position is near anything. */
  lemma NegativeDistanceNearNothing(around: seq<MentionLocation>, q: Query, p: int)
    requires q.distance < 0
    ensures !Near(around, q, p)
  {
  }

  /** With a negative distance no mention of any entity is counted in a document. */
  lemma {:induction false} NegativeDistanceCountsNothing(locs: seq<MentionLocation>, around: seq<MentionLocation>, q: Query, e: int)
    requires q.distance < 0
    ensures CountNear(locs, around, q, e) == 0
    decreases |locs|
  {
    if |locs| > 0 {
      NegativeDistanceCountsNothing(locs[..|locs| - 1], around, q, e);
      NegativeDistanceNearNothing(around, q, Position(locs[|locs| - 1], q.nt));
    }
  }

  /**
   * A negative distance that throws nothing (no requested document has a
   * query-entity mention) leaves every total at zero, so the count query's
   * answer is empty.
   */
  lemma {:induction false} NegativeDistanceTotalsZero(m: DocumentMentions, docIds: seq<int>, q: Query, e: int)
    requires q.distance < 0 && AllIndexed(m, docIds)
    ensures TotalMentions(m, docIds, q, e) == 0
    decreases |docIds|
  {
    if |docIds| > 0 {
      var d := docIds[|docIds| - 1];
      NegativeDistanceTotalsZero(m, docIds[..|docIds| - 1], q, e);
      NegativeDistanceCountsNothing(m[d], m[d], q, e);
    }
  }

  /** The qualifying mentions of `e`, summed over the requested documents (a repeated document counts again). */
  ghost function TotalMentions(m: DocumentMentions, docIds: seq<int>, q: Query, e: int): nat
    requires AllIndexed(m, docIds)
    decreases |docIds|
  {
    if |docIds| == 0 then 0
    else
      var d := docIds[|docIds| - 1];
      TotalMentions(m, docIds[..|docIds| - 1], q, e) + CountNear(m[d], m[d], q, e)
  }

  /** The number of requested documents (with repetition) holding a qualifying mention of `e`. */
  ghost function DocumentsWithMentions(m: DocumentMentions, docIds: seq<int>, q: Query, e: int): nat
    requires AllIndexed(m, docIds)
    decreases |docIds|
  {
    if |docIds| == 0 then 0
    else
      var d := docIds[|docIds| - 1];
      DocumentsWithMentions(m, docIds[..|docIds| - 1], q, e) + (if CountNear(m[d], m[d], q, e) > 0 then 1 else 0)
  }

  /** An entity's document count never exceeds its mention count, and is positive exactly when the mention count is. */
  lemma {:induction false} DocumentsBoundedByMentions(m: DocumentMentions, docIds: seq<int>, q: Query, e: int)
    requires AllIndexed(m, docIds)
    ensures DocumentsWithMentions(m, docIds, q, e) <= TotalMentions(m, docIds, q, e)
    ensures TotalMentions(m, docIds, q, e) > 0 <==> DocumentsWithMentions(m, docIds, q, e) > 0
    decreases |docIds|
  {
    if |docIds| > 0 {
      DocumentsBoundedByMentions(m, docIds[..|docIds| - 1], q, e);
    }
  }

  lemma TotalsSnoc(m: DocumentMentions, docIds: seq<int>, q: Query, e: int, i: int)
    requires AllIndexed(m, docIds) && 0 <= i < |docIds|
    ensures AllIndexed(m, docIds[..i]) && AllIndexed(m, docIds[..i + 1])
    ensures TotalMentions(m, docIds[..i + 1], q, e) == TotalMentions(m, docIds[..i], q, e) + CountNear(m[docIds[i]], m[docIds[i]], q, e)
    ensures DocumentsWithMentions(m, docIds[..i + 1], q, e) ==
      DocumentsWithMentions(m, docIds[..i], q, e) + (if CountNear(m[docIds[i]], m[docIds[i]], q, e) > 0 then 1 else 0)
  {
    assert docIds[..i + 1][..i] == docIds[..i];
  }

  /** One turn of the accumulation loop: fold one document's counts into the running totals. */
  function MergeCounts(totals: map<int, EntityCounts>, counts: map<int, int>): map<int, EntityCounts> {
    map e | e in totals.Keys + counts.Keys ::
      if e !in counts then totals[e]
      else if e in totals then EntityCounts(totals[e].mentionCount + counts[e], totals[e].documentCount + 1)
      else EntityCounts(counts[e], 1)
  }

  /**
   * `getEntitiesMentionedNearEntities`: first the range-building pass, which
   * throws at the first requested document without a location list or with a
   * window `Range.closed` rejects; then, for each wanted entity with at least
   * one qualifying mention, its total qualifying mentions and the number of
   * documents holding one. No other entity appears.
   */
  method EntitiesMentionedNearEntities(m: DocumentMentions, q: Query, wanted: set<int>, docIds: seq<int>)
    returns (r: Result<map<int, EntityCounts>, Exception>)
    ensures r.Failure? <==> !RangesBuilt(m, q, docIds)
    ensures r.Failure? ==> Some(r.error) == BuildFailure(m, q, docIds)
    ensures r.Success? ==> AllIndexed(m, docIds)
    ensures r.Success? ==> forall e :: e in r.value <==> e in wanted && TotalMentions(m, docIds, q, e) > 0
    ensures r.Success? ==> forall e :: e in r.value ==>
      r.value[e] == EntityCounts(TotalMentions(m, docIds, q, e), DocumentsWithMentions(m, docIds, q, e))
    ensures r.Success? ==> forall e :: e in r.value ==> 1 <= r.value[e].documentCount <= r.value[e].mentionCount
  {
    var failure := BuildFailure(m, q, docIds);
    if failure.Some? {
      return Failure(failure.value);
    }
    var totals := map[];
    for i := 0 to |docIds|
      invariant AllIndexed(m, docIds[..i])
      invariant forall e :: e in totals <==> e in wanted && TotalMentions(m, docIds[..i], q, e) > 0
      invariant forall e :: e in totals ==>
        totals[e] == EntityCounts(TotalMentions(m, docIds[..i], q, e), DocumentsWithMentions(m, docIds[..i], q, e))
    {
      var d := docIds[i];
      var counts := CountNearInDocument(m[d], q, wanted);
      ghost var before := totals;
      totals := MergeCounts(totals, counts);
      forall e ensures
        && AllIndexed(m, docIds[..i + 1])
        && (e in totals <==> e in wanted && TotalMentions(m, docIds[..i + 1], q, e) > 0)
        && (e in totals ==> totals[e] == EntityCounts(TotalMentions(m, docIds[..i + 1], q, e), DocumentsWithMentions(m, docIds[..i + 1], q, e)))
      {
        TotalsSnoc(m, docIds, q, e, i);
        DocumentsBoundedByMentions(m, docIds[..i], q, e);
        if e in wanted && e !in before {
          assert TotalMentions(m, docIds[..i], q, e) == 0;
        }
      }
    }
    assert docIds[..|docIds|] == docIds;
    forall e | e in totals ensures 1 <= totals[e].documentCount <= totals[e].mentionCount {
      DocumentsBoundedByMentions(m, docIds, q, e);
    }
    r := Success(totals);
  }

  /** `getEntitiesMentionedNearEntitiesByIndex`: positions are mention indexes. */
  method EntitiesMentionedNearEntitiesByIndex(m: DocumentMentions, queryIds: set<int>, wanted: set<int>, docIds: seq<int>, distance: int)
    returns (r: Result<map<int, EntityCounts>, Exception>)
    ensures r.Failure? <==> !RangesBuilt(m, Query(queryIds, distance, ByIndex), docIds)
    ensures r.Failure? ==> Some(r.error) == BuildFailure(m, Query(queryIds, distance, ByIndex), docIds)
    ensures r.Success? ==> AllIndexed(m, docIds)
    ensures r.Success? ==> forall e :: e in r.value <==> e in wanted && TotalMentions(m, docIds, Query(queryIds, distance, ByIndex), e) > 0
    ensures r.Success? ==> forall e :: e in r.value ==>
      r.value[e] == EntityCounts(TotalMentions(m, docIds, Query(queryIds, distance, ByIndex), e),
                                 DocumentsWithMentions(m, docIds, Query(queryIds, distance, ByIndex), e))
  {
    r := EntitiesMentionedNearEntities(m, Query(queryIds, distance, ByIndex), wanted, docIds);
  }

  /** `getEntitiesMentionedNearEntitiesByTextOffset`: positions are mention start offsets. */
  method EntitiesMentionedNearEntitiesByTextOffset(m: DocumentMentions, queryIds: set<int>, wanted: set<int>, docIds: seq<int>, distance: int)
    returns (r: Result<map<int, EntityCounts>, Exception>)
    ensures r.Failure? <==> !RangesBuilt(m, Query(queryIds, distance, ByTextStart), docIds)
    ensures r.Failure? ==> Some(r.error) == BuildFailure(m, Query(queryIds, distance, ByTextStart), docIds)
    ensures r.Success? ==> AllIndexed(m, docIds)
    ensures r.Success? ==> forall e :: e in r.value <==> e in wanted && TotalMentions(m, docIds, Query(queryIds, distance, ByTextStart), e) > 0
    ensures r.Success? ==> forall e :: e in r.value ==>
      r.value[e] == EntityCounts(TotalMentions(m, docIds, Query(queryIds, distance, ByTextStart), e),
                                 DocumentsWithMentions(m, docIds, Query(queryIds, distance, ByTextStart), e))
  {
    r := EntitiesMentionedNearEntities(m, Query(queryIds, distance, ByTextStart), wanted, docIds);
  }

  /**
   * One document's pass of the document query: scan the mentions in order
   * and stop at the first mention of the wanted entity inside the windows.
   */
  method HasMentionNear(locs: seq<MentionLocation>, q: Query, wantedId: int) returns (found: bool)
    requires WindowsDefined(locs, q)
    ensures found <==> SomeNear(locs, locs, q, wantedId)
  {
    var windows := Windows(locs, q);
    found := false;
    var j := 0;
    while j < |locs|
      invariant 0 <= j <= |locs|
      invariant !found ==> forall k :: 0 <= k < j ==> !(locs[k].entityId == wantedId && Near(locs, q, Position(locs[k], q.nt)))
      invariant found ==> SomeNear(locs, locs, q, wantedId)
      decreases |locs| - j, if found then 0 else 1
    {
      var inside := Contains(windows, Position(locs[j], q.nt));
      if wantedId == locs[j].entityId && inside {
        found := true;
        break;
      }
      j := j + 1;
    }
  }

  /**
   * `getDocumentsForEntitiesMentionedNearEntity`: the same range-building
   * pass and its exceptions; then the requested documents in which some
   * mention of the wanted entity lies inside the document's windows.
   */
  method DocumentsForEntitiesMentionedNearEntity(m: DocumentMentions, q: Query, wantedId: int, docIds: seq<int>)
    returns (r: Result<set<int>, Exception>)
    ensures r.Failure? <==> !RangesBuilt(m, q, docIds)
    ensures r.Failure? ==> Some(r.error) == BuildFailure(m, q, docIds)
    ensures r.Success? ==> AllIndexed(m, docIds)
    ensures r.Success? ==> forall d :: d in r.value <==> d in docIds && SomeNear(m[d], m[d], q, wantedId)
    ensures r.Success? ==> r.value == NearDocuments(m, docIds, q, wantedId)
  {
    var failure := BuildFailure(m, q, docIds);
    if failure.Some? {
      return Failure(failure.value);
    }
    var found := {};
    for i := 0 to |docIds|
      invariant forall d :: d in found <==> d in docIds[..i] && SomeNear(m[d], m[d], q, wantedId)
    {
      var d := docIds[i];
      var near := HasMentionNear(m[d], q, wantedId);
      if near {
        found := found + {d};
      }
      assert docIds[..i + 1] == docIds[..i] + [d];
    }
    assert docIds[..|docIds|] == docIds;
    r := Success(found);
  }

  /** `getDocumentsForEntitiesMentionedNearEntityByIndex`: positions are mention indexes. */
  method DocumentsForEntitiesMentionedNearEntityByIndex(m: DocumentMentions, queryIds: set<int>, wantedId: int, docIds: seq<int>, distance: int)
    returns (r: Result<set<int>, Exception>)
    ensures r.Failure? <==> !RangesBuilt(m, Query(queryIds, distance, ByIndex), docIds)
    ensures r.Failure? ==> Some(r.error) == BuildFailure(m, Query(queryIds, distance, ByIndex), docIds)
    ensures r.Success? ==> AllIndexed(m, docIds)
    ensures r.Success? ==> forall d :: d in r.value <==> d in docIds && SomeNear(m[d], m[d], Query(queryIds, distance, ByIndex), wantedId)
  {
    r := DocumentsForEntitiesMentionedNearEntity(m, Query(queryIds, distance, ByIndex), wantedId, docIds);
  }

  /** `getDocumentsForEntitiesMentionedNearEntityByTextOffset`: positions are mention start offsets. */
  method DocumentsForEntitiesMentionedNearEntityByTextOffset(m: DocumentMentions, queryIds: set<int>, wantedId: int, docIds: seq<int>, distance: int)
    returns (r: Result<set<int>, Exception>)
    ensures r.Failure? <==> !RangesBuilt(m, Query(queryIds, distance, ByTextStart), docIds)
    ensures r.Failure? ==> Some(r.error) == BuildFailure(m, Query(queryIds, distance, ByTextStart), docIds)
    ensures r.Success? ==> AllIndexed(m, docIds)
    ensures r.Success? ==> forall d :: d in r.value <==> d in docIds && SomeNear(m[d], m[d], Query(queryIds, distance, ByTextStart), wantedId)
  {
    r := DocumentsForEntitiesMentionedNearEntity(m, Query(queryIds, distance, ByTextStart), wantedId, docIds);
  }

  /** The requested documents holding a qualifying mention of `e`: the answer of the document query. */
  ghost function NearDocuments(m: DocumentMentions, docIds: seq<int>, q: Query, e: int): set<int>
    requires AllIndexed(m, docIds)
  {
    set d | d in docIds && SomeNear(m[d], m[d], q, e)
  }

  /**
   * The two queries agree on any list of distinct requested documents: the
   * document query returns exactly the documents whose near count for the
   * wanted entity is positive, and the count query's document count for that
   * entity is the size of the document query's answer.
   */
  lemma {:induction false} DocumentQueryMatchesCounts(m: DocumentMentions, q: Query, wantedId: int, docIds: seq<int>)
    requires AllIndexed(m, docIds)
    requires forall i, j :: 0 <= i < j < |docIds| ==> docIds[i] != docIds[j]
    ensures forall d :: d in NearDocuments(m, docIds, q, wantedId) <==> d in docIds && CountNear(m[d], m[d], q, wantedId) > 0
    ensures DocumentsWithMentions(m, docIds, q, wantedId) == |NearDocuments(m, docIds, q, wantedId)|
    decreases |docIds|
  {
    forall d | d in docIds ensures SomeNear(m[d], m[d], q, wantedId) <==> CountNear(m[d], m[d], q, wantedId) > 0 {
      CountNearPositive(m[d], m[d], q, wantedId);
    }
    if |docIds| > 0 {
      var init := docIds[..|docIds| - 1];
      var d := docIds[|docIds| - 1];
      assert docIds == init + [d];
      DocumentQueryMatchesCounts(m, q, wantedId, init);
      assert forall k :: 0 <= k < |init| ==> init[k] == docIds[k] != d;
      var before := NearDocuments(m, init, q, wantedId);
      CountNearPositive(m[d], m[d], q, wantedId);
      if SomeNear(m[d], m[d], q, wantedId) {
        assert NearDocuments(m, docIds, q, wantedId) == before + {d};
      } else {
        assert NearDocuments(m, docIds, q, wantedId) == before;
      }
    }
  }
}

=== FILE: proximity_cases.dfy ===
/**
 * The proximity fixtures of the in-memory store's test suite
 * (`relational/VizLincRDBMemTest.java`), stated on the reference counts that
 * the query methods are proved to return.
 *
 * Ids follow the fixture's order of creation: documents 1 and 2, then
 * Alice 3, Bob 4, Lexington 5, Lincoln Lab 6 and the date 2012 as 7.
 */
module ProximityCases {
  import opened MentionLocations
  import opened MentionIndex
  import opened Proximity

  const Alice := 3
  const Bob := 4
  const Lexington := 5

  /** Document 1: Alice at index 0, Bob at 1 and 3, Lexington at 4. */
  function Document1(): seq<MentionLocation> {
    [ MentionLocation(1, 3, 0, 10, 15, 0),
      MentionLocation(1, 4, 1, 20, 23, 0),
      MentionLocation(1, 4, 3, 30, 33, 0),
      MentionLocation(1, 5, 4, 44, 53, 1) ]
  }

  /** Document 2: Alice, Bob, Lincoln Lab and 2012, all at index 0. */
  function Document2(): seq<MentionLocation> {
    [ MentionLocation(2, 3, 0, 10, 21, 0),
      MentionLocation(2, 4, 0, 20, 28, 0),
      MentionLocation(2, 6, 0, 20, 25, 2),
      MentionLocation(2, 7, 0, 20, 24, 3) ]
  }

  function Fixture(): DocumentMentions {
    map[1 := Document1(), 2 := Document2()]
  }

  /** Whether one mention counts towards `e`. */
  ghost function Counted(ml: MentionLocation, around: seq<MentionLocation>, q: Query, e: int): nat {
    if ml.entityId == e && Near(around, q, Position(ml, q.nt)) then 1 else 0
  }

  /** The count over a four-mention document, mention by mention. */
  lemma CountNearOfFour(locs: seq<MentionLocation>, q: Query, e: int)
    requires |locs| == 4
    ensures CountNear(locs, locs, q, e) ==
      Counted(locs[0], locs, q, e) + Counted(locs[1], locs, q, e) + Counted(locs[2], locs, q, e) + Counted(locs[3], locs, q, e)
  {
    var p3, p2, p1 := locs[..3], locs[..2], locs[..1];
    assert p3[..2] == p2 && p2[..1] == p1 && p1[..0] == [];
    assert CountNear(p1, locs, q, e) == Counted(locs[0], locs, q, e);
    assert CountNear(p2, locs, q, e) == CountNear(p1, locs, q, e) + Counted(locs[1], locs, q, e);
    assert CountNear(p3, locs, q, e) == CountNear(p2, locs, q, e) + Counted(locs[2], locs, q, e);
  }

  /** Query Alice within one index position in document 1: one Bob mention, no Lexington mention. */
  lemma AliceWithinOneIndex()
    ensures TotalMentions(Fixture(), [1], Query({Alice}, 1, ByIndex), Bob) == 1
    ensures DocumentsWithMentions(Fixture(), [1], Query({Alice}, 1, ByIndex), Bob) == 1
    ensures TotalMentions(Fixture(), [1], Query({Alice}, 1, ByIndex), Lexington) == 0
  {
    var q := Query({Alice}, 1, ByIndex);
    var d := Document1();
    assert [1][..0] == [];
    assert Near(d, q, 1) by {
      assert d[0].entityId in q.queryIds;
    }
    assert !Near(d, q, 3);
    CountNearOfFour(d, q, Bob);
    CountNearOfFour(d, q, Lexington);
  }

  /** Query Bob within two index positions in document 1: Alice and Lexington once each. */
  lemma BobWithinTwoIndexes()
    ensures TotalMentions(Fixture(), [1], Query({Bob}, 2, ByIndex), Alice) == 1
    ensures TotalMentions(Fixture(), [1], Query({Bob}, 2, ByIndex), Lexington) == 1
    ensures DocumentsWithMentions(Fixture(), [1], Query({Bob}, 2, ByIndex), Alice) == 1
    ensures DocumentsWithMentions(Fixture(), [1], Query({Bob}, 2, ByIndex), Lexington) == 1
  {
    var q := Query({Bob}, 2, ByIndex);
    var d := Document1();
    assert [1][..0] == [];
    assert Near(d, q, 0) by {
      assert d[1].entityId in q.queryIds;
    }
    assert Near(d, q, 4) by {
      assert d[2].entityId in q.queryIds;
    }
    CountNearOfFour(d, q, Alice);
    CountNearOfFour(d, q, Lexington);
  }

  /** Query Alice within five index positions in document 1: Alice's own mention counts too. */
  lemma AliceWithinFiveIndexes()
    ensures TotalMentions(Fixture(), [1], Query({Alice}, 5, ByIndex), Alice) == 1
    ensures TotalMentions(Fixture(), [1], Query({Alice}, 5, ByIndex), Bob) == 2
    ensures TotalMentions(Fixture(), [1], Query({Alice}, 5, ByIndex), Lexington) == 1
    ensures DocumentsWithMentions(Fixture(), [1], Query({Alice}, 5, ByIndex), Bob) == 1
  {
    var q := Query({Alice}, 5, ByIndex);
    var d := Document1();
    assert [1][..0] == [];
    assert Near(d, q, 0) && Near(d, q, 1) && Near(d, q, 3) && Near(d, q, 4) by {
      assert d[0].entityId in q.queryIds;
    }
    CountNearOfFour(d, q, Alice);
    CountNearOfFour(d, q, Bob);
    CountNearOfFour(d, q, Lexington);
  }

  /** The same query over both documents: Alice (2, 2), Bob (3, 2), Lexington (1, 1). */
  lemma AliceWithinFiveIndexesInBothDocuments()
    ensures TotalMentions(Fixture(), [1, 2], Query({Alice}, 5, ByIndex), Alice) == 2
    ensures DocumentsWithMentions(Fixture(), [1, 2], Query({Alice}, 5, ByIndex), Alice) == 2
    ensures TotalMentions(Fixture(), [1, 2], Query({Alice}, 5, ByIndex), Bob) == 3
    ensures DocumentsWithMentions(Fixture(), [1, 2], Query({Alice}, 5, ByIndex), Bob) == 2
    ensures TotalMentions(Fixture(), [1, 2], Query({Alice}, 5, ByIndex), Lexington) == 1
    ensures DocumentsWithMentions(Fixture(), [1, 2], Query({Alice}, 5, ByIndex), Lexington) == 1
  {
    var q := Query({Alice}, 5, ByIndex);
    AliceWithinFiveIndexes();
    var d := Document2();
    assert [1, 2][..1] == [1];
    assert Near(d, q, 0) by {
      assert d[0].entityId in q.queryIds;
    }
    CountNearOfFour(d, q, Alice);
    CountNearOfFour(d, q, Bob);
    CountNearOfFour(d, q, Lexington);
    CountNearOfFour(Document1(), q, Alice);
    CountNearOfFour(Document1(), q, Lexington);
  }

  /** Query Alice within ten characters of her start offset in document 1: the first Bob mention only. */
  lemma AliceWithinTenCharacters()
    ensures TotalMentions(Fixture(), [1], Query({Alice}, 10, ByTextStart), Bob) == 1
    ensures DocumentsWithMentions(Fixture(), [1], Query({Alice}, 10, ByTextStart), Bob) == 1
    ensures TotalMentions(Fixture(), [1], Query({Alice}, 10, ByTextStart), Lexington) == 0
  {
    var q := Query({Alice}, 10, ByTextStart);
    var d := Document1();
    assert [1][..0] == [];
    assert Near(d, q, 20) by {
      assert d[0].entityId in q.queryIds;
    }
    assert !Near(d, q, 30) && !Near(d, q, 44);
    CountNearOfFour(d, q, Bob);
    CountNearOfFour(d, q, Lexington);
  }

  /** Query Lexington within one index position for Bob: document 1 qualifies, document 2 (no Lexington) does not, and Alice is never that close. */
  lemma LexingtonNearBobOnlyInDocument1()
    ensures SomeNear(Document1(), Document1(), Query({Lexington}, 1, ByIndex), Bob)
    ensures !SomeNear(Document2(), Document2(), Query({Lexington}, 1, ByIndex), Bob)
    ensures !SomeNear(Document1(), Document1(), Query({Lexington}, 1, ByIndex), Alice)
  {
    var q := Query({Lexington}, 1, ByIndex);
    var d1 := Document1();
    assert Near(d1, q, 3) by {
      assert d1[3].entityId in q.queryIds;
    }
    assert d1[2].entityId == Bob;
    assert !Near(d1, q, 0);
    assert !Near(Document2(), q, 0);
  }
}

=== FILE: relational_db.dfy ===
/**
 * The pure parts of the relational front end (`relational/VizLincRDB.java`):
 * the implementation chosen from the database path and the post-processing
 * of the rows that the two `GROUP BY entity_id` count queries return. The
 * constructor's directory check is `DatabasePaths.CheckDatabaseDirectory`. The SQL itself is outside the
 * model; its result rows are the input here.
 */
module RelationalDatabase {
  import opened Wrappers
  import opened Exceptions
  import opened DatabasePaths

  /** `VizLincRDB.Implementation`: H2 is the only one, and the default. */
  datatype Implementation = H2

  const Implementations: seq<Implementation> := [H2]

  const Default: Implementation := H2

  function Tags(impl: Implementation): seq<string> {
    ["h2"]
  }

  /** `implementationForPath`: whether or not the path carries the `h2` tag, the answer is H2. */
  function ImplementationForPath(path: string): (r: Implementation)
    ensures FirstTagged(path, Implementations, Tags).Some? <==> HasTag(path, "h2")
    ensures r == H2
  {
    var found := FirstTagged(path, Implementations, Tags);
    assert HasAnyTag(path, Tags(H2)) <==> HasTag(path, "h2") by {
      if HasTag(path, "h2") { assert HasTag(path, Tags(H2)[0]); }
    }
    assert Implementations[0] == H2;
    if found.Some? then found.value else Default
  }

  /** One result row: an aggregate and the entity it was grouped by. */
  datatype CountRow = CountRow(count: int, entityId: int)

  /** Row `i` is about `e` and no later row is. */
  predicate IsLastRowFor(rows: seq<CountRow>, i: int, e: int) {
    && 0 <= i < |rows| && rows[i].entityId == e
    && forall j :: i < j < |rows| ==> rows[j].entityId != e
  }

  /** The count of the last row for `e`, the one whose `put` survives. */
  function LastRowCount(rows: seq<CountRow>, e: int): (c: Option<int>)
    ensures c.Some? <==> exists i :: 0 <= i < |rows| && rows[i].entityId == e
    ensures c.Some? ==> exists i :: IsLastRowFor(rows, i, e) && rows[i].count == c.value
    decreases |rows|
  {
    if |rows| == 0 then None
    else
      var init := rows[..|rows| - 1];
      var last := rows[|rows| - 1];
      var c := LastRowCount(init, e);
      assert forall i :: 0 <= i < |init| ==> rows[i] == init[i];
      if last.entityId == e then
        assert IsLastRowFor(rows, |rows| - 1, e);
        Some(last.count)
      else
        if c.Some? then
          var i :| IsLastRowFor(init, i, e) && init[i].count == c.value;
          assert IsLastRowFor(rows, i, e);
          c
        else
          c
  }

  /** The map the row loop fills: one `put` per row, in order. */
  function RowsToMap(rows: seq<CountRow>): (m: map<int, int>)
    ensures forall e :: e in m <==> LastRowCount(rows, e).Some?
    ensures forall e :: e in m ==> Some(m[e]) == LastRowCount(rows, e)
    decreases |rows|
  {
    if |rows| == 0 then map[]
    else
      var last := rows[|rows| - 1];
      RowsToMap(rows[..|rows| - 1])[last.entityId := last.count]
  }

  /**
   * `getMentionCountsForEntitiesInDocuments`: the row counts, then 0 for
   * every requested entity that no row mentions.
   */
  function MentionCountsFromRows(rows: seq<CountRow>, entityIds: seq<int>): (m: map<int, int>)
    ensures forall e :: e in m <==> e in entityIds || LastRowCount(rows, e).Some?
    ensures forall e :: e in m && LastRowCount(rows, e).Some? ==> m[e] == LastRowCount(rows, e).value
    ensures forall e :: e in m && LastRowCount(rows, e).None? ==> m[e] == 0
    decreases |entityIds|
  {
    if |entityIds| == 0 then RowsToMap(rows)
    else
      var prefix := MentionCountsFromRows(rows, entityIds[..|entityIds| - 1]);
      var e := entityIds[|entityIds| - 1];
      assert entityIds == entityIds[..|entityIds| - 1] + [e];
      if e !in prefix then prefix[e := 0] else prefix
  }

  /** `getDocumentCountsForEntitiesInDocuments`: the row counts only, with no zero fill. */
  function DocumentCountsFromRows(rows: seq<CountRow>): (m: map<int, int>)
    ensures forall e :: e in m <==> exists i :: 0 <= i < |rows| && rows[i].entityId == e
    ensures forall e :: e in m ==> exists i :: IsLastRowFor(rows, i, e) && rows[i].count == m[e]
    ensures forall e :: e in m ==> Some(m[e]) == LastRowCount(rows, e)
  {
    RowsToMap(rows)
  }

  /**
   * The two relational count queries disagree on a requested entity that no
   * row mentions: the mention counts list it with 0, the document counts
   * leave it out.
   */
  lemma UnmentionedEntityOnlyInMentionCounts(rows: seq<CountRow>, entityIds: seq<int>, e: int)
    requires e in entityIds
    requires forall i :: 0 <= i < |rows| ==> rows[i].entityId != e
    ensures e in MentionCountsFromRows(rows, entityIds) && MentionCountsFromRows(rows, entityIds)[e] == 0
    ensures e !in DocumentCountsFromRows(rows)
  {
    assert LastRowCount(rows, e).None?;
  }
}

=== FILE: wrappers.dfy ===
/** Option and Result, standing in for Java's null and thrown exceptions. */
module Wrappers {

  /** `None` plays the part of a Java `null` reference. */
  datatype Option<+T> = None | Some(value: T) {

    /** The wrapped value, or `default` when there is none. */
    function GetOr(default: T): T {
      match this
      case Some(v) => v
      case None => default
    }
  }

  /** `Failure` plays the part of an exception thrown by the Java code. */
  datatype Result<+R, +E> = Success(value: R) | Failure(error: E)
}

/** The Java exceptions the modelled code can raise, as values. */
module Exceptions {

  datatype Exception =
    | NullPointer
    | IllegalArgument(message: string)
    | NoSuchElement
    | IndexOutOfBounds(index: int)
    | Parse(message: string)
}

=== FILE: xml_entity_parser.dfy ===
/**
 * The mention state machine of `XMLEntityParser.getXMLMentions`
 * (`xml/XMLEntityParser.java`), with `XMLMention` (`xml/XMLMention.java`) as
 * its record.
 *
 * The XML reader is replaced by an abstract sequence of events. A characters
 * event carries the chunk's text and the start and end character offsets the
 * reader would report for it. The reader's own nesting check (an end tag that
 * does not close the innermost open element, or an element left open at the
 * end of input) is kept as a `Parse` failure; all other well-formedness rules
 * of XML are left to the reader.
 */
module XmlEntityParsing {
  import opened Wrappers
  import opened Exceptions

  datatype XMLMention = XMLMention(
    mentionType: string,
    text: string,
    index: int,
    startingCharOffset: int,
    endingCharOffset: int,
    tokenOffset: int,
    depth: int)

  datatype Event =
    | StartElement(name: string)
    | Characters(text: string, startOffset: int, endOffset: int)
    | EndElement(name: string)
    | OtherEvent

  /** The tags the no-argument constructor accepts. */
  const DefaultTags: set<string> := {"PERSON", "ORGANIZATION", "LOCATION", "DATE"}

  /** The element whose start resets the token counter. */
  const TextTag: string := "TEXT"

  /**
   * The loop's variables: the open XML elements (kept by the reader), the
   * stack of unclosed mentions (top last), the closed mentions in closing
   * order, the last index handed out, and the token counter.
   */
  datatype ParserState = ParserState(
    open: seq<string>,
    stack: seq<XMLMention>,
    mentions: seq<XMLMention>,
    index: int,
    tokenCounter: int)

  /** Before the first event: nothing open, no index handed out, tokens not yet counted. */
  const Initial: ParserState := ParserState([], [], [], -1, -1)

  // ----- token counting: text.trim().split("\\s+").length -----

  /** `String.trim` removes every character up to and including the space. */
  predicate IsTrimmable(c: char) {
    c <= ' '
  }

  /** The regex class `\s`: space, tab, newline, vertical tab, form feed, carriage return. */
  predicate IsRegexSpace(c: char) {
    c == ' ' || 9 <= c as int <= 13
  }

  function TrimLeading(s: string): string
    decreases |s|
  {
    if |s| > 0 && IsTrimmable(s[0]) then TrimLeading(s[1..]) else s
  }

  function TrimTrailing(s: string): string
    decreases |s|
  {
    if |s| > 0 && IsTrimmable(s[|s| - 1]) then TrimTrailing(s[..|s| - 1]) else s
  }

  /** Trimming the front drops exactly the leading run of trimmable characters. */
  lemma {:induction false} TrimLeadingShape(s: string)
    ensures var r := TrimLeading(s);
            && |r| <= |s| && r == s[|s| - |r|..]
            && (|r| > 0 ==> !IsTrimmable(r[0]))
            && (forall i :: 0 <= i < |s| - |r| ==> IsTrimmable(s[i]))
    decreases |s|
  {
    if |s| > 0 && IsTrimmable(s[0]) {
      TrimLeadingShape(s[1..]);
      var r := TrimLeading(s);
      forall i | 0 <= i < |s| - |r| ensures IsTrimmable(s[i]) {
        if i > 0 {
          assert s[i] == s[1..][i - 1];
        }
      }
    }
  }

  /** Trimming the back drops exactly the trailing run of trimmable characters. */
  lemma {:induction false} TrimTrailingShape(s: string)
    ensures var r := TrimTrailing(s);
            && |r| <= |s| && r == s[..|r|]
            && (|r| > 0 ==> !IsTrimmable(r[|r| - 1]))
            && (forall i :: |r| <= i < |s| ==> IsTrimmable(s[i]))
    decreases |s|
  {
    if |s| > 0 && IsTrimmable(s[|s| - 1]) {
      TrimTrailingShape(s[..|s| - 1]);
      var r := TrimTrailing(s);
      forall i | |r| <= i < |s| ensures IsTrimmable(s[i]) {
        if i < |s| - 1 {
          assert s[i] == s[..|s| - 1][i];
        }
      }
    }
  }

  /** Leading trimmable characters are dropped up to the first character that is not. */
  lemma {:induction false} TrimLeadingPadding(pre: string, rest: string)
    requires forall i :: 0 <= i < |pre| ==> IsTrimmable(pre[i])
    requires |rest| == 0 || !IsTrimmable(rest[0])
    ensures TrimLeading(pre + rest) == rest
    decreases |pre|
  {
    if |pre| > 0 {
      assert (pre + rest)[1..] == pre[1..] + rest;
      TrimLeadingPadding(pre[1..], rest);
    } else {
      assert pre + rest == rest;
    }
  }

  /** Trailing trimmable characters are dropped back to the last character that is not. */
  lemma {:induction false} TrimTrailingPadding(rest: string, post: string)
    requires forall i :: 0 <= i < |post| ==> IsTrimmable(post[i])
    requires |rest| == 0 || !IsTrimmable(rest[|rest| - 1])
    ensures TrimTrailing(rest + post) == rest
    decreases |post|
  {
    if |post| > 0 {
      assert (rest + post)[..|rest + post| - 1] == rest + post[..|post| - 1];
      TrimTrailingPadding(rest, post[..|post| - 1]);
    } else {
      assert rest + post == rest;
    }
  }

  /** `String.trim`. */
  function Trim(s: string): string {
    TrimTrailing(TrimLeading(s))
  }

  /** The number of maximal runs of `\s` characters in `t`. */
  function SpaceRuns(t: string): nat
    decreases |t|
  {
    if |t| == 0 then 0
    else
      var starts := IsRegexSpace(t[|t| - 1]) && (|t| == 1 || !IsRegexSpace(t[|t| - 2]));
      SpaceRuns(t[..|t| - 1]) + (if starts then 1 else 0)
  }

  /**
   * `text.trim().split("\\s+").length`. A trimmed string neither starts nor
   * ends with a `\s` character, so the split yields one piece more than there
   * are runs of `\s`; the empty string splits into one empty piece.
   */
  function TokenCount(text: string): nat {
    1 + SpaceRuns(Trim(text))
  }

  /** Characters that are neither trimmed nor separators. */
  predicate IsWordChar(c: char) {
    !IsTrimmable(c)
  }

  predicate IsWord(w: string) {
    |w| > 0 && forall i :: 0 <= i < |w| ==> IsWordChar(w[i])
  }

  /** Words joined by single spaces. */
  function JoinWords(ws: seq<string>): string
    requires |ws| > 0
    decreases |ws|
  {
    if |ws| == 1 then ws[0] else JoinWords(ws[..|ws| - 1]) + " " + ws[|ws| - 1]
  }

  lemma {:induction false} WordHasNoSpaceRuns(w: string)
    requires forall i :: 0 <= i < |w| ==> IsWordChar(w[i])
    ensures SpaceRuns(w) == 0
    decreases |w|
  {
    if |w| > 0 {
      WordHasNoSpaceRuns(w[..|w| - 1]);
    }
  }

  lemma {:induction false} SpaceRunsAppendWord(t: string, w: string)
    requires |t| > 0 && !IsRegexSpace(t[|t| - 1])
    requires IsWord(w)
    ensures SpaceRuns(t + " " + w) == SpaceRuns(t) + 1
    decreases |w|
  {
    if |w| == 1 {
      assert (t + " " + w)[..|t| + 1] == t + " ";
      assert (t + " ")[..|t|] == t;
    } else {
      var w' := w[..|w| - 1];
      assert (t + " " + w)[..|t + " " + w| - 1] == t + " " + w';
      SpaceRunsAppendWord(t, w');
    }
  }

  lemma {:induction false} JoinWordsShape(ws: seq<string>)
    requires |ws| > 0 && forall k :: 0 <= k < |ws| ==> IsWord(ws[k])
    ensures |JoinWords(ws)| > 0
    ensures !IsTrimmable(JoinWords(ws)[0]) && !IsTrimmable(JoinWords(ws)[|JoinWords(ws)| - 1])
    ensures SpaceRuns(JoinWords(ws)) == |ws| - 1
    decreases |ws|
  {
    if |ws| == 1 {
      WordHasNoSpaceRuns(ws[0]);
    } else {
      var init := ws[..|ws| - 1];
      JoinWordsShape(init);
      SpaceRunsAppendWord(JoinWords(init), ws[|ws| - 1]);
    }
  }

  /** A chunk of words separated by single spaces counts one token per word. */
  lemma {:induction false} CountsWords(ws: seq<string>)
    requires |ws| > 0 && forall k :: 0 <= k < |ws| ==> IsWord(ws[k])
    ensures TokenCount(JoinWords(ws)) == |ws|
  {
    JoinWordsShape(ws);
    var j := JoinWords(ws);
    assert TrimLeading(j) == j;
    assert TrimTrailing(j) == j;
  }

  /** A chunk with nothing but whitespace (or nothing at all) still advances the counter by one: `split` returns one empty piece. */
  lemma BlankChunkCountsOne(s: string)
    requires forall i :: 0 <= i < |s| ==> IsTrimmable(s[i])
    ensures TokenCount(s) == 1
  {
    TrimLeadingPadding(s, []);
    assert s + [] == s;
  }

  /** A single word with any whitespace around it counts one token. */
  lemma PaddedWordCountsOne(pre: string, w: string, post: string)
    requires forall i :: 0 <= i < |pre| ==> IsTrimmable(pre[i])
    requires forall i :: 0 <= i < |post| ==> IsTrimmable(post[i])
    requires IsWord(w)
    ensures TokenCount(pre + w + post) == 1
  {
    assert pre + w + post == pre + (w + post);
    TrimLeadingPadding(pre, w + post);
    TrimTrailingPadding(w, post);
    WordHasNoSpaceRuns(w);
  }

  // ----- the event loop -----

  /**
   * The characters case: append the chunk to every open mention; a mention
   * that has no start offset yet takes the chunk's start offset and the
   * current token counter; every mention's end offset moves to the chunk's.
   */
  function AddCharacters(m: XMLMention, text: string, startOffset: int, endOffset: int, counter: int): (r: XMLMention)
    ensures r.text == m.text + text && r.endingCharOffset == endOffset
    ensures r.mentionType == m.mentionType && r.index == m.index && r.depth == m.depth
    ensures m.startingCharOffset == -1 ==> r.startingCharOffset == startOffset && r.tokenOffset == counter
    ensures m.startingCharOffset != -1 ==> r.startingCharOffset == m.startingCharOffset && r.tokenOffset == m.tokenOffset
  {
    var first := m.startingCharOffset == -1;
    m.(text := m.text + text,
       startingCharOffset := if first then startOffset else m.startingCharOffset,
       tokenOffset := if first then counter else m.tokenOffset,
       endingCharOffset := endOffset)
  }

  function AddCharactersToAll(stack: seq<XMLMention>, text: string, startOffset: int, endOffset: int, counter: int): (r: seq<XMLMention>)
    ensures |r| == |stack|
    ensures forall i :: 0 <= i < |stack| ==> r[i] == AddCharacters(stack[i], text, startOffset, endOffset, counter)
  {
    seq(|stack|, i requires 0 <= i < |stack| => AddCharacters(stack[i], text, startOffset, endOffset, counter))
  }

  /**
   * A start tag: TEXT resets the token counter; a tag in the set opens a
   * mention with the next index, no text, no offsets yet, and the number of
   * unclosed mentions as depth, and pushes it.
   */
  function OnStart(tags: set<string>, st: ParserState, name: string): (r: ParserState)
    ensures r.open == st.open + [name] && r.mentions == st.mentions
    ensures name == TextTag ==> r.tokenCounter == 0 && r.stack == st.stack && r.index == st.index
    ensures name != TextTag && name in tags ==>
      && r.index == st.index + 1 && r.tokenCounter == st.tokenCounter
      && r.stack == st.stack + [XMLMention(name, "", st.index + 1, -1, -1, -1, |st.stack|)]
    ensures name != TextTag && name !in tags ==>
      r.stack == st.stack && r.index == st.index && r.tokenCounter == st.tokenCounter
  {
    var pushed := st.(open := st.open + [name]);
    if name == TextTag then
      pushed.(tokenCounter := 0)
    else if name in tags then
      var m := XMLMention(name, "", st.index + 1, -1, -1, -1, |st.stack|);
      pushed.(index := st.index + 1, stack := st.stack + [m])
    else
      pushed
  }

  /** A characters (or CDATA) chunk: every unclosed mention takes it in, and the token counter moves on. */
  function OnCharacters(st: ParserState, text: string, startOffset: int, endOffset: int): (r: ParserState)
    ensures r.open == st.open && r.mentions == st.mentions && r.index == st.index
    ensures r.tokenCounter == st.tokenCounter + TokenCount(text)
    ensures |r.stack| == |st.stack|
    ensures forall i :: 0 <= i < |st.stack| ==> r.stack[i] == AddCharacters(st.stack[i], text, startOffset, endOffset, st.tokenCounter)
  {
    st.(stack := AddCharactersToAll(st.stack, text, startOffset, endOffset, st.tokenCounter),
        tokenCounter := st.tokenCounter + TokenCount(text))
  }

  /**
   * An end tag: the reader rejects one that does not close the innermost
   * open element; a tag in the set pops the most recent unclosed mention
   * into the output (popping an empty `LinkedList` throws).
   */
  function OnEnd(tags: set<string>, st: ParserState, name: string): (r: Result<ParserState, Exception>)
    ensures |st.open| == 0 || st.open[|st.open| - 1] != name ==> r.Failure? && r.error.Parse?
    ensures r.Success? ==>
      && |st.open| > 0 && r.value.open == st.open[..|st.open| - 1]
      && r.value.index == st.index && r.value.tokenCounter == st.tokenCounter
    ensures r.Success? && name in tags ==>
      && |st.stack| > 0
      && r.value.mentions == st.mentions + [st.stack[|st.stack| - 1]]
      && r.value.stack == st.stack[..|st.stack| - 1]
    ensures r.Success? && name !in tags ==> r.value.stack == st.stack && r.value.mentions == st.mentions
    ensures |st.open| > 0 && st.open[|st.open| - 1] == name && (name !in tags || |st.stack| > 0) ==> r.Success?
  {
    if |st.open| == 0 || st.open[|st.open| - 1] != name then
      Failure(Parse("unexpected end tag " + name))
    else
      var closed := st.(open := st.open[..|st.open| - 1]);
      if name in tags then
        if |st.stack| == 0 then
          Failure(NoSuchElement)
        else
          Success(closed.(stack := st.stack[..|st.stack| - 1], mentions := st.mentions + [st.stack[|st.stack| - 1]]))
      else
        Success(closed)
  }

  /** One turn of the `while (xmlReader.hasNext())` loop. */
  function Step(tags: set<string>, st: ParserState, ev: Event): Result<ParserState, Exception> {
    match ev
    case StartElement(name) => Success(OnStart(tags, st, name))
    case Characters(text, startOffset, endOffset) => Success(OnCharacters(st, text, startOffset, endOffset))
    case EndElement(name) => OnEnd(tags, st, name)
    case OtherEvent => Success(st)
  }


  /** The open elements that opened a mention. */
  function OpenMentionCount(tags: set<string>, open: seq<string>): nat
    decreases |open|
  {
    if |open| == 0 then 0
    else OpenMentionCount(tags, open[..|open| - 1]) + (if open[|open| - 1] in tags then 1 else 0)
  }

  /** Some mention of `s` carries index `k`. */
  predicate HasIndex(s: seq<XMLMention>, k: int) {
    exists j :: 0 <= j < |s| && s[j].index == k
  }

  /**
   * What the loop keeps true (for tag sets without TEXT): one unclosed
   * mention per open entity element, each at the depth of its stack position;
   * the indices handed out so far, 0 through `index`, are each carried by a
   * closed or an unclosed mention; and every mention has an entity tag as type.
   */
  predicate Inv(tags: set<string>, st: ParserState) {
    && |st.stack| == OpenMentionCount(tags, st.open)
    && (forall i :: 0 <= i < |st.stack| ==> st.stack[i].depth == i)
    && st.index + 1 == |st.mentions| + |st.stack|
    && (forall j :: 0 <= j < |st.mentions| ==> 0 <= st.mentions[j].index <= st.index && st.mentions[j].mentionType in tags)
    && (forall j :: 0 <= j < |st.stack| ==> 0 <= st.stack[j].index <= st.index && st.stack[j].mentionType in tags)
    && (forall k :: 0 <= k <= st.index ==> HasIndex(st.mentions, k) || HasIndex(st.stack, k))
  }

  lemma StartPreservesInv(tags: set<string>, st: ParserState, name: string)
    requires TextTag !in tags && Inv(tags, st)
    ensures Inv(tags, OnStart(tags, st, name))
  {
    var st' := OnStart(tags, st, name);
    assert st'.open[..|st'.open| - 1] == st.open;
    if name in tags {
      assert name != TextTag;
      forall k | 0 <= k <= st'.index ensures HasIndex(st'.mentions, k) || HasIndex(st'.stack, k) {
        if k == st'.index {
          assert st'.stack[|st.stack|].index == k;
        } else if HasIndex(st.stack, k) {
          var j :| 0 <= j < |st.stack| && st.stack[j].index == k;
          assert st'.stack[j] == st.stack[j];
        }
      }
    }
  }

  lemma CharactersPreservesInv(tags: set<string>, st: ParserState, text: string, startOffset: int, endOffset: int)
    requires TextTag !in tags && Inv(tags, st)
    ensures Inv(tags, OnCharacters(st, text, startOffset, endOffset))
  {
    var st' := OnCharacters(st, text, startOffset, endOffset);
    assert forall i :: 0 <= i < |st'.stack| ==>
      st'.stack[i].depth == st.stack[i].depth && st'.stack[i].index == st.stack[i].index
      && st'.stack[i].mentionType == st.stack[i].mentionType;
    forall k | 0 <= k <= st'.index ensures HasIndex(st'.mentions, k) || HasIndex(st'.stack, k) {
      if HasIndex(st.stack, k) {
        var j :| 0 <= j < |st.stack| && st.stack[j].index == k;
        assert st'.stack[j].index == k;
      }
    }
  }

  lemma EndPreservesInv(tags: set<string>, st: ParserState, name: string)
    requires TextTag !in tags && Inv(tags, st)
    requires OnEnd(tags, st, name).Success?
    ensures Inv(tags, OnEnd(tags, st, name).value)
  {
    var st' := OnEnd(tags, st, name).value;
    assert st.open == st'.open + [name];
    if name in tags {
      var n := |st.stack|;
      forall k | 0 <= k <= st'.index ensures HasIndex(st'.mentions, k) || HasIndex(st'.stack, k) {
        if HasIndex(st.mentions, k) {
          var j :| 0 <= j < |st.mentions| && st.mentions[j].index == k;
          assert st'.mentions[j] == st.mentions[j];
        } else {
          var j :| 0 <= j < n && st.stack[j].index == k;
          if j == n - 1 {
            assert st'.mentions[|st.mentions|] == st.stack[j];
          } else {
            assert st'.stack[j] == st.stack[j];
          }
        }
      }
    }
  }

  lemma StepPreservesInv(tags: set<string>, st: ParserState, ev: Event)
    requires TextTag !in tags && Inv(tags, st)
    requires Step(tags, st, ev).Success?
    ensures Inv(tags, Step(tags, st, ev).value)
  {
    match ev
    case StartElement(name) => StartPreservesInv(tags, st, name);
    case Characters(text, s, e) => CharactersPreservesInv(tags, st, text, s, e);
    case EndElement(name) => EndPreservesInv(tags, st, name);
    case OtherEvent =>
  }

  /** The start events that open a mention. */
  function EntityStarts(tags: set<string>, events: seq<Event>): nat
    decreases |events|
  {
    if |events| == 0 then 0
    else
      var ev := events[|events| - 1];
      EntityStarts(tags, events[..|events| - 1])
        + (if ev.StartElement? && ev.name != TextTag && ev.name in tags then 1 else 0)
  }

  /** The loop over all events, stopping at the first exception. */
  function Run(tags: set<string>, events: seq<Event>): Result<ParserState, Exception>
    decreases |events|
  {
    if |events| == 0 then Success(Initial)
    else
      match Run(tags, events[..|events| - 1])
      case Failure(e) => Failure(e)
      case Success(st) => Step(tags, st, events[|events| - 1])
  }

  /**
   * After any run that did not throw, the last index handed out is one less
   * than the number of mention-opening start tags seen; for tag sets without
   * TEXT the loop invariant holds.
   */
  lemma {:induction false} RunKeepsInv(tags: set<string>, events: seq<Event>)
    ensures Run(tags, events).Success? ==> Run(tags, events).value.index == EntityStarts(tags, events) - 1
    ensures Run(tags, events).Success? && TextTag !in tags ==> Inv(tags, Run(tags, events).value)
    decreases |events|
  {
    if |events| > 0 {
      var init := events[..|events| - 1];
      RunKeepsInv(tags, init);
      if Run(tags, init).Success? && TextTag !in tags {
        var st := Run(tags, init).value;
        if Step(tags, st, events[|events| - 1]).Success? {
          StepPreservesInv(tags, st, events[|events| - 1]);
        }
      }
    }
  }

  /**
   * The reorder: an array as long as the list of closed mentions, each
   * mention written to the slot named by its index, in closing order. An
   * index outside the array raises `ArrayIndexOutOfBoundsException`; slots
   * nobody writes stay null.
   */
  function PlaceByIndex(ms: seq<XMLMention>, n: nat): (r: Result<seq<Option<XMLMention>>, Exception>)
    ensures r.Success? <==> forall j :: 0 <= j < |ms| ==> 0 <= ms[j].index < n
    ensures r.Success? ==> |r.value| == n
    ensures r.Success? ==> forall i :: 0 <= i < n ==> (r.value[i].Some? <==> HasIndex(ms, i))
    ensures r.Success? ==> forall i :: 0 <= i < n && r.value[i].Some? ==> r.value[i].value.index == i && r.value[i].value in ms
    decreases |ms|
  {
    if |ms| == 0 then Success(seq(n, _ => None))
    else
      var init := ms[..|ms| - 1];
      var m := ms[|ms| - 1];
      assert ms == init + [m];
      assert forall j :: 0 <= j < |init| ==> ms[j] == init[j];
      match PlaceByIndex(init, n)
      case Failure(e) => Failure(e)
      case Success(slots) =>
        if 0 <= m.index < n then
          var r := slots[m.index := Some(m)];
          assert forall i :: HasIndex(init, i) ==> HasIndex(ms, i) by {
            forall i | HasIndex(init, i) ensures HasIndex(ms, i) {
              var j :| 0 <= j < |init| && init[j].index == i;
              assert ms[j] == init[j];
            }
          }
          assert forall i :: HasIndex(ms, i) && i != m.index ==> HasIndex(init, i) by {
            forall i | HasIndex(ms, i) && i != m.index ensures HasIndex(init, i) {
              var j :| 0 <= j < |ms| && ms[j].index == i;
              assert j < |init| && init[j] == ms[j];
            }
          }
          assert HasIndex(ms, m.index) by {
            assert ms[|ms| - 1].index == m.index;
          }
          Success(r)
        else
          Failure(IndexOutOfBounds(m.index))
  }

  /**
   * `getXMLMentions(reader)`: run the loop, fail if an element is left open,
   * and return the closed mentions placed by index. For tag sets without
   * TEXT a successful parse fills every slot, slot `i` holding the mention
   * with index `i`, one slot per mention-opening start tag.
   */
  function GetXMLMentions(tags: set<string>, events: seq<Event>): Result<seq<Option<XMLMention>>, Exception> {
    match Run(tags, events)
    case Failure(e) => Failure(e)
    case Success(st) =>
      if |st.open| > 0 then Failure(Parse("unexpected end of input: an element is not closed"))
      else PlaceByIndex(st.mentions, |st.mentions|)
  }

  /**
   * For tag sets without TEXT a successful parse fills every slot: slot `i`
   * holds the mention with index `i`, and there is one slot per
   * mention-opening start tag.
   */
  lemma GetXMLMentionsFillsEverySlot(tags: set<string>, events: seq<Event>)
    requires TextTag !in tags
    ensures var r := GetXMLMentions(tags, events);
            r.Success? ==>
              && |r.value| == EntityStarts(tags, events)
              && forall i :: 0 <= i < |r.value| ==>
                   r.value[i].Some? && r.value[i].value.index == i && r.value[i].value.mentionType in tags
  {
    RunKeepsInv(tags, events);
  }
}

=== FILE: xml_parser_cases.dfy ===
/**
 * The documents of the `XMLEntityParser` unit tests
 * (`xml/XMLEntityParserTest.java`), reduced to the events inside their TEXT
 * element, run through the model of `getXMLMentions`.
 */
module XmlEntityParserCases {
  import opened Wrappers
  import opened Exceptions
  import opened XmlEntityParsing

  /** The loop over one more event is one more `Step`. */
  lemma RunSnoc(tags: set<string>, events: seq<Event>, ev: Event)
    ensures Run(tags, events).Failure? ==> Run(tags, events + [ev]) == Run(tags, events)
    ensures Run(tags, events).Success? ==> Run(tags, events + [ev]) == Step(tags, Run(tags, events).value, ev)
  {
    assert (events + [ev])[..|events|] == events;
  }

  /** A loop that has reached `a` and then steps from `a` to `b` has reached `b`. */
  lemma RunStep(tags: set<string>, events: seq<Event>, ev: Event, a: ParserState, b: ParserState)
    requires Run(tags, events) == Success(a) && Step(tags, a, ev) == Success(b)
    ensures Run(tags, events + [ev]) == Success(b)
  {
    RunSnoc(tags, events, ev);
  }

  /** The chunks before and inside the first entity of the unit tests each count one token. */
  lemma UnitTestTokenCounts()
    ensures TokenCount("\nabc ") == 1 && TokenCount("def ") == 1
  {
    assert "\nabc " == "\n" + "abc" + " ";
    PaddedWordCountsOne("\n", "abc", " ");
    assert "def " == "" + "def" + " ";
    PaddedWordCountsOne("", "def", " ");
  }

  /** Two distinct entity tags, neither of them TEXT. */
  predicate TwoTags(outer: string, inner: string) {
    outer != inner && outer != TextTag && inner != TextTag
  }

  /** A characters event replaces the stack by its chunk-extended copy and moves the counter on. */
  lemma CharactersStep(tags: set<string>, st: ParserState, text: string, s: int, e: int, stack': seq<XMLMention>)
    requires stack' == AddCharactersToAll(st.stack, text, s, e, st.tokenCounter)
    ensures Step(tags, st, Characters(text, s, e))
            == Success(ParserState(st.open, stack', st.mentions, st.index, st.tokenCounter + TokenCount(text)))
  {
  }

  lemma AddCharactersToNone(text: string, s: int, e: int, c: int)
    ensures AddCharactersToAll([], text, s, e, c) == []
  {
  }

  lemma AddCharactersToOne(m: XMLMention, text: string, s: int, e: int, c: int)
    ensures AddCharactersToAll([m], text, s, e, c) == [AddCharacters(m, text, s, e, c)]
  {
  }

  lemma AddCharactersToTwo(m: XMLMention, n: XMLMention, text: string, s: int, e: int, c: int)
    ensures AddCharactersToAll([m, n], text, s, e, c) == [AddCharacters(m, text, s, e, c), AddCharacters(n, text, s, e, c)]
  {
  }

  // One lemma per event of the nested unit test, each stating the state after the event.

  lemma NestedStep0(tags: set<string>)
    requires TextTag !in tags
    ensures Step(tags, Initial, StartElement(TextTag)) == Success(ParserState([TextTag], [], [], -1, 0))
  {
    assert [] + [TextTag] == [TextTag];
  }

  lemma NestedStep1(tags: set<string>, pre: string)
    ensures Step(tags, ParserState([TextTag], [], [], -1, 0), Characters(pre, 0, 5))
            == Success(ParserState([TextTag], [], [], -1, TokenCount(pre)))
  {
    AddCharactersToNone(pre, 0, 5, 0);
    CharactersStep(tags, ParserState([TextTag], [], [], -1, 0), pre, 0, 5, []);
  }

  lemma NestedStep2(outer: string, inner: string, c0: int)
    requires TwoTags(outer, inner)
    ensures Step({outer, inner}, ParserState([TextTag], [], [], -1, c0), StartElement(outer))
            == Success(ParserState([TextTag, outer], [XMLMention(outer, "", 0, -1, -1, -1, 0)], [], 0, c0))
  {
    var m := XMLMention(outer, "", 0, -1, -1, -1, 0);
    assert [TextTag] + [outer] == [TextTag, outer];
    assert [] + [m] == [m];
  }

  lemma NestedStep3(tags: set<string>, outer: string, t1: string, c0: int)
    ensures Step(tags, ParserState([TextTag, outer], [XMLMention(outer, "", 0, -1, -1, -1, 0)], [], 0, c0), Characters(t1, 5, 9))
            == Success(ParserState([TextTag, outer], [XMLMention(outer, t1, 0, 5, 9, c0, 0)], [], 0, c0 + TokenCount(t1)))
  {
    var m := XMLMention(outer, "", 0, -1, -1, -1, 0);
    assert "" + t1 == t1;
    AddCharactersToOne(m, t1, 5, 9, c0);
    CharactersStep(tags, ParserState([TextTag, outer], [m], [], 0, c0), t1, 5, 9, [XMLMention(outer, t1, 0, 5, 9, c0, 0)]);
  }

  lemma NestedStep4(outer: string, inner: string, a1: XMLMention, c: int)
    requires TwoTags(outer, inner)
    ensures Step({outer, inner}, ParserState([TextTag, outer], [a1], [], 0, c), StartElement(inner))
            == Success(ParserState([TextTag, outer, inner], [a1, XMLMention(inner, "", 1, -1, -1, -1, 1)], [], 1, c))
  {
    var b0 := XMLMention(inner, "", 1, -1, -1, -1, 1);
    assert [TextTag, outer] + [inner] == [TextTag, outer, inner];
    assert [a1] + [b0] == [a1, b0];
  }

  lemma NestedStep5(tags: set<string>, outer: string, inner: string, t1: string, t2: string, c0: int, c: int)
    ensures var a1 := XMLMention(outer, t1, 0, 5, 9, c0, 0);
            var b0 := XMLMention(inner, "", 1, -1, -1, -1, 1);
            Step(tags, ParserState([TextTag, outer, inner], [a1, b0], [], 1, c), Characters(t2, 9, 12))
            == Success(ParserState([TextTag, outer, inner],
                                   [XMLMention(outer, t1 + t2, 0, 5, 12, c0, 0), XMLMention(inner, t2, 1, 9, 12, c, 1)],
                                   [], 1, c + TokenCount(t2)))
  {
    var a1 := XMLMention(outer, t1, 0, 5, 9, c0, 0);
    var b0 := XMLMention(inner, "", 1, -1, -1, -1, 1);
    assert "" + t2 == t2;
    AddCharactersToTwo(a1, b0, t2, 9, 12, c);
    CharactersStep(tags, ParserState([TextTag, outer, inner], [a1, b0], [], 1, c), t2, 9, 12,
                   [XMLMention(outer, t1 + t2, 0, 5, 12, c0, 0), XMLMention(inner, t2, 1, 9, 12, c, 1)]);
  }

  lemma NestedStep6(outer: string, inner: string, a2: XMLMention, b1: XMLMention, c: int)
    requires TwoTags(outer, inner)
    ensures Step({outer, inner}, ParserState([TextTag, outer, inner], [a2, b1], [], 1, c), EndElement(inner))
            == Success(ParserState([TextTag, outer], [a2], [b1], 1, c))
  {
    assert [TextTag, outer, inner][..2] == [TextTag, outer];
    assert [a2, b1][..1] == [a2];
    assert [] + [b1] == [b1];
  }

  lemma NestedStep7(tags: set<string>, outer: string, t12: string, t3: string, b1: XMLMention, c0: int, c: int)
    ensures Step(tags, ParserState([TextTag, outer], [XMLMention(outer, t12, 0, 5, 12, c0, 0)], [b1], 1, c), Characters(t3, 12, 16))
            == Success(ParserState([TextTag, outer], [XMLMention(outer, t12 + t3, 0, 5, 16, c0, 0)], [b1], 1, c + TokenCount(t3)))
  {
    var a2 := XMLMention(outer, t12, 0, 5, 12, c0, 0);
    AddCharactersToOne(a2, t3, 12, 16, c);
    CharactersStep(tags, ParserState([TextTag, outer], [a2], [b1], 1, c), t3, 12, 16, [XMLMention(outer, t12 + t3, 0, 5, 16, c0, 0)]);
  }

  lemma NestedStep8(outer: string, inner: string, a3: XMLMention, b1: XMLMention, c: int)
    requires TwoTags(outer, inner)
    ensures Step({outer, inner}, ParserState([TextTag, outer], [a3], [b1], 1, c), EndElement(outer))
            == Success(ParserState([TextTag], [], [b1, a3], 1, c))
  {
    assert [TextTag, outer][..1] == [TextTag];
    assert [a3][..0] == [];
    assert [b1] + [a3] == [b1, a3];
  }

  lemma NestedStep9(tags: set<string>, t4: string, ms: seq<XMLMention>, c: int)
    ensures Step(tags, ParserState([TextTag], [], ms, 1, c), Characters(t4, 16, 21))
            == Success(ParserState([TextTag], [], ms, 1, c + TokenCount(t4)))
  {
    AddCharactersToNone(t4, 16, 21, c);
    CharactersStep(tags, ParserState([TextTag], [], ms, 1, c), t4, 16, 21, []);
  }

  lemma NestedStep10(tags: set<string>, ms: seq<XMLMention>, c: int)
    requires TextTag !in tags
    ensures Step(tags, ParserState([TextTag], [], ms, 1, c), EndElement(TextTag))
            == Success(ParserState([], [], ms, 1, c))
  {
    assert [TextTag][..0] == [];
  }

  lemma NestedPlacement(a: XMLMention, b: XMLMention)
    requires a.index == 0 && b.index == 1
    ensures PlaceByIndex([b, a], 2) == Success([Some(a), Some(b)])
  {
    assert [b][..0] == [];
    assert PlaceByIndex([], 2) == Success(seq(2, _ => None));
    assert seq(2, _ => None)[1 := Some(b)] == [None, Some(b)];
    assert PlaceByIndex([b], 2) == Success([None, Some(b)]);
    assert [b, a][..1] == [b];
    assert [None, Some(b)][0 := Some(a)] == [Some(a), Some(b)];
  }

  /** The events of the nested unit test, with its entity tags and chunks as parameters and the test's character offsets. */
  function NestedEvents(outer: string, inner: string, pre: string, t1: string, t2: string, t3: string, t4: string): seq<Event> {
    [StartElement(TextTag), Characters(pre, 0, 5),
     StartElement(outer), Characters(t1, 5, 9),
     StartElement(inner), Characters(t2, 9, 12), EndElement(inner),
     Characters(t3, 12, 16), EndElement(outer),
     Characters(t4, 16, 21), EndElement(TextTag)]
  }

  /** The text element opens and its first chunk counts its tokens. */
  lemma NestedText(tags: set<string>, pre: string)
    requires TextTag !in tags
    ensures Run(tags, [StartElement(TextTag), Characters(pre, 0, 5)])
            == Success(ParserState([TextTag], [], [], -1, TokenCount(pre)))
  {
    NestedStep0(tags);
    RunStep(tags, [], StartElement(TextTag), Initial, ParserState([TextTag], [], [], -1, 0));
    assert [] + [StartElement(TextTag)] == [StartElement(TextTag)];
    NestedStep1(tags, pre);
    RunStep(tags, [StartElement(TextTag)], Characters(pre, 0, 5),
            ParserState([TextTag], [], [], -1, 0), ParserState([TextTag], [], [], -1, TokenCount(pre)));
    assert [StartElement(TextTag)] + [Characters(pre, 0, 5)] == [StartElement(TextTag), Characters(pre, 0, 5)];
  }

  /** The outer entity opens and takes in its first chunk. */
  lemma NestedOpening(outer: string, inner: string, pre: string, t1: string)
    requires TwoTags(outer, inner)
    ensures var c0 := TokenCount(pre);
            Run({outer, inner}, [StartElement(TextTag), Characters(pre, 0, 5), StartElement(outer), Characters(t1, 5, 9)])
            == Success(ParserState([TextTag, outer], [XMLMention(outer, t1, 0, 5, 9, c0, 0)], [], 0, c0 + TokenCount(t1)))
  {
    var tags := {outer, inner};
    var c0 := TokenCount(pre);
    var p := [StartElement(TextTag), Characters(pre, 0, 5)];
    NestedText(tags, pre);
    NestedStep2(outer, inner, c0);
    var a0 := XMLMention(outer, "", 0, -1, -1, -1, 0);
    RunStep(tags, p, StartElement(outer), ParserState([TextTag], [], [], -1, c0), ParserState([TextTag, outer], [a0], [], 0, c0));
    p := p + [StartElement(outer)];
    NestedStep3(tags, outer, t1, c0);
    RunStep(tags, p, Characters(t1, 5, 9), ParserState([TextTag, outer], [a0], [], 0, c0),
            ParserState([TextTag, outer], [XMLMention(outer, t1, 0, 5, 9, c0, 0)], [], 0, c0 + TokenCount(t1)));
    p := p + [Characters(t1, 5, 9)];
    assert p == [StartElement(TextTag), Characters(pre, 0, 5), StartElement(outer), Characters(t1, 5, 9)];
  }

  /** The inner entity opens, takes in its chunk (as does the outer one), and closes. */
  lemma NestedInner(outer: string, inner: string, t1: string, t2: string, c0: int, c1: int, p: seq<Event>)
    requires TwoTags(outer, inner)
    requires Run({outer, inner}, p) == Success(ParserState([TextTag, outer], [XMLMention(outer, t1, 0, 5, 9, c0, 0)], [], 0, c1))
    ensures Run({outer, inner}, p + [StartElement(inner), Characters(t2, 9, 12), EndElement(inner)])
            == Success(ParserState([TextTag, outer], [XMLMention(outer, t1 + t2, 0, 5, 12, c0, 0)],
                                   [XMLMention(inner, t2, 1, 9, 12, c1, 1)], 1, c1 + TokenCount(t2)))
  {
    var tags := {outer, inner};
    var c2 := c1 + TokenCount(t2);
    var a1 := XMLMention(outer, t1, 0, 5, 9, c0, 0);
    var b0 := XMLMention(inner, "", 1, -1, -1, -1, 1);
    var a2 := XMLMention(outer, t1 + t2, 0, 5, 12, c0, 0);
    var b1 := XMLMention(inner, t2, 1, 9, 12, c1, 1);
    var q := p;
    NestedStep4(outer, inner, a1, c1);
    RunStep(tags, q, StartElement(inner), ParserState([TextTag, outer], [a1], [], 0, c1), ParserState([TextTag, outer, inner], [a1, b0], [], 1, c1));
    q := q + [StartElement(inner)];
    NestedStep5(tags, outer, inner, t1, t2, c0, c1);
    RunStep(tags, q, Characters(t2, 9, 12), ParserState([TextTag, outer, inner], [a1, b0], [], 1, c1), ParserState([TextTag, outer, inner], [a2, b1], [], 1, c2));
    q := q + [Characters(t2, 9, 12)];
    NestedStep6(outer, inner, a2, b1, c2);
    RunStep(tags, q, EndElement(inner), ParserState([TextTag, outer, inner], [a2, b1], [], 1, c2), ParserState([TextTag, outer], [a2], [b1], 1, c2));
    q := q + [EndElement(inner)];
    assert q == p + [StartElement(inner), Characters(t2, 9, 12), EndElement(inner)];
  }

  /** The outer entity takes in its last chunk and closes, then the text element closes. */
  lemma NestedClosing(outer: string, inner: string, t12: string, t3: string, t4: string, b1: XMLMention, c0: int, c2: int, p: seq<Event>)
    requires TwoTags(outer, inner)
    requires Run({outer, inner}, p) == Success(ParserState([TextTag, outer], [XMLMention(outer, t12, 0, 5, 12, c0, 0)], [b1], 1, c2))
    ensures Run({outer, inner}, p + [Characters(t3, 12, 16), EndElement(outer), Characters(t4, 16, 21), EndElement(TextTag)])
            == Success(ParserState([], [], [b1, XMLMention(outer, t12 + t3, 0, 5, 16, c0, 0)], 1, c2 + TokenCount(t3) + TokenCount(t4)))
  {
    var tags := {outer, inner};
    var c3 := c2 + TokenCount(t3);
    var c4 := c3 + TokenCount(t4);
    var a2 := XMLMention(outer, t12, 0, 5, 12, c0, 0);
    var a3 := XMLMention(outer, t12 + t3, 0, 5, 16, c0, 0);
    var q := p;
    NestedStep7(tags, outer, t12, t3, b1, c0, c2);
    RunStep(tags, q, Characters(t3, 12, 16), ParserState([TextTag, outer], [a2], [b1], 1, c2), ParserState([TextTag, outer], [a3], [b1], 1, c3));
    q := q + [Characters(t3, 12, 16)];
    NestedStep8(outer, inner, a3, b1, c3);
    RunStep(tags, q, EndElement(outer), ParserState([TextTag, outer], [a3], [b1], 1, c3), ParserState([TextTag], [], [b1, a3], 1, c3));
    q := q + [EndElement(outer)];
    NestedStep9(tags, t4, [b1, a3], c3);
    RunStep(tags, q, Characters(t4, 16, 21), ParserState([TextTag], [], [b1, a3], 1, c3), ParserState([TextTag], [], [b1, a3], 1, c4));
    q := q + [Characters(t4, 16, 21)];
    NestedStep10(tags, [b1, a3], c4);
    RunStep(tags, q, EndElement(TextTag), ParserState([TextTag], [], [b1, a3], 1, c4), ParserState([], [], [b1, a3], 1, c4));
    q := q + [EndElement(TextTag)];
    assert q == p + [Characters(t3, 12, 16), EndElement(outer), Characters(t4, 16, 21), EndElement(TextTag)];
  }

  /**
   * The nested unit test, "pre <outer>t1 <inner>t2</inner> t3</outer> t4"
   * inside TEXT: the outer mention collects the inner one's text, the inner
   * one sits one level deeper, each takes the token count before its first
   * chunk, and the outer one comes first although it closes last.
   */
  lemma NestedMentions(outer: string, inner: string, pre: string, t1: string, t2: string, t3: string, t4: string)
    requires TwoTags(outer, inner)
    ensures GetXMLMentions({outer, inner}, NestedEvents(outer, inner, pre, t1, t2, t3, t4))
            == Success([Some(XMLMention(outer, t1 + t2 + t3, 0, 5, 16, TokenCount(pre), 0)),
                        Some(XMLMention(inner, t2, 1, 9, 12, TokenCount(pre) + TokenCount(t1), 1))])
  {
    var c0 := TokenCount(pre);
    var c1 := c0 + TokenCount(t1);
    var p1 := [StartElement(TextTag), Characters(pre, 0, 5), StartElement(outer), Characters(t1, 5, 9)];
    NestedOpening(outer, inner, pre, t1);
    var p2 := p1 + [StartElement(inner), Characters(t2, 9, 12), EndElement(inner)];
    NestedInner(outer, inner, t1, t2, c0, c1, p1);
    var b1 := XMLMention(inner, t2, 1, 9, 12, c1, 1);
    var p3 := p2 + [Characters(t3, 12, 16), EndElement(outer), Characters(t4, 16, 21), EndElement(TextTag)];
    NestedClosing(outer, inner, t1 + t2, t3, t4, b1, c0, c1 + TokenCount(t2), p2);
    assert p3 == NestedEvents(outer, inner, pre, t1, t2, t3, t4);
    NestedPlacement(XMLMention(outer, t1 + t2 + t3, 0, 5, 16, c0, 0), b1);
  }

  /** The nested unit test with its own tags and chunks: offsets 1 and 2 into the token stream. */
  lemma NestedUnitTest(a: string, b: string)
    requires a == "ENA" && b == "ENB"
    ensures GetXMLMentions({a, b}, NestedEvents(a, b, "\nabc ", "def ", "ghi", " jkl", " mno\n"))
            == Success([Some(XMLMention(a, "def ghi jkl", 0, 5, 16, 1, 0)),
                        Some(XMLMention(b, "ghi", 1, 9, 12, 2, 1))])
  {
    assert a[0] != TextTag[0] && b[0] != TextTag[0] && a[2] != b[2];
    NestedMentions(a, b, "\nabc ", "def ", "ghi", " jkl", " mno\n");
    UnitTestTokenCounts();
    assert "def " + "ghi" + " jkl" == "def ghi jkl";
  }

  /**
   * An end tag that does not close the open entity element is a parse error.
   * Both error tests end here: the one with a missing end tag still has the
   * document footer, whose TEXT end tag arrives while the entity is open.
   */
  lemma MismatchedEndTag(outer: string, inner: string, other: string, pre: string, t1: string)
    requires TwoTags(outer, inner) && other != outer
    ensures var r := GetXMLMentions({outer, inner}, [StartElement(TextTag), Characters(pre, 0, 5),
                                                     StartElement(outer), Characters(t1, 5, 9), EndElement(other)]);
            r.Failure? && r.error.Parse?
  {
    var p := [StartElement(TextTag), Characters(pre, 0, 5), StartElement(outer), Characters(t1, 5, 9)];
    NestedOpening(outer, inner, pre, t1);
    RunSnoc({outer, inner}, p, EndElement(other));
    assert p + [EndElement(other)] == [StartElement(TextTag), Characters(pre, 0, 5),
                                       StartElement(outer), Characters(t1, 5, 9), EndElement(other)];
  }

  /** An entity element still open when the events run out is a parse error. */
  lemma MissingEndTag(outer: string, inner: string, pre: string, t1: string)
    requires TwoTags(outer, inner)
    ensures var r := GetXMLMentions({outer, inner}, [StartElement(TextTag), Characters(pre, 0, 5),
                                                     StartElement(outer), Characters(t1, 5, 9)]);
            r.Failure? && r.error.Parse?
  {
    NestedOpening(outer, inner, pre, t1);
  }
}
